=== FILE: README.md ===
# TikalInvest brokerage — a Dafny model of its money, position and form logic

TikalInvest is a simulated brokerage. A Django back end keeps users, cash
balances, stock transactions, e-mail verification codes and report requests. A
React/Next front end shows the market catalogue, the trading and wallet pages,
the portfolio and the registration and administration screens. This project
models the logic those layers compute, as pure functions over immutable
datatypes, and proves what the code promises about it.

- **Position ledgers.** `Holdings` covers the per-symbol fold of the
  portfolio model. `PortfolioData` covers the buys-then-sells fold of the
  portfolio views. `Dashboard` covers the dashboard statistics. `Valuation`
  covers the front-end valuation of positions. `Trading` covers the trading
  screen's local portfolio and chart helpers.
- **Cash ledgers.** `Cash` covers the transaction and wallet balance effects,
  the buy check and the wallet views. `Referrals` covers the two referral
  bonuses. `Accounts` covers the derived referral code.
- **State machines.** `Verification` covers e-mail verification codes.
  `Reports` covers the report-request lifecycle.
- **Validators and parsers.** `Market` covers market hours, chart combinations
  and ticker symbols. `Auth` covers the bearer header, the name split and the
  user defaults. `Forms` covers the register, security-question and report
  forms. `Orders` covers the wallet and trade forms. `Routes` covers the
  single-page router.
- **List transforms.** `Catalog` covers catalogue filters, pagination and the
  landing list. `Listings` covers the history, transactions and user screens.
  `Settings` covers the payments and deposits screen. `Csv` covers the
  activity export. It also holds a reference reader that follows section 2
  of RFC 4180, against which the export's round trip is stated.
- **Shared helpers.** `Base`, `Money` (`round(x, 2)`), `Text` (trimming,
  splitting, case) and `Seqs` (filter, sums, a stable sort).

Money and share counts are exact `real` numbers. Python's `round(x, 2)` is
modelled (ties to even) only where the code calls it. JavaScript's `NaN` from
an unparsable input is `None`; every comparison with it is false, as in
JavaScript. Clocks, randomness and network replies are parameters.

## Model

| member | source | states |
|---|---|---|
| Money.Round2 | backend/apps/wallet/models.py:21-24 | `round(x, 2)`: a whole number of cents within half a cent of `x` |
| Money.Round2Idempotent | backend/apps/wallet/models.py:21-24 | rounding an already rounded amount changes nothing |
| Money.Round2Monotone | backend/apps/transactions/models.py:28 | rounding never reverses the order of two amounts |
| Holdings.SaveTotal | backend/apps/portfolio/models.py:49-53 | a zero (falsy) total becomes shares × price per share; a non-zero total is kept; no other field changes |
| Holdings.SaveTotalIdempotent | backend/apps/portfolio/models.py:49-53 | saving a transaction a second time leaves it as the first save did |
| Holdings.TotalInvested | backend/apps/portfolio/models.py:69-78 | the sum of completed buy totals minus the sum of completed sell totals |
| Holdings.TotalInvestedIgnoresIncomplete | backend/apps/portfolio/models.py:71 | dropping every non-completed row leaves total invested unchanged |
| Holdings.CurrentValue | backend/apps/portfolio/models.py:80-84 | the current value is the total invested, for every history |
| Holdings.TotalGains | backend/apps/portfolio/models.py:86-88 | total gains are 0 for every history |
| Holdings.Apply | backend/apps/portfolio/models.py:105-124 | a buy adds its shares and total and sets average × shares = invested; a sell clamps shares at 0, keeps the average, resets invested to 0 at zero shares and otherwise subtracts the sale total |
| Holdings.Accumulate | backend/apps/portfolio/models.py:92-124 | a symbol has an entry exactly when it has a completed transaction, and the entry carries that symbol |
| Holdings.PortfolioHoldings | backend/apps/portfolio/models.py:126-127 | the returned entries are exactly the accumulated ones with positive shares |
| Holdings.AccumulateStep | backend/apps/portfolio/models.py:95-124 | one more completed row of a symbol applies one fold step to that symbol's entry (created fresh on first sight); any other row leaves the entry as it was |
| Holdings.AccumulatePerSymbol | backend/apps/portfolio/models.py:92-105 | a symbol's entry is the one obtained by folding only that symbol's completed rows |
| Holdings.SharesNonNegative | backend/apps/portfolio/models.py:118-119 | with no negative buy, no entry ever holds negative shares |
| Holdings.BuyKeepsAverage | backend/apps/portfolio/models.py:106-117 | after a buy with positive resulting shares, average price × shares = total invested |
| Holdings.BuyOnlyAverage | backend/apps/portfolio/models.py:106-117 | for buys only, an entry holds the sum of the bought shares and totals and average × shares = invested |
| Holdings.FullSaleDropsSymbol | backend/apps/portfolio/models.py:106-127 | buying 10 at 100 and 5 at 120 averages 1600/15; selling all 15 resets invested to 0 and drops the symbol; total invested goes to −650 |
| Holdings.PartialSaleSubtractsProceeds | backend/apps/portfolio/models.py:118-124 | buying 10 at 100 and selling 5 at 150 leaves 5 shares at average 100 with only 250 invested, so average × shares ≠ invested |
| PortfolioData.BuyPassSums | backend/TikalInvest/views.py:111-122 | after the buy loop a stock has a lot exactly when it has a completed buy, holding the sums of its buy quantities and amounts |
| PortfolioData.SellPassSums | backend/TikalInvest/views.py:124-128 | the sell loop takes the sums of a stock's completed sell quantities and amounts off its lot |
| PortfolioData.LotsClosedForm | backend/TikalInvest/views.py:95-128 | whatever the row order, a stock has a lot exactly when it has a completed buy, and the lot holds net quantity and net cost; a sell with no buy creates nothing |
| PortfolioData.SellBeforeBuyDiffers | backend/TikalInvest/views.py:111-128 | a sell of 5 before a buy of 5 nets to nothing here, while the time-ordered model ledger ends with 5 shares |
| PortfolioData.BuyOrderMembers | backend/TikalInvest/views.py:113-119 | the dictionary's key order lists exactly the stocks that have a lot |
| PortfolioData.ProfitLossPercent | backend/TikalInvest/views.py:142 | 0 when the cost is not positive; otherwise percent × cost = profit × 100 |
| PortfolioData.ItemOf | backend/TikalInvest/views.py:137-155 | the item keeps the stock and quantity; the average price is in cents within half a cent of cost ÷ quantity; value and profit are rounded; the percentage is 0 for a non-positive cost; a missing change percent is 0 |
| PortfolioData.ReportedIdsExact | backend/TikalInvest/views.py:136-137 | a stock is reported exactly when it has a completed buy and a positive net quantity |
| PortfolioData.ReportedIds | backend/TikalInvest/views.py:136-137 | every reported stock has a lot with positive quantity, and none is reported twice |
| PortfolioData.DailyChangePercent | backend/TikalInvest/views.py:162-163 | the daily change percent is 2 for a positive holdings value and 0 otherwise |
| PortfolioData.PercentOfCost | backend/TikalInvest/views.py:173 | 0 when the cost is not positive; otherwise the profit × 100 ÷ cost rounded to cents, so percentage × cost is within half a cent × cost of profit × 100 |
| PortfolioData.PercentWithinHalfCent | backend/TikalInvest/views.py:173 | for a positive base, rounding part ÷ base × 100 to cents and multiplying back by the base lands within 0.005 × base of part × 100 |
| PortfolioData.Summarize | backend/TikalInvest/views.py:157-176 | total value = rounded (Σ values + balance); invested and holdings value are rounded sums; profit = rounded (Σ values − Σ costs); the daily change is 2% of the holdings value, rounded; the profit percentage is the total profit as a percentage of the total cost (0 when nothing is invested); the count is the number of items |
| PortfolioData.PortfolioSummary | backend/TikalInvest/views.py:193-226 | net invested = completed buy amounts − completed sell amounts, and total value = net invested + balance, each rounded; the count is the corrected holdings count |
| PortfolioData.PortfolioSummaryAsWritten | backend/TikalInvest/views.py:208-226 | the same summary with the holdings count as the query computes it |
| PortfolioData.AsWrittenUndercounts | backend/TikalInvest/views.py:208-219 | the count as written never exceeds the corrected count |
| PortfolioData.UnsoldStockNotCounted | backend/TikalInvest/views.py:208-219 | one stock bought and never sold is counted 0 times as written and once when corrected |
| PortfolioData.HoldingsCountMatchesPortfolioData | backend/TikalInvest/views.py:136-175 | with no negative quantities, the corrected count equals the holdings count that portfolio_data reports, rows whose stock was deleted being skipped by both |
| PortfolioData.PortfolioDataFailsAsWritten | backend/TikalInvest/views.py:111-140 | as written the view answers exactly when every completed buy or sell still has its stock and no holding is reported, and then answers the intended cash-only summary; with no negative quantities it fails on the Decimal quantity exactly when the corrected holdings count is positive |
| PortfolioData.OneBuyCrashes | backend/TikalInvest/views.py:111-140 | one completed buy of 10 shares makes the view fail on the Decimal quantity; adding a completed buy whose stock was deleted makes it fail earlier on `tx.stock.id`, while the intended view reports the holding |
| Cash.LineTotal | backend/apps/transactions/models.py:28 | the line total is whole cents within half a cent of price × quantity |
| Cash.Reprice | backend/apps/transactions/models.py:26-28 | a buy or sell with a stock and a non-zero quantity takes the stock's current price and the rounded line total; any other row is left as it is |
| Cash.RepriceIgnoresClientPrice | backend/apps/transactions/models.py:26-28 | whatever price and total the client sent, a priced row saves the same |
| Cash.Settle | backend/apps/transactions/models.py:32-39 | a buy debits and a sell credits the total, a deposit credits and a withdraw debits the total or 0, each rounded to cents; a buy or sell without a total fails |
| Cash.MissingTotalIsNoOp | backend/apps/transactions/models.py:36-39 | a deposit or withdraw with no total leaves a cents balance unchanged |
| Cash.Save | backend/apps/transactions/models.py:25-41 | a priced buy or sell always settles; an unpriced one settles exactly when it carries a total |
| Cash.SellUndoesBuy | backend/apps/transactions/models.py:25-41 | saving a priced buy and then the same row as a sell restores the balance |
| Cash.BuyCanOverdraw | backend/apps/transactions/models.py:25-39 | a buy of 10 from a zero balance leaves −10: there is no sufficiency check |
| Cash.WithdrawCanOverdraw | backend/apps/transactions/models.py:36-39 | a withdraw of 20 from 5 leaves −15 |
| Cash.FromRequest | backend/apps/transactions/serializers.py:12 | a row created through the API starts without price and total, which are read-only |
| Cash.ApiDepositIsNoOp | backend/apps/transactions/serializers.py:12 | because total is read-only, an API deposit or withdraw leaves the balance unchanged |
| Cash.Validate | backend/apps/transactions/serializers.py:14-32 | a buy or sell without a stock is rejected; a buy is rejected exactly when balance < price × quantity (an exactly affordable buy passes); sells, deposits and withdraws pass |
| Cash.ValidatedBuyCovered | backend/apps/transactions/serializers.py:23-26 | a buy that passes validation saves to a non-negative balance |
| Cash.DepositView | backend/apps/wallet/views.py:15-18 | a missing amount changes nothing; a positive amount raises and a negative one lowers the balance: there is no positivity check |
| Cash.WithdrawView | backend/apps/wallet/views.py:26-32 | refused exactly when balance < amount; otherwise the amount is subtracted and the result is not negative |
| Cash.WalletPostAsWritten | backend/apps/wallet/views.py:16-33 | as written, for a user loaded from the database, no deposit or withdrawal is ever accepted; a withdrawal above the balance is still refused with 400 |
| Cash.WalletPostsFailAsWritten | backend/apps/wallet/views.py:18-31 | as written every deposit fails with a server error, and a withdrawal fails exactly when the corrected view would accept it and is refused exactly when the corrected view refuses it |
| Cash.WithdrawUndoesDeposit | backend/apps/wallet/views.py:15-32 | depositing an amount and withdrawing it again returns to the starting balance |
| Cash.WalletHistory | backend/apps/wallet/views.py:40-42 | corrected listing: the history is a permutation of the rows, newest first |
| Cash.WalletHistoryAsWritten | backend/apps/wallet/views.py:40-42 | as written, only an empty history is answered; any wallet row makes the view fail |
| Cash.HistoryFailsAsWritten | backend/apps/wallet/views.py:41 | as written the view fails exactly when the corrected listing is non-empty, and both answer an empty history with the empty list |
| Cash.WalletSave | backend/apps/wallet/models.py:18-26 | a deposit adds and a withdraw subtracts the amount, rounded to cents; any other type leaves the balance as it was |
| Cash.WalletWithdrawUndoesDeposit | backend/apps/wallet/models.py:21-24 | a deposit followed by a withdraw of the same cents amount restores the balance |
| Cash.WalletWithdrawCanOverdraw | backend/apps/wallet/models.py:23-24 | a withdraw of 25 from 10 leaves −15 |
| Accounts.NewUser | backend/accounts/models.py:16-21 | a new user is a trader, not verified, with no referral code and no referrer |
| Accounts.Prefix4 | backend/accounts/models.py:30 | the first four characters of the username, or all of it when shorter |
| Accounts.DeriveCode | backend/accounts/models.py:30 | the code is at most 12 long, longer than the username prefix, and starts with that prefix upper-cased |
| Accounts.DeriveCodeShape | backend/accounts/models.py:30 | with a username of at least 4 characters whose first four are ASCII (so upper-casing keeps one character each) and a key of at most 7 digits, the code is the upper-cased prefix, the key's digits and "X", untruncated |
| Accounts.DeriveCodeRecoversKey | backend/accounts/models.py:30 | under the same bounds (ASCII prefix, key of at most 7 digits) the code ends in "X" and the characters between prefix and "X" are the key's decimal digits |
| Accounts.DistinctKeysDistinctCodes | backend/accounts/models.py:30 | for two usernames with ASCII four-character prefixes and keys of at most 7 digits, two different keys never share a code |
| Accounts.ShortUsernamesCollide | backend/accounts/models.py:30 | usernames shorter than 4 can collide: "ab" with key 12 and "ab1" with key 2 both get "AB12X" |
| Accounts.Save | backend/accounts/models.py:23-31 | an existing code is kept; a missing or empty one is replaced by the derived code; nothing else changes |
| Accounts.SaveKeepsCode | backend/accounts/models.py:29 | saving again never changes the code |
| Accounts.FindByCode | backend/apps/users/serializers.py:27 | the first user holding the code, or none exactly when nobody holds it |
| Referrals.Registered | backend/apps/users/serializers.py:19-23 | a registered user starts with balance 0, unverified, with no referrer and the derived code |
| Referrals.Register | backend/apps/users/serializers.py:19-36 | with no code or an unknown code the user is appended and nobody else changes; with a known code the new user is linked to its holder and both get +5 |
| Referrals.RegisterBonusTotal | backend/apps/users/serializers.py:25-34 | registration adds exactly 10 to the sum of balances when the code is honoured and 0 otherwise |
| Referrals.UseReferralCode | backend/TikalInvest/views.py:312-343 | a missing code, the user's own code, an existing referrer and an unknown code are each refused in that order; otherwise the user gets a referrer and +100, the referrer +50, and nobody else changes |
| Referrals.UseReferralCodeAsWritten | backend/TikalInvest/views.py:312-345 | as written, for a user loaded from the database, the refusals are those of the corrected redemption, and exactly where the corrected one would pay the bonuses the handler answers 500 and nothing changes |
| Referrals.RedeemOnce | backend/TikalInvest/views.py:322-323 | after one successful redemption any further code is refused as already referred |
| Referrals.RedeemBonusTotal | backend/TikalInvest/views.py:327-332 | a successful redemption adds exactly 150 to the sum of balances |
| Verification.GenerateCode | backend/services/email_service.py:27-29 | the code has six characters, each the decimal digit of its draw |
| Verification.SaveCode | backend/services/email_service.py:266-280 | the new row, unverified with no attempts, expires 15 minutes from now and comes last; exactly the unverified, expired rows of that e-mail are dropped |
| Verification.SaveKeepsOthers | backend/services/email_service.py:267-271 | a row of another e-mail, a verified row or an unexpired row survives the save |
| Verification.FindRow | backend/services/email_service.py:300-303 | the lookup finds a row matching the e-mail and code, and finds none exactly when no row matches |
| Verification.VerifyCode | backend/services/email_service.py:299-348 | no match is invalid and several matches fail the lookup, both with no change; a match counts one more attempt before any check, then expired, already used and more than 5 attempts are refused in that order; otherwise the row becomes verified |
| Verification.SixthAttemptRejected | backend/services/email_service.py:305-326 | a row already tried 5 times is never verified |
| Verification.VerifyOnce | backend/services/email_service.py:316-320 | verifying the same code again fails as expired or already used |
| Market.MarketOpen | backend/acciones/views.py:23-30 | closed on Saturday and Sunday; on weekdays open exactly from 09:30:00 to 16:00:00 New York time, both ends included |
| Market.ClockAgreesWithWindow | backend/acciones/views.py:26-30 | the window test on a time of day agrees with comparing hour, minute, second and microsecond against the opening and closing times |
| Market.ValidCombosAreSensible | backend/acciones/views.py:237-248 | every accepted interval has a known length shorter than its period, and no bounded period asks for more than 1440 points |
| Market.UnknownPeriodRejects | backend/acciones/views.py:248 | a period outside the table accepts no interval |
| Market.DefaultComboValid | backend/acciones/views.py:233-234 | the defaults, period "1y" with interval "1d", are accepted |
| Market.Normalize | backend/acciones/views.py:109 | the normalised symbol is no longer than the input, has no lower-case letter and no whitespace at either end |
| Market.NormalizeIdempotent | backend/acciones/views.py:109 | normalising twice is normalising once |
| Market.AddSymbol | backend/acciones/views.py:108-117 | an empty symbol, then one with '$' or '.', then one already stored are refused in that order; otherwise the normalised symbol is fetched |
| Market.BySymbol | backend/acciones/views.py:179-190 | an empty symbol is refused; a stored symbol is found whatever it contains; an unstored one with '$' or '.' is refused; any other is fetched |
| Market.UnsupportedStoredSymbolFound | backend/acciones/views.py:113-114 | a stored symbol with '$' or '.' is found by the exact lookup but refused by the add action |
| Market.Search | backend/acciones/views.py:158-168 | a blank query is refused; no hit gives "no results"; otherwise the result lists, in order, exactly the rows whose name or symbol contains the trimmed query |
| Market.RefreshPrice | backend/acciones/views.py:66-77 | the stored price changes only while the market is open, to a fetched non-zero price that differs from it |
| Reports.ClientIp | backend/reportes/views.py:89-95 | a present, non-empty X-Forwarded-For yields its leading comma-free segment, a prefix of the header that ends at its end or at a comma; otherwise REMOTE_ADDR, which may be absent |
| Reports.ClientIpIsFirstHop | backend/reportes/views.py:89-95 | for a proxy chain of comma-free addresses joined by commas the address recorded is the first hop |
| Reports.StoredIp | backend/reportes/models.py:52 | the address the database can store: the client address when it exists and is non-empty, and nothing otherwise |
| Reports.EmptyFirstHop | backend/reportes/views.py:89-95 | an X-Forwarded-For of ",1.2.3.4" yields the empty address, which cannot be stored, so a valid request carrying it is refused |
| Reports.Visible | backend/reportes/views.py:14-16 | the queryset is an order-preserving subsequence of the stored reports holding exactly the caller's reports that are not soft-deleted |
| Reports.Find | backend/reportes/views.py:43 | the object lookup finds a report with the requested id that the caller can see, and fails (404) exactly when no such report exists |
| Reports.ValidateRequest | backend/reportes/serializers.py:4-19 | a kind outside the five choices of models.py:6-12 is refused first; otherwise a request is refused exactly when its start date is after its end date; an accepted request passes through unchanged |
| Reports.SameDayAccepted | backend/reportes/serializers.py:15 | a report of a known kind covering a single day (start equal to end) is accepted; an unknown kind is refused as such |
| Reports.Create | backend/reportes/views.py:23-38 | refused exactly when the serializer refuses, with its reason; a valid request whose client address is absent or empty fails, as the NOT NULL address column cannot hold it; otherwise one new pending, undeleted, file-less report with a fresh id, the caller as owner, the requested fields, the client address and the user agent is appended, earlier reports are untouched, ids stay unique, and one "request created" entry with the same address and user agent is logged |
| Reports.RequestGeneration | backend/reportes/views.py:40-65 | an unseen report is a 404; one not pending is refused as already processed; it succeeds exactly for a visible pending report when a non-empty client address is known, moving exactly that report to processing and logging one "processing started" entry; without a storable address the report is still saved as processing but the audit insert fails and nothing is logged |
| Reports.Download | backend/reportes/views.py:67-87 | an unseen report is a 404; one that is not complete or has no file is refused; "already processed" never occurs; a download is served exactly for a visible complete report with a file when a non-empty client address is known, leaves the reports unchanged and logs one "download requested" entry; without a storable address nothing changes |
| Reports.RequestGenerationOnce | backend/reportes/views.py:45-53 | right after an accepted generation request, a second request for the same report is refused as already processed |
| Reports.FindStable | backend/reportes/views.py:43 | changing a report's state does not change which report a lookup finds |
| Reports.NothingBecomesDownloadable | backend/reportes/views.py:45-87 | no sequence of client operations (create, request generation, download, update) ever completes a report, so starting with none complete every download is refused |
| Reports.StepKeepsNoneCompleted | backend/reportes/views.py:52 | one client operation never produces a completed report |
| Reports.Update | backend/reportes/serializers.py:21-28 | an update of an unseen report is a 404; a kind outside the five choices is refused; otherwise only that report changes, the audit log is untouched, the read-only owner, state, file, address and user agent keep their values and the supplied kind, format, dates and deleted flag replace the old ones |
| Reports.DeletedIsHidden | backend/reportes/views.py:14-16 | with unique ids, soft-deleting a report the owner can see succeeds and afterwards the lookup of that id finds nothing |
| Reports.StepKeepsUniqueIds | backend/reportes/views.py:23-87 | create, generation, download and update never give two stored reports the same id |
| Reports.UpdateSkipsDateCheck | backend/reportes/serializers.py:21-28 | an update may store a start date after the end date, which creation would refuse |
| Auth.WordsAreWords | backend/TikalInvest/auth.py:21 | every piece the split returns is non-empty and holds no whitespace |
| Auth.WordsEmptyIff | backend/TikalInvest/auth.py:21-22 | the split is empty exactly when the header is whitespace only |
| Auth.Token | backend/TikalInvest/auth.py:21 | the leading word is a whitespace-free prefix that ends at whitespace or at the end, and is non-empty when the string starts with a non-space |
| Auth.TokenOfWord | backend/TikalInvest/auth.py:21 | a whitespace-free prefix followed by whitespace or the end is the leading word |
| Auth.OneWord | backend/TikalInvest/auth.py:21 | a single word, alone or after one space, splits into itself |
| Auth.TwoWords | backend/TikalInvest/auth.py:21 | two words joined by one space split back into those two words |
| Auth.ParseHeaderAsWritten | backend/TikalInvest/auth.py:17-25 | no header or an empty one lets another authenticator try; a non-empty header of whitespace only raises an uncaught IndexError; an accepted header has exactly two words, the first "bearer" in any case, and yields the second |
| Auth.ParseHeader | backend/TikalInvest/auth.py:17-25 | with the word count checked first nothing raises: a header is accepted exactly when it has two words, the first "bearer" in any case, and yields the second; every other present header is refused with 401 |
| Auth.ParseHeaderAgrees | backend/TikalInvest/auth.py:21-22 | the check as written and the corrected one agree on every header except the whitespace-only ones, which the corrected check refuses |
| Auth.BlankHeaderCrashes | backend/TikalInvest/auth.py:21-22 | the header " " crashes the check as written and is refused by the corrected one |
| Auth.BearerRoundTrip | backend/TikalInvest/auth.py:21-25 | "Bearer" in any letter case, one space and a token yields that token under both checks |
| Auth.NewLocalUser | backend/TikalInvest/auth.py:91-107 | a first sign-in creates a user named after the subject with the claims' e-mail (default empty) and verification (default false), the name split at its first space, role "user", balance 10000, an unusable password and an active account |
| Auth.Refresh | backend/TikalInvest/auth.py:63-89 | a later sign-in takes the e-mail and verification from the claims and the names from a non-empty display name, keeps everything else, and lists a field for saving exactly when its value changed |
| Auth.Changed | backend/TikalInvest/auth.py:68-89 | a field is listed exactly when it changed, and nothing is saved exactly when nothing changed |
| Auth.RefreshSettles | backend/TikalInvest/auth.py:63-89 | signing in again with the same claims changes and saves nothing |
| Auth.NewUserIsCurrent | backend/TikalInvest/auth.py:63-107 | a user just created from some claims is already up to date with them |
| Auth.IsAdmin | backend/TikalInvest/auth.py:10-13 | the permission holds exactly when the request's token claims carry the role "admin"; without token claims it fails |
| Auth.IsAdminIgnoresAccountRole | backend/TikalInvest/auth.py:10-13 | the role stored on the local account has no effect on the admin permission |
| Auth.NewUserAdminByClaim | backend/TikalInvest/auth.py:10-13 | a first sign-in whose token claims role "admin" passes the admin check although the account it creates has role "user" |
| Dashboard.UserTransactions | backend/apps/portfolio/views.py:24-26 | the listing is an order-preserving subsequence of all rows holding every row of the requesting user and no row of anyone else |
| Dashboard.RecentTransactions | backend/apps/portfolio/views.py:110-113 | exactly min(5, number of the user's completed rows) rows, each one of the user's completed rows from the input, newest first |
| Dashboard.RecentAreNewest | backend/apps/portfolio/views.py:110-113 | a completed row of the user that was left out is no newer than any row that was kept |
| Dashboard.Performance | backend/apps/portfolio/views.py:116-127 | seven values, day i counting down from 6 to 0 valued at balance + invested × i/6, so the series starts at balance + invested and ends at the balance |
| Dashboard.PerformanceNonIncreasing | backend/apps/portfolio/views.py:116-127 | with a non-negative amount invested the series never rises from one day to the next |
| Dashboard.GainsPercentage | backend/apps/portfolio/views.py:103-107 | with something invested the percentage times the invested amount is the gains times 100; otherwise, and whenever the gains are 0, it is 0 |
| Dashboard.DashboardStats | backend/apps/portfolio/views.py:87-140 | the balance falls back to 0 when it cannot be read; invested is the user's completed buys minus completed sells; gains and their percentage are 0; the portfolio value is balance + invested; the recent rows and the series are those of the user |
| Dashboard.StatsIgnoreOtherUsers | backend/apps/portfolio/views.py:110-113 | adding another user's row changes none of a user's statistics |
| Valuation.CurrentPrice | frontend/src/components/screens/Portfolio.tsx:149 | a holding is priced at its quote when a non-zero quote exists and at the average price paid otherwise |
| Valuation.HoldingOf | frontend/src/components/screens/Portfolio.tsx:146-168 | a holding keeps its position's symbol, shares and average price; invested is shares × average price, value is shares × current price, gain is value − invested; the gain percent is missing (NaN or Infinity) exactly when nothing was invested and otherwise times invested equals gain × 100 |
| Valuation.UnquotedHoldingHasNoGain | frontend/src/components/screens/Portfolio.tsx:149-153 | a position without a quote is valued at cost, with no gain or loss |
| Valuation.Allocate | frontend/src/components/screens/Portfolio.tsx:172-175 | only the allocations change; each is the holding's value as a percent of the total, missing when the total is 0 |
| Valuation.Holdings | frontend/src/components/screens/Portfolio.tsx:146-177 | one holding per stored position, in the same order, with its symbol and shares |
| Valuation.AllocateKeepsValues | frontend/src/components/screens/Portfolio.tsx:172-175 | allocating changes none of the summed values, gains or amounts invested |
| Valuation.AllocationsScaleValues | frontend/src/components/screens/Portfolio.tsx:174 | the allocations sum to the values' sum times 100 / total |
| Valuation.AllocationsSumTo100 | frontend/src/components/screens/Portfolio.tsx:172-175 | whenever the total value is non-zero the allocations of all holdings add up to exactly 100 |
| Valuation.TotalsOf | frontend/src/components/screens/Portfolio.tsx:193-196 | total value and gain are the sums over the holdings; the gain percent is 0 unless the value is positive and otherwise relates the gain to value − gain; the portfolio shows a profit exactly when the gain is non-negative |
| Valuation.TotalsAgainstInvested | frontend/src/components/screens/Portfolio.tsx:193-195 | the value less the gain is exactly the amount invested, so the total gain percent is measured against the cost of the positions |
| Valuation.DashboardSummary | frontend/src/app/dashboard/page.tsx:108-125 | value, amount invested (average price × quantity) and profit are sums over every row with missing fields counted as 0; the table shows the first five rows (see page.tsx:381) |
| Valuation.ShownPercentage | frontend/src/app/dashboard/page.tsx:123 | a row's percentage is shown as 0 when missing and as sent otherwise |
| Valuation.SummaryAppend | frontend/src/app/dashboard/page.tsx:110-115 | each summed figure of two concatenated replies is the sum of the figures of each |
| Valuation.SummaryConsistent | frontend/src/app/dashboard/page.tsx:110-115 | when every row's profit is its value less its cost, the summed profit is the summed value less the summed amount invested |
| Valuation.AvailableBalance | frontend/src/app/dashboard/page.tsx:111 | the nested balance when present and non-zero, else the flat balance, else 0 |
| Trading.SeqMin | frontend/src/components/screens/Trading.tsx:64 | the minimum is one of the prices and no price is below it |
| Trading.SeqMax | frontend/src/components/screens/Trading.tsx:65 | the maximum is one of the prices and no price is above it |
| Trading.Padding | frontend/src/components/screens/Trading.tsx:69 | the margin is 10 for a span under 10 and a tenth of the span (at least 1) otherwise, so it is positive for any non-negative span |
| Trading.YAxisDomain | frontend/src/components/screens/Trading.tsx:60-75 | [0, 100] without data; otherwise the lower bound is never negative, every price lies at or below the upper bound and every non-negative price at or above the lower one, the range is non-empty, and the bounds are min − padding (clamped at 0) and max + padding |
| Trading.Stride | frontend/src/components/screens/Trading.tsx:137 | the stride is at least 1, and exactly 1 for fewer than 100 points |
| Trading.Downsample | frontend/src/components/screens/Trading.tsx:135-143 | the kept points are exactly those whose index is a multiple of the stride, in order: the k-th kept point is the point at k × stride, the first point is always kept, and the count is ⌊(n − 1)/stride⌋ + 1 for n > 0 points |
| Trading.LoadHistory | frontend/src/components/screens/Trading.tsx:77-132 | a stored history younger than 72 hours is returned and kept; otherwise a fetched history is returned and stored with the current time, an unsuccessful reply gives no points and keeps the store, and a failed request returns the stored history however old, or nothing |
| Trading.FetchedHistoryIsReused | frontend/src/components/screens/Trading.tsx:88-95 | a history fetched at time t is served from storage, whatever the server would answer, at every later time before t + 72 hours |
| Trading.ExpiredHistoryIsRefetched | frontend/src/components/screens/Trading.tsx:93-117 | a history 72 hours old or older is replaced by a fresh fetch stamped with the current time |
| Trading.ApplyBuy | frontend/src/components/screens/Trading.tsx:299-317 | a buy adds the symbol and changes no other entry; a new symbol gets the shares at the trade price; a held one gets the shares added and an average price whose cost over all shares is the old cost plus the trade total, or none (NaN) when no shares remain |
| Trading.ApplySell | frontend/src/components/screens/Trading.tsx:328-337 | selling an unheld symbol changes nothing; selling exactly the held shares removes the entry; otherwise only the share count drops, the average price staying |
| Trading.ApplyBalance | frontend/src/components/screens/Trading.tsx:320-322 | the balance goes down by the trade total on a buy and up by it on a sell (lines 340-342), with no check that it suffices |
| Trading.ApplyTrade | frontend/src/components/screens/Trading.tsx:299-347 | an accepted trade updates the portfolio by the buy or sell rule and the balance by the trade total |
| Trading.BuyThenSellRestores | frontend/src/components/screens/Trading.tsx:299-347 | buying a symbol not held and selling the same count at the same price restores both the portfolio and the balance |
| Trading.BuyCanOverdraw | frontend/src/components/screens/Trading.tsx:320 | buying 2 shares at 100 with 50 available leaves a balance of −150 |
| Trading.OversellKeepsNegativePosition | frontend/src/components/screens/Trading.tsx:330-334 | selling 3 shares of a 1-share position keeps a position of −2 shares |
| Catalog.BucketsPartition | frontend/src/components/screens/MarketCatalog.tsx:171-176 | every volume falls in exactly one of the high (above 50M), medium (20M to 50M) and low (below 20M) buckets |
| Catalog.FilterStocks | frontend/src/components/screens/MarketCatalog.tsx:160-179 | the listed stocks are an order-preserving subsequence of the catalogue holding exactly the stocks whose symbol or name contains the query ignoring case, whose price lies in [0, selected maximum], whose category is selected (or none is) and whose volume is in the chosen bucket |
| Catalog.DefaultFiltersListAll | frontend/src/components/screens/MarketCatalog.tsx:160-179 | with an empty query, no category, any volume and a maximum no price exceeds, every stock with a non-negative price is listed, in order |
| Catalog.FilterAll | frontend/src/components/screens/MarketCatalog.tsx:160 | a filter every element passes returns the list unchanged |
| Catalog.TotalPages | frontend/src/components/screens/MarketCatalog.tsx:182 | the page count is the least number of twelve-item pages that holds all the stocks |
| Catalog.Page | frontend/src/components/screens/MarketCatalog.tsx:183-185 | page p holds at most twelve items, the stocks from index (p − 1)·12 up to p·12 or the end, and nothing beyond the last stock |
| Catalog.PageNonEmptyIff | frontend/src/components/screens/MarketCatalog.tsx:182-185 | a page has stocks exactly when its number is at most the page count |
| Catalog.PagesCover | frontend/src/components/screens/MarketCatalog.tsx:183-185 | pages 1 to k read in order are exactly the first k·12 stocks: nothing skipped, nothing repeated |
| Catalog.AllPagesCover | frontend/src/components/screens/MarketCatalog.tsx:182-185 | all pages read in order give back the whole filtered list |
| Catalog.PageWindow | frontend/src/components/screens/MarketCatalog.tsx:752-762 | min(5, page count) consecutive page numbers, all valid, containing the current page whenever that is valid |
| Catalog.StepsStayInRange | frontend/src/components/screens/MarketCatalog.tsx:743-781 | "previous" and "next" keep a valid page valid and move by exactly one page when not at an end |
| Catalog.ToggleCategory | frontend/src/components/screens/MarketCatalog.tsx:187-194 | a selected category is removed keeping the others, an unselected one is appended; membership flips for that category only, and the page goes back to 1 |
| Catalog.ToggleTwice | frontend/src/components/screens/MarketCatalog.tsx:187-194 | toggling a category twice restores the selection as a set, and restores it exactly when the category was not selected |
| Catalog.MaxPriceBlur | frontend/src/components/screens/MarketCatalog.tsx:235-248 | a positive integer read from the input becomes the limit, lowers the selected maximum to it when above it (so the maximum never exceeds the limit) and goes back to page 1; anything else only writes the previous limit back into the input |
| Catalog.BlurRestoresReadableLimit | frontend/src/components/screens/MarketCatalog.tsx:244-247 | after a rejected input the restored text reads back as the previous limit and a second blur accepts it |
| Catalog.Showcase | frontend/src/components/screens/Landing.tsx:74-85 | the showcase is a permutation of the stocks matching the query and the category, sorted by volume or by price, largest first |
| Forms.CheckPassword | frontend/src/components/screens/Register.tsx:38-44 | each rule holds exactly when the password has at least 8 UTF-16 code units an ASCII capital, an ASCII small letter, a digit, or one of the listed special characters, respectively |
| Forms.MinLengthInBmp | frontend/src/components/screens/Register.tsx:39 | for a password with no character above U+FFFF the length rule holds exactly when it has at least 8 characters |
| Forms.PasswordExamples | frontend/src/components/screens/Register.tsx:38-46 | "Secreta1!" meets every rule; without a capital, or with fewer than 8 characters, a password fails |
| Forms.LengthsCountCodeUnits | frontend/src/components/screens/Register.tsx:39 | lengths are JavaScript lengths: "Aa1!" and two emoji (6 characters) meet the minimum length, and an answer of two emoji is not short |
| Forms.ValidEmailIffPattern | frontend/src/components/screens/Register.tsx:48-51 | an address passes the check (no whitespace, exactly one '@' not first, a '.' after it with characters on both sides) exactly when it matches the pattern local@domain.suffix with three non-empty parts free of whitespace and '@' |
| Forms.EmailSplit | frontend/src/components/screens/Register.tsx:49 | an address that passes the check, cut at its '@' and a later '.', gives three non-empty parts free of whitespace and '@' |
| Forms.EmailPartsValid | frontend/src/components/screens/Register.tsx:49 | an address built from three non-empty parts free of whitespace and '@' passes the check |
| Forms.EmailExamples | frontend/src/components/screens/Register.tsx:48-51 | "ana@mail.com" is accepted; "ana@mail" (no suffix), "@mail.com" (no local part) and "a@b@c.d" (two '@') are refused |
| Forms.ValidateRegister | frontend/src/components/screens/Register.tsx:53-86 | each field carries an error exactly when its rule fails (trimmed name under 3 UTF-16 code units, e-mail not matching `^[^\s@]+@[^\s@]+\.[^\s@]+$`, password missing a rule, confirmation empty or different, terms not accepted), marked "required" exactly when the field is empty; the form passes exactly when every rule holds |
| Forms.RegisterNames | frontend/src/components/screens/Register.tsx:105-106 | the first name is the text before the first space; the last name is the rest, or "Usuario" when the rest is empty |
| Forms.RegisterNamesExamples | frontend/src/components/screens/Register.tsx:105-106 | a name of a first word, a space and a non-empty rest is sent as those two parts; a single word gets the last name "Usuario" |
| Forms.ValidateSecurity | frontend/src/components/screens/SecurityQuestions.tsx:45-75 | a question is flagged exactly when it is not chosen or repeats an earlier pick, "not selected" exactly when empty; an answer is flagged exactly when under 3 UTF-16 code units once trimmed; the form passes exactly when three pairwise different questions are chosen and every trimmed answer has at least 3 code units |
| Forms.Offered2 | frontend/src/components/screens/SecurityQuestions.tsx:95 | the second list offers exactly the questions other than the first pick |
| Forms.Offered3 | frontend/src/components/screens/SecurityQuestions.tsx:96 | the third list offers exactly the questions other than the first two picks |
| Forms.OfferedPicksPass | frontend/src/components/screens/SecurityQuestions.tsx:94-96 | questions picked from the offered lists always pass the question checks |
| Forms.NoBlankQuestion | frontend/src/components/screens/SecurityQuestions.tsx:16-25 | every offered question has text |
| Forms.ToggleReportType | frontend/src/components/screens/RequestReport.tsx:60-71 | choosing "complete" leaves it alone; any other type drops "complete" and flips its own membership, leaving the other types as they were |
| Forms.TogglesKeepCompleteAlone | frontend/src/components/screens/RequestReport.tsx:60-71 | from the initial choice, any run of toggles leaves "complete" either the whole choice or absent |
| Forms.ToggleCompleteIdempotent | frontend/src/components/screens/RequestReport.tsx:61-62 | choosing "complete" twice is choosing it once |
| Forms.ValidateReport | frontend/src/components/screens/RequestReport.tsx:82-105 | the start date is flagged exactly when missing; the end date "required" exactly when missing and "before the start" exactly when both are given out of order; the e-mail is flagged exactly when it does not match the pattern, "required" exactly when empty; the request passes exactly when both dates are given in order (one day included) and the e-mail matches |
| Orders.ButtonsAgreeWithHandlers | frontend/src/app/dashboard/wallet/page.tsx:408-460 | the deposit and withdrawal buttons are enabled exactly when nothing is in flight and the handler behind them would go on to call the server |
| Orders.AcceptedAmountsAreCovered | frontend/src/app/dashboard/wallet/page.tsx:83-111 | an amount that parses and is accepted is positive, and an accepted withdrawal is at most the available balance |
| Orders.UnparsedAmountPasses | frontend/src/app/dashboard/wallet/page.tsx:83-111 | a non-empty text that does not parse (NaN) passes both the deposit and the withdrawal checks |
| Orders.Submit | frontend/src/components/features/trade-form.tsx:22-48 | fewer than one share is refused first; otherwise an order is placed, with the chosen side and quantity, exactly when a buy's cost is within the balance and the shares on offer, or a sell is within the shares held |
| Orders.PlacedOrdersAreCovered | frontend/src/components/features/trade-form.tsx:22-48 | a placed order has at least one share and stays within the balance and the shares on offer (buy) or the shares held (sell) |
| Orders.TypedQuantity | frontend/src/components/features/trade-form.tsx:128 | a typed quantity is at least 1: a number from 1 up is kept, anything else (NaN, 0, negatives) becomes 1 |
| Orders.QuickQuantity | frontend/src/components/features/trade-form.tsx:138-142 | a quick button picks the preset capped by the shares on offer (buy) or held (sell): never above either, and equal to one of them |
| Orders.TypedVersusQuick | frontend/src/components/features/trade-form.tsx:128-142 | a typed quantity never trips the "at least one" alert; a quick sell button does when nothing is held |
| Orders.QuickSellIsPlaced | frontend/src/components/features/trade-form.tsx:138-142 | a quick sale with at least one share held is always placed |
| Orders.Quote | frontend/src/app/dashboard/trade/page.tsx:24-27 | subtotal, commission and total are all NaN exactly when the share count does not parse; otherwise the commission is 1% of the subtotal and the total is 101% of shares × 150.25 |
| Orders.ShownQuote | frontend/src/app/dashboard/trade/page.tsx:205-219 | an unparsable share count shows 0.00 as subtotal, commission and total; otherwise the shown total is the shown subtotal plus the shown commission |
| Orders.BalanceWarningIff | frontend/src/app/dashboard/trade/page.tsx:232 | the warning shows exactly when the share text is filled in, parses, and shares × 150.25 × 1.01 exceeds the balance (missing balance read as 0); an unparsable count never shows it |
| Orders.BalanceWarningMonotone | frontend/src/app/dashboard/trade/page.tsx:232 | buying more shares never clears the warning |
| Orders.WarnedOrderCanBeSubmitted | frontend/src/app/dashboard/trade/page.tsx:157-232 | an order the warning flags can still be submitted: the button looks only at the text, the flight flag and the symbol |
| Csv.EscapeQuotes | frontend/src/components/screens/SystemActivity.tsx:136 | doubling the quotes keeps every other character present exactly as before, and leaves a cell without quotes unchanged |
| Csv.EncodeCellAsWritten | frontend/src/components/screens/SystemActivity.tsx:135-137 | as written, a cell is enclosed in quotes only when it holds a comma; any other cell is only quote-doubled, even when it holds a quote or a line break |
| Csv.EncodeCell | frontend/src/components/screens/SystemActivity.tsx:135-137 | corrected: a cell holding a comma, a quote or a line break is quote-doubled and enclosed, any other cell is written as it is (section 2, rules 6 and 7 of RFC 4180) |
| Csv.EscapingsAgree | frontend/src/components/screens/SystemActivity.tsx:135-137 | the two escapings give the same text exactly when the cell holds a comma or needs no quoting at all |
| Csv.EncodeCells | frontend/src/components/screens/SystemActivity.tsx:134-138 | every cell of a row is escaped by the same rule, position by position |
| Csv.EncodeRows | frontend/src/components/screens/SystemActivity.tsx:133-139 | one record per row, position by position |
| Csv.QuotedBodyOfEscaped | frontend/src/components/screens/SystemActivity.tsx:136 | the quote-doubled text of a cell followed by a closing quote reads back as the cell, whatever follows that is not a quote |
| Csv.PlainFieldOf | frontend/src/components/screens/SystemActivity.tsx:137 | a cell without comma or line break, followed by a boundary, reads back as itself |
| Csv.FieldOfEncoded | frontend/src/components/screens/SystemActivity.tsx:135-137 | every cell escaped by the corrected rule reads back unchanged, whatever boundary follows it |
| Csv.RecordOfEncoded | frontend/src/components/screens/SystemActivity.tsx:133-138 | a non-empty row escaped by the corrected rule and joined with commas reads back as that row |
| Csv.RecordsOfEncoded | frontend/src/components/screens/SystemActivity.tsx:131-140 | non-empty rows escaped by the corrected rule and joined with line breaks read back as those rows |
| Csv.RoundTrip | frontend/src/components/screens/SystemActivity.tsx:131-140 | with the corrected escaping, decoding the encoded file gives back every record and every cell, for any file whose first record has at least two cells |
| Csv.AsWrittenEmptiesQuoteCell | frontend/src/components/screens/SystemActivity.tsx:136-137 | as written, the row ["x", "\""] is exported as x,"" and read back as ["x", ""] |
| Csv.AsWrittenSplitsRecord | frontend/src/components/screens/SystemActivity.tsx:136-137 | as written, the row ["x", "a\nb"] is exported unenclosed and read back as two records |
| Csv.CorrectedKeepsCells | frontend/src/components/screens/SystemActivity.tsx:136-137 | the corrected escaping reads both of those rows back unchanged |
| Csv.Cells | frontend/src/components/screens/SystemActivity.tsx:117-128 | nine cells, one per header, the type cell reading "Compra" exactly for a buy |
| Csv.ActivityRows | frontend/src/components/screens/SystemActivity.tsx:118-128 | one row per transaction, in log order |
| Csv.ExportWith | frontend/src/components/screens/SystemActivity.tsx:110-114 | there is nothing to export exactly when the log is empty |
| Csv.ExportRoundTrip | frontend/src/components/screens/SystemActivity.tsx:110-140 | with the corrected escaping, the exported file reads back as the header row followed by one row per transaction, in order |
| Csv.RowsNonEmpty | frontend/src/components/screens/SystemActivity.tsx:117-128 | the header row and every transaction row have cells |
| Csv.Shown | frontend/src/components/screens/SystemActivity.tsx:92-95 | the table shows the whole log for "all" and otherwise exactly the transactions of the chosen type |
| Csv.AveragePerTransaction | frontend/src/components/screens/SystemActivity.tsx:224-227 | the average times the count is the revenue when there are transactions, and 0 otherwise |
| Settings.CardDigits | frontend/src/components/screens/Settings.tsx:229 | the card-number field keeps only digits, in order, the first sixteen of them |
| Settings.CardDigitsIdempotent | frontend/src/components/screens/Settings.tsx:229 | cleaning the field again changes nothing |
| Settings.FilterAllPass | frontend/src/components/screens/Settings.tsx:229 | a filter every character passes keeps the text unchanged |
| Settings.LastFour | frontend/src/components/screens/Settings.tsx:65 | the last four characters of the number, or all of a shorter one |
| Settings.Mask | frontend/src/components/screens/Settings.tsx:65 | the masked card is the fixed "****-****-****-" prefix followed by the number's last four characters |
| Settings.AddPayment | frontend/src/components/screens/Settings.tsx:59-73 | without an alias, a number or an amount nothing changes; otherwise the masked card is appended and its amount is added to the available balance, deposits and pending balance untouched |
| Settings.DeletePayment | frontend/src/components/screens/Settings.tsx:75-77 | exactly the cards with another id remain, in order; the balances keep what the card added |
| Settings.AddThenDelete | frontend/src/components/screens/Settings.tsx:59-77 | deleting a card just added under an unused id restores the list of cards but not the balance it topped up |
| Settings.AddDeposit | frontend/src/components/screens/Settings.tsx:79-91 | without an amount nothing changes; otherwise a pending deposit is put first and its amount is added to the pending balance, the available balance and cards untouched |
| Settings.ScreenStepsKeepPending | frontend/src/components/screens/Settings.tsx:59-91 | adding deposits and adding or deleting cards keep the pending balance equal to the sum of the deposits still pending |
| Settings.MarkCompleted | frontend/src/components/screens/Settings.tsx:94-96 | the deposit with the id is marked completed and keeps its id and amount; every other deposit is unchanged |
| Settings.CompleteDepositAsWritten | frontend/src/components/screens/Settings.tsx:93-99 | as written, the completion marks the deposit and sets the balances from the values captured before the deposit was added, less and plus its amount |
| Settings.CompleteDeposit | frontend/src/components/screens/Settings.tsx:93-99 | corrected: the completion marks the deposit and moves its amount from the current pending balance to the current available balance, keeping their sum |
| Settings.CompleteNewestPending | frontend/src/components/screens/Settings.tsx:94-96 | completing the newest deposit, pending and with an id no older deposit has, removes exactly its amount from the pending sum |
| Settings.DepositCompletes | frontend/src/components/screens/Settings.tsx:79-99 | with the corrected completion, adding a deposit and letting it complete keeps the pending balance equal to the pending deposits, puts it back where it was and adds the amount to the available balance |
| Settings.StaleCompletionLosesPending | frontend/src/components/screens/Settings.tsx:89-97 | as written, a non-zero deposit that completes leaves the pending balance short of the pending deposits by its amount |
| Settings.FirstDepositLeavesNegativePending | frontend/src/components/screens/Settings.tsx:89-97 | a first deposit of 100 on an empty screen leaves a pending balance of −100 once it completes |
| Listings.ShownTrades | frontend/src/components/screens/History.tsx:101-107 | the history shows, in order, exactly the trades of the chosen type (or all) whose symbol or name contains the search ignoring case |
| Listings.NoFilterShowsAll | frontend/src/components/screens/History.tsx:101-107 | with "all" and an empty search every trade is shown |
| Listings.NetBalanceIsSignedSum | frontend/src/components/screens/History.tsx:109-117 | sales total minus purchases total is the sum over all trades of +total for a sale, −total for a purchase and 0 for any other type |
| Listings.KindCounts | frontend/src/components/screens/History.tsx:128-138 | the purchase count plus the sale count is the number of trades that are one or the other |
| Listings.FilterTransactions | frontend/src/app/dashboard/transactions/page.tsx:38-55 | the list keeps, in order, exactly the transactions of the chosen type (or all) created no earlier than a given start and no later than a given end |
| Listings.FilterSubseqTrans | frontend/src/app/dashboard/transactions/page.tsx:39-52 | filtering in several steps still yields a subsequence of the loaded list |
| Listings.FiltersInSequence | frontend/src/app/dashboard/transactions/page.tsx:38-55 | the three filters applied one after another equal one filter by all three conditions, order included |
| Listings.TotalByTypeAppend | frontend/src/app/dashboard/transactions/page.tsx:57-61 | a new transaction that is not completed, or of another type, changes no total; a completed one adds its amount to its own type's total |
| Listings.FilteredMembers | frontend/src/components/screens/UserManagement.tsx:127-136 | the screen shows, in order, exactly the users whose name or e-mail contains the search ignoring case and whose role and status match the filters |
| Listings.StatsAddUp | frontend/src/components/screens/UserManagement.tsx:138-143 | the active, suspended and pending counts add up to the total number of users |
| Listings.FilterAccounts | frontend/src/app/admin/users/page.tsx:38-54 | the admin list keeps, in order, exactly the users whose e-mail, full name or username contains a non-empty search and whose status matches, and everything with no search and status "all" |
| Routes.DropTrailingSlash | frontend/src/App.tsx:48 | one trailing '/' is dropped and nothing else changes |
| Routes.LastSegment | frontend/src/App.tsx:48 | the last segment is the slash-free tail of the path that starts after its last '/', or the whole path without one |
| Routes.CurrentRoute | frontend/src/App.tsx:47-51 | the screen is always a valid one: the path's last segment (after dropping a trailing '/') when it names a screen, the landing page otherwise |
| Routes.NoSlashInRoutes | frontend/src/App.tsx:49 | no screen name contains '/' |
| Routes.NoSlashAt | frontend/src/App.tsx:49 | every screen name is made of small letters and '-' |
| Routes.LastSegmentAfterSlash | frontend/src/App.tsx:48 | whatever precedes the last '/', the slash-free text after it is the last segment |
| Routes.RouteOfAddress | frontend/src/App.tsx:47-51 | the address of a screen, under any prefix and with or without a trailing '/', leads back to that screen, so the address navigation pushes restores the screen |
| Routes.RouteNamesAreLong | frontend/src/App.tsx:49 | every screen name has at least five characters |
| Routes.EmptyPathIsLanding | frontend/src/App.tsx:48-50 | the bare site "/" and the empty path show the landing page |
| Routes.UnknownPathIsLanding | frontend/src/App.tsx:50 | an address naming no screen ("/faq") shows the landing page |
| Routes.ShortSegment | frontend/src/App.tsx:48 | the last segment of "/faq" is "faq" |
| Routes.PublicRoutesAreValid | frontend/src/App.tsx:114 | six distinct public screens, each a valid screen |
| Routes.FullName | frontend/src/App.tsx:38-44 | a set name is shown as it is; with no names at all "Usuario"; otherwise first + " " + last with surrounding whitespace removed: a slice of it with only whitespace outside and none at either end |
| Routes.FullNameOfParts | frontend/src/App.tsx:40-41 | first and last names without surrounding blanks are shown with one space between; a blank-only first name with no last name is shown as the empty string |
| Routes.Navigate | frontend/src/App.tsx:116-123 | navigation always goes to the requested screen; the stock detail with a non-empty symbol remembers that symbol, every other move keeps the earlier selection |
| Routes.Login | frontend/src/App.tsx:125-144 | a user saved by the login screen is taken as it is; otherwise the e-mail is kept and the user is an administrator exactly when it contains "admin"; administrators land on the admin screen, everyone else on the dashboard |
| Routes.LoginLandsOnPrivateScreen | frontend/src/App.tsx:114-142 | every login lands on a valid screen that is not public |
| Text.Lower | frontend/src/components/screens/MarketCatalog.tsx:162 | lower-casing maps every ASCII and Latin-1 capital to its small letter, position by position, and keeps every other character |
| Text.AccentedNamesFound | frontend/src/components/screens/UserManagement.tsx:129-130 | a lower-case search finds "Álvarez" and "MUÑOZ" |
| Text.Contains | frontend/src/components/screens/MarketCatalog.tsx:162 | `includes` holds exactly when the search text occurs at some position |
| Text.OccursShift | frontend/src/components/screens/MarketCatalog.tsx:162 | when the search text is not a prefix, it occurs exactly when it occurs after the first character |
| Text.Trim | frontend/src/components/screens/Register.tsx:56-58 | `trim` gives a slice of the text with only whitespace around it that neither starts nor ends with whitespace |
| Text.Utf16Length | frontend/src/components/screens/Register.tsx:39 | JavaScript's `length`: at least the number of characters and at most twice it |
| Text.Utf16LengthBmp | frontend/src/components/screens/Register.tsx:39 | the `length` equals the number of characters exactly when no character lies above U+FFFF |
| Text.Utf16LengthAppend | frontend/src/components/screens/SecurityQuestions.tsx:51 | the `length` of a concatenation is the sum of the lengths |
| Text.TrimEmptyIff | frontend/src/components/screens/Register.tsx:56 | a text trims to empty exactly when it is whitespace only |
| Text.TrimOfTrimmed | frontend/src/App.tsx:41 | a text that neither starts nor ends with whitespace trims to itself |
| Text.Split | frontend/src/App.tsx:48 | `split` on one character gives at least one piece, none containing the separator, that join back to the text |
| Text.SplitJoin | backend/reportes/views.py:92 | splitting a join of separator-free pieces gives the pieces back |
| Text.JoinHead | backend/reportes/views.py:92 | a join starts with its first piece, followed by the separator when there are more |
| Text.NatToString | frontend/src/components/screens/MarketCatalog.tsx:246 | a natural number prints as decimal digits without a leading zero |
| Text.DigitsOfNat | frontend/src/components/screens/MarketCatalog.tsx:236-246 | the printed digits of a number read back as the number |
| Text.LeadingDigits | frontend/src/components/screens/MarketCatalog.tsx:236 | the longest prefix made of digits |
| Text.ParseIntOfNat | frontend/src/components/screens/MarketCatalog.tsx:236-246 | `parseInt` of a printed number followed by anything that does not start with a digit is the number |
| Text.ParseIntOfDigitStart | frontend/src/components/screens/MarketCatalog.tsx:236 | a text starting with a digit reads as the value of its leading digits |
| Text.SplitFirstWord | backend/TikalInvest/auth.py:93-94 | the first name has no space; a name without a space is all first name; otherwise the name is the first name, one space and the rest |
| Text.SplitFirstWordOf | backend/TikalInvest/auth.py:93-94 | a space-free word, a space and any rest split back into that word and that rest |
| Seqs.Filter | frontend/src/components/screens/MarketCatalog.tsx:160 | `filter` keeps, in order, exactly the elements that pass |
| Seqs.FilterMultiset | frontend/src/components/screens/MarketCatalog.tsx:160 | `filter` keeps every occurrence of a passing element and no occurrence of a failing one |
| Seqs.FilterAppend | frontend/src/app/dashboard/transactions/page.tsx:59 | filtering a concatenation is concatenating the filtered parts |
| Seqs.SumByAppend | frontend/src/components/screens/History.tsx:109-111 | the sum over a concatenation is the sum of the two sums |
| Seqs.SortDesc | frontend/src/components/screens/Landing.tsx:79-85 | sorting largest first is a permutation whose keys never increase |
| Seqs.Take | backend/apps/portfolio/views.py:113 | `[:n]` is the first n elements, or all of a shorter list |

## Left out

- I/O to outside services is not modelled. This covers SMTP and Zerobounce in `backend/services/email_service.py`, PDF generation in `report_service.py`, the yfinance and Yahoo calls, and `fetch`/`localStorage` in the front end. Each source of prices, quotes or stored data is a parameter of the model.
- Concurrency is not modelled: the polling thread, the thread pool, and the check-then-save races on balances. Every operation is one atomic step.
- Auth0 internals are not modelled: JWKS download, JWT signature and claim decoding, the middleware, the hooks. The claims arrive as a parameter.
- Clocks and timers are parameters. "now" and the local time are inputs. For the Settings screen's two-second completion timer, only the change the timer makes is modelled, not the delay.
- Randomness becomes parameters. The six-digit verification code is modelled by the digits drawn. `Date.now()` ids and `Math.random()` deposit references are inputs. The mock price series are not part of this model.
- Rendering, styling, charts and Intl/locale formatting are not modelled. CSV cells are taken as already formatted strings.
- Floating point is not modelled. Amounts are exact reals. JavaScript rounding is not modelled. Where Python mixes a `float` with a `Decimal` in arithmetic the code raises TypeError; the wallet views, the referral redemption and `portfolio_data` (a float price times the Decimal quantity) model that failure (see Findings). `round(x, 2)` is applied only where the code calls it. `NaN` from a failed parse is `None`. `Infinity` is not modelled.
- The unguarded division at `Portfolio.tsx:154` is not modelled. When nothing is invested, the model gives an absent percentage (`None`) where the page would show NaN or Infinity.
- Persistence order is not modelled. In `Transaction.save`, the balance is written after the row; the model applies both together.
- Password hashing is not modelled. It is Django's. The model keeps only whether a user's password is usable.
- The `EmailVerificationCode` model is not part of this model. As written, `email_service.py:264` and `:297` import it from `apps/users/models.py`, which declares only `User`, so saving and verifying a code fail with ImportError. The model describes the behaviour once the model exists. Its expiry is taken as "now is after `expires_at`".
- `portfolio_data` and `portfolio_summary` filter on `status` and read `total_amount`, which the transaction model does not declare. As written those queries raise FieldError (`TikalInvest/views.py:96-100` and `:196-200`). The model describes them as if the fields existed; even then `portfolio_data` fails for any user with a holding (`PortfolioData.PortfolioDataAsWritten`, see Findings), and `PortfolioData.PortfolioData` is the intended view.
- PortfolioData.PortfolioSummaryAsWritten: rows whose stock was deleted (`on_delete=SET_NULL`, `backend/apps/transactions/models.py:17`) form one more group, stock NULL, in the query at views.py:208-219; the model leaves that group out of the count as written, as the corrected count does.
- Referrals.Registered: assumes the user model of `backend/accounts/models.py`, whose `save` derives the code, together with the `balance` field that the serializer's field list names; no model file declares both. `backend/apps/users/models.py` declares the balance but has roles "user"/"admin" and a non-null unique `referral_code` with no `save` override, so there every registration stores "" and the second one fails on the unique constraint. Which model the settings install is not part of this model; `Referrals.Register` rests on the same assumption.
- Cash.DepositView and Cash.WithdrawView model the intended wallet views. As written, they fail before a wallet row is stored: the balance update raises TypeError, and `WalletTransaction.objects.create(type=..., total=...)` at `wallet/views.py:20` and `:33` passes fields the model does not declare, which would raise TypeError on its own. `Cash.WalletPostAsWritten` models that failure. `Cash.WalletSave` models `WalletTransaction.save` for a row built with its declared fields.
- Referrals.UseReferralCodeAsWritten: covers a user loaded from the database. A user that `auth.py:96-107` creates in the same request has the float balance 10000.00, so `user.balance += 100.00` and `user.save()` succeed; the referrer's `balance += 50.00` at `views.py:331` then raises, the handler answers 500, and the link and the +100 stay saved. That case is not modelled.
- Cash.WalletPostAsWritten: covers a user loaded from the database. For a user created in the same request the float balance is updated and saved (`wallet/views.py:18-19` and `:31-32`) before `create(type=, total=)` raises, so the reply is 500 with the balance changed and no wallet row. The reply is modelled; that saved change is not.
- Referrals.UseReferralCode: models the intended redemption. As written, `user.balance += 100.00` adds a float to a Decimal balance and the handler answers 500 (`Referrals.UseReferralCodeAsWritten`).
- Cash.WalletHistory: models the intended listing. As written, the view fails for any user with a wallet row (`Cash.WalletHistoryAsWritten`).
- In verification, a lookup that returns several codes (`MultipleObjectsReturned`) is modelled as the same failure as no code.
- Self-referral at registration is not modelled. The serializer does not forbid it, and nothing in the source defines what it should do.
- The role field that `UserSerializer` accepts from the client is not modelled as a security rule. The model takes the role as given.
- The referral code is written with a queryset `.update()` (`backend/accounts/models.py:31`), so the in-memory instance keeps no code. The model returns the row as stored.
- `auth.py` creates users with role "user" and balance 10000. `backend/accounts/models.py` declares neither. Both are modelled as `auth.py` writes them.
- `parseInt` is modelled on decimal digits with an optional sign. Its hexadecimal `0x` prefix and other radix rules are not modelled.
- Text.Lower: folds the ASCII and Latin-1 capitals, which covers Spanish names. JavaScript's `toLowerCase()` also folds Latin Extended, Greek, Cyrillic and other capitals, and can change the length ("İ" becomes two code units); those are kept as they are.
- Catalog.FilterStocks: the search is case-insensitive for ASCII and Latin-1 letters only (see Text.Lower); a stock named in Greek capitals is not found by a lower-case query, though `toLowerCase` would find it.
- Listings.ShownTrades: the same limit of case folding as Text.Lower applies to the history search.
- Listings.FilteredMembers: the same limit of case folding as Text.Lower applies to the user search.
- Listings.FilterAccounts: the same limit of case folding as Text.Lower applies to the admin user search.
- Market.Search: `icontains` folds case as the database does (SQLite's LIKE folds ASCII only, PostgreSQL folds all letters); the model folds ASCII and Latin-1.
- JavaScript's `\s` and `trim()`, and Python's `split()` and `strip()`, also match Unicode spaces. The model's `IsSpace` covers the ASCII whitespace characters only. Likewise Python's `upper()` maps every cased letter, some to two characters ("ß" becomes "SS"); the model upper-cases ASCII letters only.
- Accounts.DeriveCode: upper-cases ASCII letters only. For a non-ASCII prefix Python's `upper()` can change the length, and with it what the 12-character cut keeps ("ßßßß" with keys 10000 and 10001 both give "SSSSSSSS1000"). The lemmas about the code's shape are stated for ASCII prefixes only.
- Accounts.DeriveCodeShape: stated only for usernames whose first four characters are ASCII; for "ßßßß" Python's code is "SSSSSSSS1000", with no 'X'.
- Accounts.DeriveCodeRecoversKey: stated only for ASCII four-character prefixes; for "ßßßß" the key is cut off and cannot be read back.
- Accounts.DistinctKeysDistinctCodes: stated only for ASCII four-character prefixes; for "ßßßß" keys 10000 and 10001 give the same code, and the second save hits the unique constraint on `referral_code`.
- Market.Normalize: upper-cases and trims ASCII only, so "no longer than the input" holds for the model but not for Python's `upper()` on letters such as "ß".
- The CSV reader that states the round trip splits records on `'\n'`, as the writer joins them. CRLF input is not modelled.
- The activity export ignores the type filter and exports every loaded transaction. The model follows the code.
- Transaction dates are compared as already-parsed time numbers. `new Date("yyyy-mm-dd")` is midnight UTC, so the inclusive end bound leaves out every transaction later on the end day; the model takes the bound as given. Invalid date strings are not modelled.
- `Portfolio.tsx` falls back to mock quotes when the quote request fails. That fallback is not modelled; the quotes map is a parameter.
- The dashboard page reads fields the back end does not send. Missing fields are modelled as absent (`None`) and counted as 0, as the page does.
- Reports: file generation is not modelled. Nothing in the source moves a report to "completado", so no report becomes downloadable (`Reports.NothingBecomesDownloadable`).
- Catalog.Page: requires a page number of at least 1. The screen starts at 1 and only steps within [1, totalPages].
- Catalog.PageWindow: the window is promised to contain the current page only when that page lies within [1, totalPages], which previous/next keep (`Catalog.StepsStayInRange`).
- Valuation.Holdings: states only the symbol and shares of each row. The per-row values and gains are stated by `Valuation.HoldingOf`, and the allocations by `Valuation.AllocationsSumTo100`.
- Views not named in the model are left out: `StockTransactionViewSet.recent`/`by_symbol`, the admin-panel and dashboard aggregation views, the watchlist and referral list views. Bare model declarations, admin registrations and URL files are left out too.

## Findings

| source | as written | input that shows it | evidently intended | confidence | as-written member | corrected member |
|---|---|---|---|---|---|---|
| backend/TikalInvest/views.py:208-219 | the holdings count subtracts `Sum(quantity, sells)` from `Sum(quantity, buys)`; with no sells the SQL sum is NULL, the difference is NULL, and `net_quantity > 0` drops the stock | one completed buy of a stock that was never sold: the count is 0 (reachable once the `status` field the filter at views.py:196-200 reads exists; as written that filter raises FieldError first) | count every stock whose bought quantity exceeds its sold quantity, treating no sells as 0 | not executed | PortfolioData.UnsoldStockNotCounted | PortfolioData.HoldingsCountMatchesPortfolioData |
| backend/TikalInvest/views.py:139-140 | the quantity accumulates the rows' `Decimal` quantities, and `float(stock.current_price) * data['quantity']` multiplies a `float` by it | one completed buy of 10 shares: TypeError, answered 500 (once the fields the filters read exist) | convert the quantity to `float` and report the holding | not executed | PortfolioData.OneBuyCrashes | PortfolioData.Summarize |
| backend/TikalInvest/views.py:112-125 | both loops read `tx.stock.id`, but the stock foreign key is `on_delete=SET_NULL` | a completed buy whose stock was deleted: AttributeError, answered 500 | skip rows without a stock, as portfolio_summary's grouping keeps them apart | not executed | PortfolioData.PortfolioDataFailsAsWritten | PortfolioData.HoldingsCountMatchesPortfolioData |
| backend/TikalInvest/auth.py:21-22 | `parts[0]` is read before the length of `header.split()` is checked | the header `" "`: the split is empty and indexing raises IndexError, which becomes a server error rather than a refused login | refuse any header that is not exactly two words, with no exception | not executed | Auth.BlankHeaderCrashes | Auth.ParseHeaderAgrees |
| frontend/src/components/screens/SystemActivity.tsx:136-137 | quotes are doubled, but the cell is enclosed in quotes only when it contains a comma | the cell `a"b` is written as `a""b`, and a cell holding a newline is written bare; neither reads back as the same cell | enclose a cell that holds a comma, a quote or a newline, as in section 2 of RFC 4180 | not executed | Csv.AsWrittenSplitsRecord | Csv.RoundTrip |
| frontend/src/components/screens/Settings.tsx:89-97 | the completion timer sets the pending balance to the value captured before the deposit, minus the amount | the first deposit of 100 on a fresh screen ends with a pending balance of −100 | the pending balance returns to what it was before the deposit, and the amount moves to the available balance | not executed | Settings.StaleCompletionLosesPending | Settings.DepositCompletes |
| backend/apps/wallet/views.py:18-31 | the views add or subtract a `float` amount to the `Decimal` balance | any deposit, or a withdrawal not above the balance, by a user loaded from the database: `Decimal += float` raises TypeError and the view answers 500 (a user created in the same request has its balance saved, then `create(type=, total=)` raises) | credit or debit the amount, converted to `Decimal` | not executed | Cash.WalletPostsFailAsWritten | Cash.WithdrawUndoesDeposit |
| backend/apps/wallet/views.py:41 | each history row reads `t.type` and `t.total`, which WalletTransaction does not declare (it has `transaction_type` and `amount`) | a user with one wallet row: AttributeError, answered 500 | list the rows by their declared fields, newest first | not executed | Cash.HistoryFailsAsWritten | Cash.WalletHistory |
| backend/TikalInvest/views.py:328 | `user.balance += 100.00` adds a `float` to the `Decimal` balance inside the try block | any redemption of a valid code by a user loaded from the database: TypeError, caught at :344, answered 500, and nothing is saved (a user created in the same request has a float balance, so its +100 and link are saved and the referrer's update at :331 raises) | link the referrer and pay 100 and 50 | not executed | Referrals.UseReferralCodeAsWritten | Referrals.RedeemBonusTotal |

=== FILE: accounts.dfy ===
/** The custom User of backend/accounts/models.py: its defaults and the
    referral code derived on save, and the lookup of a user by that code. */
module Accounts {
  import opened Base
  import opened Text

  datatype Role = Admin | Trader

  /** The fields of a user the referral rules read and write. `pk` is the
      primary key the database assigned; `referredBy` is the index of the
      referring user in the directory. */
  datatype User = User(
    pk: nat,
    username: string,
    role: Role,
    isVerified: bool,
    referralCode: Option<string>,
    referredBy: Option<nat>,
    balance: real)

  /** A user as first constructed: role Trader, not verified, no code yet
      and no referrer. */
  function NewUser(pk: nat, username: string, balance: real): (u: User)
    ensures u.role == Trader && !u.isVerified
    ensures u.referralCode.None? && u.referredBy.None?
    ensures u.pk == pk && u.username == username && u.balance == balance
  {
    User(pk, username, Trader, false, None, None, balance)
  }

  /** Python truthiness of a nullable string. */
  predicate HasCode(c: Option<string>) {
    c.Some? && c.value != ""
  }

  /** `username[:4]`. */
  function Prefix4(username: string): (p: string)
    ensures |p| == if |username| < 4 then |username| else 4
    ensures p == username[..|p|]
  {
    if |username| < 4 then username else username[..4]
  }

  /** (username[:4] + str(pk) + "X").upper()[:12], with upper-casing on
      ASCII letters only. */
  function DeriveCode(username: string, pk: nat): (code: string)
    ensures |Prefix4(username)| < |code| <= 12
    ensures Upper(Prefix4(username)) == code[..|Prefix4(username)|]
  {
    var full := Upper(Prefix4(username) + NatToString(pk) + "X");
    var code := if |full| <= 12 then full else full[..12];
    assert code[..|Prefix4(username)|] == full[..|Prefix4(username)|];
    code
  }

  /** A code whose digits fit: a username of at least four characters, the
      first four ASCII (so that upper-casing keeps one character each), and
      a key of at most seven digits give the whole derivation untruncated. */
  lemma DeriveCodeShape(username: string, pk: nat)
    requires |username| >= 4 && AllAscii(username[..4]) && |NatToString(pk)| <= 7
    ensures DeriveCode(username, pk) == Upper(username[..4]) + NatToString(pk) + "X"
  {
    var digits := NatToString(pk);
    assert forall i :: 0 <= i < |digits| ==> UpperChar(digits[i]) == digits[i];
    assert Upper(username[..4] + digits + "X") == Upper(username[..4]) + digits + "X";
  }

  /** Reading the key back out of such a code gives the key, so two users
      whose usernames start with the same four characters and whose keys
      differ get different codes. */
  lemma {:induction false} DeriveCodeRecoversKey(username: string, pk: nat)
    requires |username| >= 4 && AllAscii(username[..4]) && |NatToString(pk)| <= 7
    ensures var code := DeriveCode(username, pk);
            && code[|code| - 1] == 'X'
            && (forall i :: 4 <= i < |code| - 1 ==> IsDigit(code[i]))
            && DigitsValue(code[4..|code| - 1]) == pk
  {
    DeriveCodeShape(username, pk);
    var code := DeriveCode(username, pk);
    assert code[4..|code| - 1] == NatToString(pk);
    DigitsOfNat(pk);
  }

  lemma DistinctKeysDistinctCodes(u1: string, pk1: nat, u2: string, pk2: nat)
    requires |u1| >= 4 && AllAscii(u1[..4]) && |NatToString(pk1)| <= 7
    requires |u2| >= 4 && AllAscii(u2[..4]) && |NatToString(pk2)| <= 7
    requires pk1 != pk2
    ensures DeriveCode(u1, pk1) != DeriveCode(u2, pk2)
  {
    DeriveCodeRecoversKey(u1, pk1);
    DeriveCodeRecoversKey(u2, pk2);
  }

  /** The derivation is not injective for short usernames: "ab" with key 12
      and "ab1" with key 2 both get "AB12X". */
  lemma ShortUsernamesCollide()
    ensures DeriveCode("ab", 12) == DeriveCode("ab1", 2) == "AB12X"
  {
  }

  /** User.save: the stored row gets a derived code only when it has none
      (None or empty); an existing code is kept. */
  function Save(u: User): (r: User)
    ensures HasCode(u.referralCode) ==> r == u
    ensures !HasCode(u.referralCode) ==> r.referralCode == Some(DeriveCode(u.username, u.pk))
    ensures HasCode(r.referralCode)
    ensures r.(referralCode := u.referralCode) == u
  {
    if HasCode(u.referralCode) then u
    else u.(referralCode := Some(DeriveCode(u.username, u.pk)))
  }

  /** Saving again never changes a code once it exists. */
  lemma SaveKeepsCode(u: User)
    ensures Save(Save(u)) == Save(u)
  {
  }

  /** The first user in the directory whose code is `code`; the column is
      unique, so it is the only one. */
  function FindByCode(users: seq<User>, code: string): (r: Option<nat>)
    ensures r.Some? ==> r.value < |users| && users[r.value].referralCode == Some(code)
    ensures r.None? <==> forall i :: 0 <= i < |users| ==> users[i].referralCode != Some(code)
    ensures r.Some? ==> forall i :: 0 <= i < r.value ==> users[i].referralCode != Some(code)
  {
    if |users| == 0 then None
    else if users[0].referralCode == Some(code) then Some(0)
    else match FindByCode(users[1..], code)
      case None => None
      case Some(j) => Some(j + 1)
  }
}

=== FILE: auth.dfy ===
/** The request-side rules of backend/TikalInvest/auth.py: reading the
    Authorization header, splitting the display name, creating or
    refreshing the local user from the token's claims, and the admin
    permission. Fetching the signing keys and decoding the token are not
    part of this model: a decoded token is given as its claims. */
module Auth {
  import opened Base
  import opened Text

  /** Python's `str.split()` without arguments: the maximal runs of
      non-whitespace characters, in order. */
  function Words(s: string): (ws: seq<string>)
    decreases |s|
  {
    var t := TrimStart(s);
    if |t| == 0 then [] else
      var w := Token(t);
      WordThenShorter(s);
      [w] + Words(t[|w|..])
  }

  /** The first word of a string that is not all whitespace is a word,
      and what follows it is shorter than the string. */
  lemma WordThenShorter(s: string)
    requires |TrimStart(s)| > 0
    ensures IsWord(Token(TrimStart(s)))
    ensures |TrimStart(s)[|Token(TrimStart(s))|..]| < |s|
  {
    var t := TrimStart(s);
    assert !IsSpace(t[0]);
  }

  /** Every piece `split()` returns is a non-empty run without whitespace. */
  lemma {:induction false} WordsAreWords(s: string)
    ensures forall i :: 0 <= i < |Words(s)| ==> IsWord(Words(s)[i])
    decreases |s|
  {
    var t := TrimStart(s);
    if |t| > 0 {
      var w := Token(t);
      WordThenShorter(s);
      WordsAreWords(t[|w|..]);
      ConsWords(w, Words(t[|w|..]));
    }
  }

  lemma ConsWords(w: string, rest: seq<string>)
    requires IsWord(w)
    requires forall i :: 0 <= i < |rest| ==> IsWord(rest[i])
    ensures forall i :: 0 <= i < |[w] + rest| ==> IsWord(([w] + rest)[i])
  {
  }

  /** A string has no words iff it is whitespace only. */
  lemma WordsEmptyIff(s: string)
    ensures |Words(s)| == 0 <==> forall k :: 0 <= k < |s| ==> IsSpace(s[k])
  {
    var t := TrimStart(s);
    if |t| > 0 {
      assert t[0] == s[|s| - |t|];
    }
  }

  /** The leading run of non-whitespace characters. */
  function Token(s: string): (w: string)
    ensures |w| <= |s| && w == s[..|w|]
    ensures forall k :: 0 <= k < |w| ==> !IsSpace(w[k])
    ensures |w| < |s| ==> IsSpace(s[|w|])
    ensures |s| > 0 && !IsSpace(s[0]) ==> |w| > 0
    decreases |s|
  {
    if |s| == 0 || IsSpace(s[0]) then "" else [s[0]] + Token(s[1..])
  }

  /** A word followed by the end or by whitespace is the token. */
  lemma {:induction false} TokenOfWord(w: string, rest: string)
    requires forall k :: 0 <= k < |w| ==> !IsSpace(w[k])
    requires |rest| > 0 ==> IsSpace(rest[0])
    ensures Token(w + rest) == w
    decreases |w|
  {
    if |w| > 0 {
      TokenOfWord(w[1..], rest);
      assert (w + rest)[1..] == w[1..] + rest;
    } else {
      assert w + rest == rest;
    }
  }

  predicate IsWord(w: string) {
    |w| > 0 && forall k :: 0 <= k < |w| ==> !IsSpace(w[k])
  }

  /** A word at the front of a string, ended by whitespace or by the end,
      is its first word. */
  lemma WordsOfWordThen(w: string, rest: string)
    requires IsWord(w)
    requires |rest| > 0 ==> IsSpace(rest[0])
    ensures Words(w + rest) == [w] + Words(rest)
  {
    var s := w + rest;
    assert s[0] == w[0];
    assert TrimStart(s) == s;
    TokenOfWord(w, rest);
    assert s[|w|..] == rest;
  }

  /** Leading whitespace does not change the words. */
  lemma WordsSkipSpace(c: char, s: string)
    requires IsSpace(c)
    ensures Words([c] + s) == Words(s)
  {
    assert ([c] + s)[1..] == s;
    assert TrimStart([c] + s) == TrimStart(s);
  }

  /** A single word, alone or after one space, is the only word. */
  lemma OneWord(b: string)
    requires IsWord(b)
    ensures Words(b) == [b]
    ensures Words([' '] + b) == [b]
  {
    WordsOfWordThen(b, "");
    assert b + "" == b;
    WordsSkipSpace(' ', b);
  }

  /** Two words separated by one space split back into those two words. */
  lemma TwoWords(a: string, b: string)
    requires IsWord(a) && IsWord(b)
    ensures Words(a + " " + b) == [a, b]
  {
    var x := [' '] + b;
    assert a + " " + b == a + x;
    WordsOfWordThen(a, x);
    OneWord(b);
  }

  /** What authenticate makes of the Authorization header. */
  datatype HeaderOutcome =
    | Anonymous            // no header: another authenticator may try
    | Rejected             // AuthenticationFailed, answered with 401
    | IndexError           // an uncaught exception, answered with 500
    | Bearer(token: string)

  /** The header check as written: the first word is read before the number
      of words is checked, so a header of whitespace only raises. */
  function ParseHeaderAsWritten(header: Option<string>): (r: HeaderOutcome)
    ensures r == Anonymous <==> header.None? || header.value == ""
    ensures r == IndexError <==> header.Some? && header.value != "" && |Words(header.value)| == 0
    ensures r.Bearer? ==> Words(header.value) == [Words(header.value)[0], r.token] && Lower(Words(header.value)[0]) == "bearer"
  {
    match header
    case None => Anonymous
    case Some(h) =>
      if h == "" then Anonymous
      else
        var parts := Words(h);
        if |parts| == 0 then IndexError
        else if Lower(parts[0]) != "bearer" || |parts| != 2 then Rejected
        else Bearer(parts[1])
  }

  /** The header check with the length checked first: every present header
      that is not "Bearer <token>" is refused with 401. */
  function ParseHeader(header: Option<string>): (r: HeaderOutcome)
    ensures r != IndexError
    ensures r == Anonymous <==> header.None? || header.value == ""
    ensures r.Bearer? <==> header.Some? && |Words(header.value)| == 2 && Lower(Words(header.value)[0]) == "bearer"
    ensures r.Bearer? ==> r.token == Words(header.value)[1]
  {
    match header
    case None => Anonymous
    case Some(h) =>
      if h == "" then Anonymous
      else
        var parts := Words(h);
        if |parts| != 2 || Lower(parts[0]) != "bearer" then Rejected
        else Bearer(parts[1])
  }

  /** The two checks differ only on headers of whitespace only. */
  lemma ParseHeaderAgrees(header: Option<string>)
    ensures ParseHeaderAsWritten(header) != IndexError ==> ParseHeaderAsWritten(header) == ParseHeader(header)
    ensures ParseHeaderAsWritten(header) == IndexError ==> ParseHeader(header) == Rejected
  {
  }

  /** A header of one space crashes the view instead of being refused. */
  lemma BlankHeaderCrashes()
    ensures ParseHeaderAsWritten(Some(" ")) == IndexError
    ensures ParseHeader(Some(" ")) == Rejected
  {
    assert IsSpace(" "[0]);
  }

  /** "Bearer <token>", in any letter case of the scheme, yields the token. */
  lemma BearerRoundTrip(scheme: string, token: string)
    requires IsWord(scheme) && IsWord(token) && Lower(scheme) == "bearer"
    ensures ParseHeader(Some(scheme + " " + token)) == Bearer(token)
    ensures ParseHeaderAsWritten(Some(scheme + " " + token)) == Bearer(token)
  {
    TwoWords(scheme, token);
  }

  /** The claims of a decoded token that authenticate reads; a missing
      claim is None. */
  datatype Claims = Claims(sub: string, email: Option<string>, name: Option<string>, emailVerified: Option<bool>, role: Option<string>)

  /** The local user as authenticate reads and writes it. */
  datatype LocalUser = LocalUser(
    username: string, email: string, firstName: string, lastName: string,
    isVerified: bool, role: string, balance: real, usablePassword: bool, isActive: bool)

  function EmailOf(c: Claims): string { c.email.GetOr("") }
  function NameOf(c: Claims): string { c.name.GetOr("") }
  function VerifiedOf(c: Claims): bool { c.emailVerified.GetOr(false) }

  /** The starting balance of a user created on first sign-in. */
  const StartingBalance: real := 10000.0

  /** First sign-in: a user named after the token subject, with role
      "user", the starting balance, an unusable password and the e-mail,
      names and verification taken from the claims. */
  function NewLocalUser(c: Claims): (u: LocalUser)
    ensures u.username == c.sub && u.email == EmailOf(c)
    ensures u.role == "user" && u.balance == StartingBalance && !u.usablePassword && u.isActive
    ensures u.isVerified == VerifiedOf(c)
    ensures (u.firstName, u.lastName) == SplitFirstWord(NameOf(c))
  {
    var (first, last) := SplitFirstWord(NameOf(c));
    LocalUser(c.sub, EmailOf(c), first, last, VerifiedOf(c), "user", StartingBalance, false, true)
  }

  datatype Field = EmailField | FirstNameField | LastNameField | VerifiedField

  /** Later sign-ins: the e-mail and verification follow the claims, the
      names follow a non-empty display name, and exactly the fields that
      changed are listed for saving, in this order. */
  function Refresh(u: LocalUser, c: Claims): (r: (LocalUser, seq<Field>))
    ensures r.0.email == EmailOf(c) && r.0.isVerified == VerifiedOf(c)
    ensures NameOf(c) != "" ==> (r.0.firstName, r.0.lastName) == SplitFirstWord(NameOf(c))
    ensures NameOf(c) == "" ==> r.0.firstName == u.firstName && r.0.lastName == u.lastName
    ensures r.0.username == u.username && r.0.role == u.role && r.0.balance == u.balance
            && r.0.usablePassword == u.usablePassword && r.0.isActive == u.isActive
    ensures EmailField in r.1 <==> u.email != r.0.email
    ensures FirstNameField in r.1 <==> u.firstName != r.0.firstName
    ensures LastNameField in r.1 <==> u.lastName != r.0.lastName
    ensures VerifiedField in r.1 <==> u.isVerified != r.0.isVerified
  {
    var email := EmailOf(c);
    var (first, last) := if NameOf(c) != "" then SplitFirstWord(NameOf(c)) else (u.firstName, u.lastName);
    var verified := VerifiedOf(c);
    (u.(email := email, firstName := first, lastName := last, isVerified := verified),
     Changed(u.email != email, u.firstName != first, u.lastName != last, u.isVerified != verified))
  }

  /** The list of changed fields, in the order they are checked. */
  function Changed(email: bool, first: bool, last: bool, verified: bool): (r: seq<Field>)
    ensures EmailField in r <==> email
    ensures FirstNameField in r <==> first
    ensures LastNameField in r <==> last
    ensures VerifiedField in r <==> verified
    ensures r == [] <==> !email && !first && !last && !verified
  {
    (if email then [EmailField] else []) + (if first then [FirstNameField] else [])
    + (if last then [LastNameField] else []) + (if verified then [VerifiedField] else [])
  }

  /** Signing in again with the same claims saves nothing. */
  lemma RefreshSettles(u: LocalUser, c: Claims)
    ensures Refresh(Refresh(u, c).0, c).1 == []
    ensures Refresh(Refresh(u, c).0, c).0 == Refresh(u, c).0
  {
  }

  /** A user created from claims is already up to date with them. */
  lemma NewUserIsCurrent(c: Claims)
    ensures Refresh(NewLocalUser(c), c).1 == []
  {
  }

  /** The signed-in user of a request; `token` holds the claims when the
      user came through this authenticator and is None otherwise. */
  datatype Principal = Principal(account: LocalUser, token: Option<Claims>)

  /** IsAdmin: the request passes iff the token's claims carry the role
      "admin"; without token claims it fails. */
  function IsAdmin(p: Principal): (ok: bool)
    ensures ok ==> p.token.Some? && p.token.value.role == Some("admin")
    ensures p.token.Some? && p.token.value.role == Some("admin") ==> ok
  {
    match p.token
    case None => false
    case Some(c) => c.role == Some("admin")
  }

  /** The role stored on the local account plays no part in IsAdmin. */
  lemma IsAdminIgnoresAccountRole(p: Principal, role: string)
    ensures IsAdmin(p.(account := p.account.(role := role))) == IsAdmin(p)
  {
  }

  /** A first sign-in with an "admin" role claim is admitted although the
      account it creates has role "user". */
  lemma NewUserAdminByClaim(c: Claims)
    requires c.role == Some("admin")
    ensures NewLocalUser(c).role == "user"
    ensures IsAdmin(Principal(NewLocalUser(c), Some(c)))
  {
  }
}

=== FILE: base.dfy ===
/** Values the source may leave out: a missing request field, a lookup that
    finds nothing, or a JavaScript `parseFloat` that yields NaN. */
module Base {

  datatype Option<+T> = None | Some(value: T) {

    /** The wrapped value, or `default` when there is none (Python's
        `x or default`, JavaScript's `x || default` on a present value). */
    function GetOr(default: T): T {
      match this
      case Some(v) => v
      case None => default
    }
  }

  /** The value of a validation or parse that may fail with an error `E`. */
  datatype Result<+T, +E> = Success(value: T) | Failure(error: E)

  function Min(a: int, b: int): int {
    if a <= b then a else b
  }

  function Max(a: int, b: int): int {
    if a >= b then a else b
  }

  function MinReal(a: real, b: real): real {
    if a <= b then a else b
  }

  function MaxReal(a: real, b: real): real {
    if a >= b then a else b
  }
}

=== FILE: cash.dfy ===
/** The cash balance ledger: Transaction.save and its serializer check
    (backend/apps/transactions), and the wallet views and WalletTransaction
    (backend/apps/wallet). Every operation is one atomic step on a scalar
    balance. */
module Cash {
  import opened Base
  import opened Money
  import opened Seqs

  datatype TxType = Buy | Sell | Deposit | Withdraw

  /** The fields of a Transaction row that save reads. `stockPrice` is the
      current price of the linked stock, None when no stock is linked;
      `quantity`, `price` and `total` are nullable columns. */
  datatype Transaction = Transaction(
    kind: TxType,
    stockPrice: Option<real>,
    quantity: Option<real>,
    price: Option<real>,
    total: Option<real>)

  /** Python truthiness of a nullable number. */
  predicate Truthy(q: Option<real>) {
    q.Some? && q.value != 0.0
  }

  /** A buy or sell that names a stock and a non-zero quantity: the rows
      save reprices. */
  predicate Priced(t: Transaction) {
    (t.kind == Buy || t.kind == Sell) && t.stockPrice.Some? && Truthy(t.quantity)
  }

  /** round(price × quantity, 2). */
  function LineTotal(price: real, quantity: real): (r: real)
    ensures IsCents(r)
    ensures price * quantity - 0.005 <= r <= price * quantity + 0.005
  {
    Round2(price * quantity)
  }

  /** The first half of Transaction.save: a priced row takes the stock's
      current price and a total of round(price × quantity, 2), whatever price
      and total it carried; every other row is left as it is. */
  function Reprice(t: Transaction): (r: Transaction)
    ensures Priced(t) ==> && r.price == t.stockPrice
                          && r.total == Some(LineTotal(t.stockPrice.value, t.quantity.value))
    ensures !Priced(t) ==> r == t
    ensures r.kind == t.kind && r.stockPrice == t.stockPrice && r.quantity == t.quantity
  {
    if Priced(t) then
      t.(price := t.stockPrice, total := Some(LineTotal(t.stockPrice.value, t.quantity.value)))
    else t
  }

  /** A priced row's client-supplied price and total have no effect. */
  lemma RepriceIgnoresClientPrice(t: Transaction, clientPrice: Option<real>, clientTotal: Option<real>)
    requires Priced(t)
    ensures Reprice(t.(price := clientPrice, total := clientTotal)) == Reprice(t)
  {
  }

  /** The second half of Transaction.save: the balance after the row is
      stored. A buy debits and a sell credits the total, deposit and withdraw
      use a missing total as 0, and every result is rounded to cents. None
      stands for the TypeError Python raises when a buy or sell still has no
      total. Nothing checks that the balance covers a debit. */
  function Settle(balance: real, t: Transaction): (r: Option<real>)
    ensures (t.kind == Buy || t.kind == Sell) ==> (r.Some? <==> t.total.Some?)
    ensures (t.kind == Deposit || t.kind == Withdraw) ==> r.Some?
    ensures r.Some? ==> IsCents(r.value)
    ensures r.Some? && t.kind == Buy ==> balance - t.total.value - 0.005 <= r.value <= balance - t.total.value + 0.005
    ensures r.Some? && t.kind == Sell ==> balance + t.total.value - 0.005 <= r.value <= balance + t.total.value + 0.005
    ensures r.Some? && t.kind == Deposit ==> balance + t.total.GetOr(0.0) - 0.005 <= r.value <= balance + t.total.GetOr(0.0) + 0.005
    ensures r.Some? && t.kind == Withdraw ==> balance - t.total.GetOr(0.0) - 0.005 <= r.value <= balance - t.total.GetOr(0.0) + 0.005
  {
    match t.kind
    case Buy => if t.total.Some? then Some(Round2(balance - t.total.value)) else None
    case Sell => if t.total.Some? then Some(Round2(balance + t.total.value)) else None
    case Deposit => Some(Round2(balance + t.total.GetOr(0.0)))
    case Withdraw => Some(Round2(balance - t.total.GetOr(0.0)))
  }

  /** A deposit or withdraw without a total leaves a balance of whole cents
      unchanged. */
  lemma MissingTotalIsNoOp(balance: real, t: Transaction)
    requires IsCents(balance) && (t.kind == Deposit || t.kind == Withdraw) && t.total.GetOr(0.0) == 0.0
    ensures Settle(balance, t) == Some(balance)
  {
    Round2OfCents(balance);
  }

  /** Transaction.save: reprice, then settle the balance. */
  function Save(balance: real, t: Transaction): (r: Option<real>)
    ensures Priced(t) ==> r.Some?
    ensures (t.kind == Buy || t.kind == Sell) && !Priced(t) ==> (r.Some? <==> t.total.Some?)
  {
    Settle(balance, Reprice(t))
  }

  /** Selling back exactly what was bought at the same price restores a
      balance of whole cents: the two settlements are inverses. */
  lemma SellUndoesBuy(balance: real, t: Transaction)
    requires IsCents(balance) && Priced(t) && t.kind == Buy
    ensures Save(balance, t).Some?
    ensures Save(Save(balance, t).value, t.(kind := Sell)) == Some(balance)
  {
    var amount := LineTotal(t.stockPrice.value, t.quantity.value);
    CentsClosed(balance, amount);
    Round2OfCents(balance - amount);
    CentsClosed(balance - amount, amount);
    Round2OfCents(balance - amount + amount);
  }

  /** No sufficiency check: a buy from an empty balance leaves it negative. */
  lemma BuyCanOverdraw()
    ensures Save(0.0, Transaction(Buy, Some(10.0), Some(1.0), None, None)) == Some(-10.0)
  {
    Round2OfCents(10.0);
    Round2OfCents(-10.0);
  }

  /** A withdraw is not checked either. */
  lemma WithdrawCanOverdraw()
    ensures Save(5.0, Transaction(Withdraw, None, None, None, Some(20.0))) == Some(-15.0)
  {
    Round2OfCents(-15.0);
  }

  /** The fields the serializer takes from the client: price, total and
      timestamp are read-only, so a created row starts without price and
      total. */
  function FromRequest(kind: TxType, stockPrice: Option<real>, quantity: Option<real>): (t: Transaction)
    ensures t.price.None? && t.total.None?
    ensures t.kind == kind && t.stockPrice == stockPrice && t.quantity == quantity
  {
    Transaction(kind, stockPrice, quantity, None, None)
  }

  /** Because total is read-only, a deposit or withdraw created through the
      API carries no total and leaves a balance of whole cents unchanged. */
  lemma ApiDepositIsNoOp(balance: real, kind: TxType, stockPrice: Option<real>, quantity: Option<real>)
    requires IsCents(balance) && (kind == Deposit || kind == Withdraw)
    ensures Save(balance, FromRequest(kind, stockPrice, quantity)) == Some(balance)
  {
    MissingTotalIsNoOp(balance, FromRequest(kind, stockPrice, quantity));
  }

  datatype Rejection = StockRequired | InsufficientBalance

  /** TransactionSerializer.validate: a buy or sell must name a stock, and a
      buy of a stock with a non-zero quantity must be covered by the balance.
      Sells, deposits and withdraws are not checked against anything. None
      means the data is accepted. */
  function Validate(balance: real, kind: TxType, stockPrice: Option<real>, quantity: Option<real>): (r: Option<Rejection>)
    ensures r == Some(StockRequired) <==> (kind == Buy || kind == Sell) && stockPrice.None?
    ensures r == Some(InsufficientBalance) <==>
              kind == Buy && stockPrice.Some? && Truthy(quantity) && balance < stockPrice.value * quantity.value
    ensures kind == Buy && stockPrice.Some? && Truthy(quantity) && balance == stockPrice.value * quantity.value ==> r.None?
  {
    if (kind == Buy || kind == Sell) && stockPrice.None? then Some(StockRequired)
    else if kind == Buy && stockPrice.Some? && Truthy(quantity) && balance < stockPrice.value * quantity.value then
      Some(InsufficientBalance)
    else None
  }

  /** A buy the serializer accepts never leaves a balance of whole cents
      negative once saved, although save itself does not check. */
  lemma ValidatedBuyCovered(balance: real, stockPrice: real, quantity: real)
    requires IsCents(balance) && quantity != 0.0
    requires Validate(balance, Buy, Some(stockPrice), Some(quantity)).None?
    ensures Save(balance, FromRequest(Buy, Some(stockPrice), Some(quantity))).Some?
    ensures Save(balance, FromRequest(Buy, Some(stockPrice), Some(quantity))).value >= 0.0
  {
    var cost := stockPrice * quantity;
    var amount := LineTotal(stockPrice, quantity);
    Round2AtMost(cost, balance);
    CentsClosed(balance, amount);
    Round2OfCents(balance - amount);
  }

  /** DepositView.post: the amount (0 when absent) is added with no sign
      check. */
  function DepositView(balance: real, amount: Option<real>): (r: real)
    ensures amount.None? ==> r == balance
    ensures amount.Some? && amount.value > 0.0 ==> r > balance
    ensures amount.Some? && amount.value < 0.0 ==> r < balance
  {
    balance + amount.GetOr(0.0)
  }

  datatype WithdrawOutcome = Insufficient | Withdrawn(balance: real)

  /** WithdrawView.post: a balance below the amount (0 when absent) is
      refused with 400 and unchanged; otherwise the amount is subtracted, so
      an accepted withdrawal never leaves the balance negative. */
  function WithdrawView(balance: real, amount: Option<real>): (r: WithdrawOutcome)
    ensures r.Insufficient? <==> balance < amount.GetOr(0.0)
    ensures r.Withdrawn? ==> r.balance >= 0.0 && r.balance + amount.GetOr(0.0) == balance
  {
    var a := amount.GetOr(0.0);
    if balance < a then Insufficient else Withdrawn(balance - a)
  }

  /** Withdrawing what was just deposited into a non-negative balance is
      accepted and restores the balance. */
  lemma WithdrawUndoesDeposit(balance: real, amount: real)
    requires balance >= 0.0
    ensures WithdrawView(DepositView(balance, Some(amount)), Some(amount)) == Withdrawn(balance)
  {
  }

  /** The reply of DepositView and WithdrawView as written. */
  datatype ViewReply = Refused | ServerError | Accepted(balance: real)

  /** DepositView.post and WithdrawView.post as written, for a user loaded
      from the database: the balance is a Decimal and the amount a float,
      and `balance += amount` / `balance -= amount` on those raises
      TypeError, so every request that reaches the update fails with a
      server error before anything is saved. Only the withdrawal's
      comparison, which Python allows between the two types, still answers
      400. The reply is the same for a user created in the same request,
      but what that user's request saves is not covered here. */
  function WalletPostAsWritten(withdraw: bool, balance: real, amount: Option<real>): (r: ViewReply)
    ensures !r.Accepted?
    ensures r == Refused <==> withdraw && balance < amount.GetOr(0.0)
  {
    if withdraw && balance < amount.GetOr(0.0) then Refused else ServerError
  }

  /** Every deposit and every withdrawal that the corrected views accept
      fails as written, and the two agree on the refusals. */
  lemma WalletPostsFailAsWritten(balance: real, amount: Option<real>)
    ensures WalletPostAsWritten(false, balance, amount) == ServerError
    ensures WithdrawView(balance, amount).Withdrawn? <==> WalletPostAsWritten(true, balance, amount) == ServerError
    ensures WithdrawView(balance, amount).Insufficient? <==> WalletPostAsWritten(true, balance, amount) == Refused
  {
  }

  /** One row of the wallet history. */
  datatype WalletRow = WalletRow(kind: string, total: real, timestamp: int)

  function Timestamp(w: WalletRow): real {
    w.timestamp as real
  }

  /** WalletHistoryView.get: the user's rows, newest first. */
  function WalletHistory(rows: seq<WalletRow>): (r: seq<WalletRow>)
    ensures multiset(r) == multiset(rows)
    ensures forall i, j :: 0 <= i < j < |r| ==> r[i].timestamp >= r[j].timestamp
  {
    var sorted := SortDesc(rows, Timestamp);
    assert forall i, j :: 0 <= i < j < |sorted| ==> Timestamp(sorted[i]) >= Timestamp(sorted[j]);
    sorted
  }

  /** WalletHistoryView.get as written: each row is read through `t.type`
      and `t.total`, which WalletTransaction does not declare, so any
      non-empty history raises AttributeError (None here, a server error);
      only an empty one is answered. */
  function WalletHistoryAsWritten(rows: seq<WalletRow>): (r: Option<seq<WalletRow>>)
    ensures r.Some? <==> |rows| == 0
    ensures r.Some? ==> r.value == []
  {
    if |rows| == 0 then Some([]) else None
  }

  /** As written the history answers only a user with no wallet rows; the
      corrected listing answers every user, with all of their rows. */
  lemma HistoryFailsAsWritten(rows: seq<WalletRow>)
    ensures WalletHistoryAsWritten(rows).None? <==> |WalletHistory(rows)| > 0
    ensures WalletHistoryAsWritten([]) == Some(WalletHistory([]))
  {
    assert |WalletHistory(rows)| == |multiset(WalletHistory(rows))| == |multiset(rows)| == |rows|;
  }

  /** WalletTransaction.save: after the row is stored a "deposit" credits and
      a "withdraw" debits the amount, rounded to cents, with no floor; any
      other type leaves the balance as it was. */
  function WalletSave(balance: real, kind: string, amount: real): (r: real)
    ensures kind == "deposit" ==> IsCents(r) && balance + amount - 0.005 <= r <= balance + amount + 0.005
    ensures kind == "withdraw" ==> IsCents(r) && balance - amount - 0.005 <= r <= balance - amount + 0.005
    ensures kind != "deposit" && kind != "withdraw" ==> r == balance
  {
    if kind == "deposit" then Round2(balance + amount)
    else if kind == "withdraw" then Round2(balance - amount)
    else balance
  }

  /** A withdraw of whole cents undoes a deposit of the same amount. */
  lemma WalletWithdrawUndoesDeposit(balance: real, amount: real)
    requires IsCents(balance) && IsCents(amount)
    ensures WalletSave(WalletSave(balance, "deposit", amount), "withdraw", amount) == balance
  {
    CentsClosed(balance, amount);
    Round2OfCents(balance + amount);
    CentsClosed(balance + amount, amount);
    Round2OfCents(balance + amount - amount);
  }

  /** The model's withdraw has no floor: it can take the balance below 0. */
  lemma WalletWithdrawCanOverdraw()
    ensures WalletSave(10.0, "withdraw", 25.0) == -15.0
  {
    Round2OfCents(-15.0);
  }
}

=== FILE: catalog.dfy ===
/** Browsing the stock catalogue: the conjunctive filter, the pages of
    twelve and the five-button page window, the category toggles and the
    editable price limit of frontend/src/components/screens/MarketCatalog.tsx,
    and the filter-and-sort of the landing page's showcase in
    frontend/src/components/screens/Landing.tsx. */
module Catalog {
  import opened Base
  import opened Text
  import opened Seqs

  /** A catalogue row; `volume` is the traded volume in millions, as
      `parseFloat` reads it back from its "58.2M" label. */
  datatype Stock = Stock(symbol: string, name: string, price: real, volume: real, category: string)

  datatype VolumeFilter = AnyVolume | High | Medium | Low

  /** The catalogue's filter settings. */
  datatype Filters = Filters(query: string, maxPrice: real, categories: seq<string>, volume: VolumeFilter)

  predicate MatchesText(st: Stock, query: string) {
    ContainsIgnoreCase(st.symbol, query) || ContainsIgnoreCase(st.name, query)
  }

  /** Volume buckets: high above 50 million, medium from 20 to 50, low
      below 20. */
  predicate InBucket(volume: real, f: VolumeFilter) {
    match f
    case AnyVolume => true
    case High => volume > 50.0
    case Medium => 20.0 <= volume <= 50.0
    case Low => volume < 20.0
  }

  /** Every volume falls in exactly one of the three buckets. */
  lemma BucketsPartition(volume: real)
    ensures InBucket(volume, High) || InBucket(volume, Medium) || InBucket(volume, Low)
    ensures !(InBucket(volume, High) && InBucket(volume, Medium))
    ensures !(InBucket(volume, High) && InBucket(volume, Low))
    ensures !(InBucket(volume, Medium) && InBucket(volume, Low))
  {
  }

  /** A stock is listed iff its symbol or name contains the query ignoring
      case, its price is between 0 and the selected maximum, its category
      is selected (or none is), and its volume is in the chosen bucket. */
  predicate Listed(st: Stock, f: Filters) {
    && MatchesText(st, f.query)
    && 0.0 <= st.price <= f.maxPrice
    && (|f.categories| == 0 || st.category in f.categories)
    && InBucket(st.volume, f.volume)
  }

  function FilterStocks(all: seq<Stock>, f: Filters): (r: seq<Stock>)
    ensures IsSubseq(r, all)
    ensures forall i :: 0 <= i < |r| ==> Listed(r[i], f)
    ensures forall i :: 0 <= i < |all| && Listed(all[i], f) ==> all[i] in r
  {
    Filter(all, (st: Stock) => Listed(st, f))
  }

  /** With an empty query, every category, no volume bucket and a maximum
      at least every price, all stocks with a non-negative price are
      listed. */
  lemma DefaultFiltersListAll(all: seq<Stock>, maxPrice: real)
    requires forall i :: 0 <= i < |all| ==> 0.0 <= all[i].price <= maxPrice
    ensures FilterStocks(all, Filters("", maxPrice, [], AnyVolume)) == all
  {
    var f := Filters("", maxPrice, [], AnyVolume);
    forall i | 0 <= i < |all| ensures Listed(all[i], f) {
      EmptyOccurs(Lower(all[i].symbol));
    }
    FilterAll(all, (st: Stock) => Listed(st, f));
  }

  lemma {:induction false} FilterAll<T>(s: seq<T>, p: T -> bool)
    requires forall i :: 0 <= i < |s| ==> p(s[i])
    ensures Filter(s, p) == s
    decreases |s|
  {
    if |s| > 0 {
      assert forall i :: 0 <= i < |s| - 1 ==> s[1..][i] == s[i + 1];
      FilterAll(s[1..], p);
    }
  }

  const PageSize: nat := 12

  /** `Math.ceil(n / 12)`. */
  function TotalPages(n: nat): (t: nat)
    ensures (t - 1) * PageSize < n <= t * PageSize || (n == 0 && t == 0)
  {
    (n + PageSize - 1) / PageSize
  }

  /** The stocks on a page: items (page − 1)·12 up to page·12 − 1, fewer on
      the last page and none beyond it. Pages are numbered from 1. */
  function Page<T>(s: seq<T>, page: nat): (r: seq<T>)
    requires page >= 1
    ensures |r| <= PageSize
    ensures (page - 1) * PageSize < |s| ==>
              r == s[(page - 1) * PageSize .. Min(page * PageSize, |s|)]
    ensures (page - 1) * PageSize >= |s| ==> r == []
  {
    var start := (page - 1) * PageSize;
    if start >= |s| then [] else s[start .. Min(start + PageSize, |s|)]
  }

  /** A page is non-empty exactly when its number is at most the page
      count. */
  lemma PageNonEmptyIff<T>(s: seq<T>, page: nat)
    requires page >= 1
    ensures |Page(s, page)| > 0 <==> page <= TotalPages(|s|)
  {
  }

  /** Pages 1 to k, one after another. */
  function Pages<T>(s: seq<T>, k: nat): seq<T>
  {
    if k == 0 then [] else Pages(s, k - 1) + Page(s, k)
  }

  /** The pages, read in order, give back the whole list: nothing is
      skipped or shown twice. */
  lemma {:induction false} PagesCover<T>(s: seq<T>, k: nat)
    ensures Pages(s, k) == s[..Min(k * PageSize, |s|)]
  {
    if k > 0 {
      PagesCover(s, k - 1);
      var start := (k - 1) * PageSize;
      assert k * PageSize == start + PageSize;
      var a := Min(start, |s|);
      var b := Min(start + PageSize, |s|);
      assert Page(s, k) == s[a..b];
      assert s[..b] == s[..a] + s[a..b];
    }
  }

  lemma AllPagesCover<T>(s: seq<T>)
    ensures Pages(s, TotalPages(|s|)) == s
  {
    PagesCover(s, TotalPages(|s|));
  }

  /** The page-number buttons: all pages when there are at most five;
      otherwise five consecutive pages, the first five near the start, the
      last five near the end, and centred on the current page between. */
  function PageWindow(current: int, total: nat): (w: seq<int>)
    ensures |w| == Min(5, total)
    ensures forall i :: 0 <= i < |w| ==> 1 <= w[i] <= total
    ensures forall i :: 0 < i < |w| ==> w[i] == w[i - 1] + 1
    ensures 1 <= current <= total ==> current in w
  {
    var first :=
      if total <= 5 then 1
      else if current <= 3 then 1
      else if current >= total - 2 then total - 4
      else current - 2;
    var w := seq(Min(5, total), i => first + i);
    assert 1 <= current <= total ==> w[current - first] == current;
    w
  }

  /** "Previous": one page back, never below 1. */
  function PreviousPage(current: int): int {
    Max(1, current - 1)
  }

  /** "Next": one page on, never beyond the last page. */
  function NextPage(current: int, total: nat): int {
    Min(total, current + 1)
  }

  /** Previous and next keep a valid page valid. */
  lemma StepsStayInRange(current: int, total: nat)
    requires 1 <= current <= total
    ensures 1 <= PreviousPage(current) <= total
    ensures 1 <= NextPage(current, total) <= total
    ensures current > 1 ==> PreviousPage(current) == current - 1
    ensures current < total ==> NextPage(current, total) == current + 1
  {
  }

  /** handleCategoryToggle: a selected category is removed, another one
      appended; returns the new selection and the page, which is reset to
      the first. */
  function ToggleCategory(selected: seq<string>, id: string): (r: (seq<string>, nat))
    ensures r.1 == 1
    ensures id in selected ==> id !in r.0 && forall c :: c in selected && c != id ==> c in r.0
    ensures id !in selected ==> r.0 == selected + [id]
    ensures forall c :: c in r.0 <==> (c in selected && c != id) || (c == id && id !in selected)
  {
    var next := if id in selected then Filter(selected, (c: string) => c != id) else selected + [id];
    (next, 1)
  }

  /** Toggling a category twice restores the selection as a set, and
      exactly when the category was not selected before. */
  lemma ToggleTwice(selected: seq<string>, id: string)
    ensures var once := ToggleCategory(selected, id).0;
            var twice := ToggleCategory(once, id).0;
            (forall c :: c in twice <==> c in selected)
            && (id !in selected ==> twice == selected)
  {
    if id !in selected {
      var once := selected + [id];
      var twice := Filter(once, (c: string) => c != id);
      FilterAppend(selected, [id], (c: string) => c != id);
      FilterAll(selected, (c: string) => c != id);
      assert Filter([id], (c: string) => c != id) == [];
    }
  }

  /** The editable price limit. */
  datatype PriceLimit = PriceLimit(limit: int, selectedMax: int, input: string, page: nat)

  /** handleMaxPriceInputBlur: a positive integer read from the input
      becomes the limit, lowers the selected maximum to it when above it,
      and goes back to page 1; anything else puts the previous limit back
      in the input and changes nothing else. */
  function MaxPriceBlur(s: PriceLimit): (r: PriceLimit)
    requires s.limit >= 0
    ensures ParseInt(s.input).Some? && ParseInt(s.input).value > 0 ==>
              var n := ParseInt(s.input).value;
              r == PriceLimit(n, Min(s.selectedMax, n), s.input, 1) && r.selectedMax <= r.limit
    ensures !(ParseInt(s.input).Some? && ParseInt(s.input).value > 0) ==>
              r == s.(input := NatToString(s.limit))
  {
    match ParseInt(s.input)
    case Some(n) =>
      if n > 0 then
        s.(limit := n, selectedMax := if s.selectedMax > n then n else s.selectedMax, page := 1)
      else s.(input := NatToString(s.limit))
    case None => s.(input := NatToString(s.limit))
  }

  /** A rejected input leaves the limit ready to be read back: blurring
      again accepts it. */
  lemma BlurRestoresReadableLimit(s: PriceLimit)
    requires s.limit > 0
    requires !(ParseInt(s.input).Some? && ParseInt(s.input).value > 0)
    ensures var r := MaxPriceBlur(s);
            ParseInt(r.input) == Some(s.limit)
            && MaxPriceBlur(r) == PriceLimit(s.limit, Min(s.selectedMax, s.limit), r.input, 1)
  {
    ParseIntOfNat(s.limit, "");
    assert NatToString(s.limit) + "" == NatToString(s.limit);
  }

  /** The landing page's sort choice. */
  datatype SortBy = ByVolume | ByPrice

  function VolumeKey(st: Stock): real { st.volume }
  function PriceKey(st: Stock): real { st.price }

  predicate Showcased(st: Stock, query: string, category: Option<string>) {
    MatchesText(st, query) && (category.None? || st.category == category.value)
  }

  /** The landing showcase: the stocks matching the query and category
      ("all" is None), largest volume first in volume mode and highest
      price first otherwise, ties in catalogue order. */
  function Showcase(all: seq<Stock>, query: string, category: Option<string>, sort: SortBy): (r: seq<Stock>)
    ensures multiset(r) == multiset(Filter(all, (st: Stock) => Showcased(st, query, category)))
    ensures sort == ByVolume ==> SortedDesc(r, VolumeKey)
    ensures sort == ByPrice ==> SortedDesc(r, PriceKey)
    ensures forall i :: 0 <= i < |r| ==> Showcased(r[i], query, category) && r[i] in all
  {
    var kept := Filter(all, (st: Stock) => Showcased(st, query, category));
    var r := if sort == ByVolume then SortDesc(kept, VolumeKey) else SortDesc(kept, PriceKey);
    assert forall i :: 0 <= i < |r| ==> Showcased(r[i], query, category) && r[i] in all by {
      forall i | 0 <= i < |r| ensures Showcased(r[i], query, category) && r[i] in all {
        assert r[i] in multiset(kept);
        FilterMember(all, (st: Stock) => Showcased(st, query, category), r[i]);
      }
    }
    r
  }
}

=== FILE: csv.dfy ===
/** The activity log export of
    frontend/src/components/screens/SystemActivity.tsx: each transaction
    becomes a row of nine text cells, cells are escaped and joined with
    ',', rows with '\n'. The file format is the comma-separated values of
    RFC 4180, read here by a decoder that follows section 2 of that RFC
    with '\n' as the line break. */
module Csv {
  import opened Base
  import opened Text
  import opened Seqs

  /** `replace(/"/g, '""')`: every double quote doubled. */
  function EscapeQuotes(s: string): (r: string)
    ensures forall c :: c != '"' ==> (c in r <==> c in s)
    ensures '"' !in s ==> r == s
    decreases |s|
  {
    if |s| == 0 then ""
    else
      var rest := EscapeQuotes(s[1..]);
      assert forall c :: c in s <==> c == s[0] || c in s[1..];
      (if s[0] == '"' then "\"\"" else [s[0]]) + rest
  }

  /** A cell must be enclosed in double quotes when it holds a comma, a
      double quote or a line break (section 2, rule 6 of RFC 4180). */
  predicate NeedsQuotes(s: string) {
    ',' in s || '"' in s || '\n' in s || '\r' in s
  }

  /** The cell escaping as the export writes it: quotes doubled, but the
      cell enclosed only when it holds a comma. */
  function EncodeCellAsWritten(s: string): (r: string)
    ensures ',' in s ==> |r| >= 2 && r[0] == '"' && r[|r| - 1] == '"'
    ensures ',' !in s ==> r == EscapeQuotes(s)
  {
    var e := EscapeQuotes(s);
    if ',' in e then "\"" + e + "\"" else e
  }

  /** The cell escaping RFC 4180 asks for: enclosed whenever the cell holds
      a comma, a quote or a line break, kept as it is otherwise. */
  function EncodeCell(s: string): (r: string)
    ensures NeedsQuotes(s) ==> r == "\"" + EscapeQuotes(s) + "\""
    ensures !NeedsQuotes(s) ==> r == s
  {
    var e := EscapeQuotes(s);
    if NeedsQuotes(s) then "\"" + e + "\"" else e
  }

  /** The two escapings differ only on cells with a quote or a line break
      and no comma. */
  lemma EscapingsAgree(s: string)
    ensures EncodeCellAsWritten(s) == EncodeCell(s) <==> ',' in s || !NeedsQuotes(s)
  {
    if !(',' in s) && NeedsQuotes(s) {
      var e := EscapeQuotes(s);
      assert |EncodeCell(s)| == |e| + 2;
    }
  }

  /** `cells.map(encode)`. */
  function EncodeCells(cells: seq<string>, encode: string -> string): (r: seq<string>)
    ensures |r| == |cells|
    ensures forall i :: 0 <= i < |cells| ==> r[i] == encode(cells[i])
    decreases |cells|
  {
    if |cells| == 0 then [] else [encode(cells[0])] + EncodeCells(cells[1..], encode)
  }

  /** One record: the escaped cells joined with ','. */
  function EncodeRow(cells: seq<string>, encode: string -> string): string {
    Join(EncodeCells(cells, encode), ',')
  }

  function EncodeRows(rows: seq<seq<string>>, encode: string -> string): (r: seq<string>)
    ensures |r| == |rows|
    ensures forall i :: 0 <= i < |rows| ==> r[i] == EncodeRow(rows[i], encode)
    decreases |rows|
  {
    if |rows| == 0 then [] else [EncodeRow(rows[0], encode)] + EncodeRows(rows[1..], encode)
  }

  /** The whole file: the records joined with '\n'. */
  function Encode(rows: seq<seq<string>>, encode: string -> string): string {
    Join(EncodeRows(rows, encode), '\n')
  }

  /** The body of an enclosed cell, read after its opening quote: a doubled
      quote stands for one quote and a single quote closes the cell. None
      when the closing quote is missing. */
  function QuotedBody(s: string): (r: Option<(string, string)>)
    ensures r.Some? ==> |r.value.1| < |s|
    decreases |s|
  {
    if |s| == 0 then None
    else if s[0] == '"' then
      if |s| >= 2 && s[1] == '"' then
        match QuotedBody(s[2..])
        case None => None
        case Some((body, rest)) => Some(("\"" + body, rest))
      else Some(("", s[1..]))
    else
      match QuotedBody(s[1..])
      case None => None
      case Some((body, rest)) => Some(([s[0]] + body, rest))
  }

  /** A cell that is not enclosed runs to the next ',' or line break. */
  function PlainField(s: string): (r: (string, string))
    ensures r.0 + r.1 == s
    ensures ',' !in r.0 && '\n' !in r.0
    ensures |r.1| == 0 || r.1[0] == ',' || r.1[0] == '\n'
    decreases |s|
  {
    if |s| == 0 || s[0] == ',' || s[0] == '\n' then ("", s)
    else
      var (cell, rest) := PlainField(s[1..]);
      assert s == [s[0]] + s[1..];
      ([s[0]] + cell, rest)
  }

  /** One cell and what follows it. */
  function Field(s: string): (r: Option<(string, string)>)
    ensures r.Some? ==> |r.value.1| <= |s|
  {
    if |s| > 0 && s[0] == '"' then QuotedBody(s[1..]) else Some(PlainField(s))
  }

  /** How a record ended: at the end of the text, or at a line break with
      the rest of the text after it. */
  datatype Tail = End | Next(rest: string)

  /** One record: cells separated by ','. None when an enclosed cell is
      not followed by ',', a line break or the end. */
  function Record(s: string): (r: Option<(seq<string>, Tail)>)
    ensures r.Some? ==> |r.value.0| >= 1
    ensures r.Some? && r.value.1.Next? ==> |r.value.1.rest| < |s|
    decreases |s|
  {
    match Field(s)
    case None => None
    case Some((cell, rest)) =>
      if |rest| == 0 then Some(([cell], End))
      else if rest[0] == '\n' then Some(([cell], Next(rest[1..])))
      else if rest[0] == ',' then
        match Record(rest[1..])
        case None => None
        case Some((cells, tail)) => Some(([cell] + cells, tail))
      else None
  }

  function Records(s: string): Option<seq<seq<string>>>
    decreases |s|
  {
    match Record(s)
    case None => None
    case Some((cells, End)) => Some([cells])
    case Some((cells, Next(rest))) =>
      match Records(rest)
      case None => None
      case Some(more) => Some([cells] + more)
  }

  /** The records of a file; the empty text holds none. */
  function Decode(s: string): Option<seq<seq<string>>> {
    if s == "" then Some([]) else Records(s)
  }

  /** What may follow a cell. */
  predicate CellBoundary(t: string) {
    |t| == 0 || t[0] == ',' || t[0] == '\n'
  }

  lemma {:induction false} QuotedBodyOfEscaped(c: string, t: string)
    requires |t| == 0 || t[0] != '"'
    ensures QuotedBody(EscapeQuotes(c) + "\"" + t) == Some((c, t))
    decreases |c|
  {
    if |c| == 0 {
      assert EscapeQuotes(c) + "\"" + t == "\"" + t;
    } else {
      QuotedBodyOfEscaped(c[1..], t);
      var tail := EscapeQuotes(c[1..]) + "\"" + t;
      if c[0] == '"' {
        assert EscapeQuotes(c) + "\"" + t == "\"\"" + tail;
        QuotedBodyAfterPair(tail);
      } else {
        assert EscapeQuotes(c) + "\"" + t == [c[0]] + tail;
        QuotedBodyAfterChar(c[0], tail);
      }
      assert [c[0]] + c[1..] == c;
    }
  }

  /** A doubled quote inside an enclosed cell stands for one quote. */
  lemma QuotedBodyAfterPair(u: string)
    ensures QuotedBody("\"\"" + u) ==
              match QuotedBody(u)
              case None => None
              case Some((body, rest)) => Some(("\"" + body, rest))
  {
    assert ("\"\"" + u)[2..] == u;
  }

  /** Any other character inside an enclosed cell stands for itself. */
  lemma QuotedBodyAfterChar(x: char, u: string)
    requires x != '"'
    ensures QuotedBody([x] + u) ==
              match QuotedBody(u)
              case None => None
              case Some((body, rest)) => Some(([x] + body, rest))
  {
    assert ([x] + u)[1..] == u;
  }

  lemma {:induction false} PlainFieldOf(c: string, t: string)
    requires ',' !in c && '\n' !in c
    requires CellBoundary(t)
    ensures PlainField(c + t) == (c, t)
    decreases |c|
  {
    if |c| > 0 {
      PlainFieldOf(c[1..], t);
      assert (c + t)[1..] == c[1..] + t;
      assert [c[0]] + c[1..] == c;
    } else {
      assert c + t == t;
    }
  }

  /** A cell escaped as RFC 4180 asks is read back unchanged, whatever
      follows it. */
  lemma FieldOfEncoded(c: string, t: string)
    requires CellBoundary(t)
    ensures Field(EncodeCell(c) + t) == Some((c, t))
  {
    if NeedsQuotes(c) {
      QuotedBodyOfEscaped(c, t);
      assert EncodeCell(c) + t == "\"" + (EscapeQuotes(c) + "\"" + t);
    } else {
      PlainFieldOf(c, t);
      if |c| > 0 {
        assert c[0] in c;
      }
    }
  }

  lemma {:induction false} RecordOfEncoded(cells: seq<string>, t: string)
    requires |cells| >= 1
    requires |t| == 0 || t[0] == '\n'
    ensures Record(EncodeRow(cells, EncodeCell) + t) == Some((cells, if |t| == 0 then End else Next(t[1..])))
    decreases |cells|
  {
    var parts := EncodeCells(cells, EncodeCell);
    if |cells| == 1 {
      assert parts == [EncodeCell(cells[0])];
      assert EncodeRow(cells, EncodeCell) == EncodeCell(cells[0]);
      FieldOfEncoded(cells[0], t);
      assert cells == [cells[0]];
    } else {
      var tail := EncodeRow(cells[1..], EncodeCell) + t;
      assert parts[1..] == EncodeCells(cells[1..], EncodeCell);
      assert EncodeRow(cells, EncodeCell) + t == EncodeCell(cells[0]) + ("," + tail);
      FieldOfEncoded(cells[0], "," + tail);
      assert ("," + tail)[1..] == tail;
      RecordOfEncoded(cells[1..], t);
      assert [cells[0]] + cells[1..] == cells;
    }
  }

  lemma {:induction false} RecordsOfEncoded(rows: seq<seq<string>>)
    requires |rows| >= 1
    requires forall i :: 0 <= i < |rows| ==> |rows[i]| >= 1
    ensures Records(Encode(rows, EncodeCell)) == Some(rows)
    decreases |rows|
  {
    var lines := EncodeRows(rows, EncodeCell);
    if |rows| == 1 {
      assert lines == [EncodeRow(rows[0], EncodeCell)];
      assert Encode(rows, EncodeCell) == EncodeRow(rows[0], EncodeCell) + "";
      RecordOfEncoded(rows[0], "");
      assert rows == [rows[0]];
    } else {
      var tail := Encode(rows[1..], EncodeCell);
      assert lines[1..] == EncodeRows(rows[1..], EncodeCell);
      assert Encode(rows, EncodeCell) == EncodeRow(rows[0], EncodeCell) + ("\n" + tail);
      RecordOfEncoded(rows[0], "\n" + tail);
      assert ("\n" + tail)[1..] == tail;
      RecordsOfEncoded(rows[1..]);
      assert [rows[0]] + rows[1..] == rows;
    }
  }

  /** A file whose first record has at least two cells, and whose records
      are non-empty, is read back record for record and cell for cell. */
  lemma RoundTrip(rows: seq<seq<string>>)
    requires |rows| >= 1 && |rows[0]| >= 2
    requires forall i :: 0 <= i < |rows| ==> |rows[i]| >= 1
    ensures Decode(Encode(rows, EncodeCell)) == Some(rows)
  {
    RecordsOfEncoded(rows);
    var parts := EncodeCells(rows[0], EncodeCell);
    JoinHead(EncodeRows(rows, EncodeCell), '\n');
    JoinHead(parts, ',');
    assert |EncodeRow(rows[0], EncodeCell)| > 0;
  }

  /** A record goes on after a comma with the cells of the rest. */
  lemma RecordAfterComma(s: string, cell: string, rest: string, cells: seq<string>, tail: Tail)
    requires Field(s) == Some((cell, rest)) && |rest| > 0 && rest[0] == ','
    requires Record(rest[1..]) == Some((cells, tail))
    ensures Record(s) == Some(([cell] + cells, tail))
  {
  }

  /** With the escaping as written, a cell that is just a double quote
      comes back empty. */
  lemma AsWrittenEmptiesQuoteCell()
    ensures Decode(Encode([["x", "\""]], EncodeCellAsWritten)) == Some([["x", ""]])
  {
    assert EscapeQuotes("\"") == "\"\"";
    assert EncodeCellAsWritten("x") == "x";
    assert EncodeCellAsWritten("\"") == "\"\"";
    assert EncodeCells(["x", "\""], EncodeCellAsWritten) == ["x", "\"\""];
    assert ["x", "\"\""][1..] == ["\"\""];
    assert EncodeRow(["x", "\""], EncodeCellAsWritten) == "x,\"\"";
    assert Encode([["x", "\""]], EncodeCellAsWritten) == "x,\"\"";
    var s := "x,\"\"";
    assert PlainField(s[1..]) == ("", ",\"\"");
    assert PlainField(s) == ("x", ",\"\"");
    assert ",\"\""[1..] == "\"\"";
    assert "\"\""[1..] == "\"";
    assert QuotedBody("\"") == Some(("", ""));
    assert Field(s[2..]) == Some(("", ""));
    assert Record(s[2..]) == Some(([""], End));
    assert Field(s) == Some(("x", ",\"\""));
    RecordAfterComma(s, "x", ",\"\"", [""], End);
    assert ["x"] + [""] == ["x", ""];
  }

  /** With the escaping as written, a cell with a line break splits its
      record in two. */
  lemma AsWrittenSplitsRecord()
    ensures Decode(Encode([["x", "a\nb"]], EncodeCellAsWritten)) == Some([["x", "a"], ["b"]])
  {
    assert EscapeQuotes("a\nb") == "a\nb";
    assert EncodeCellAsWritten("x") == "x";
    assert EncodeCells(["x", "a\nb"], EncodeCellAsWritten) == ["x", "a\nb"];
    assert ["x", "a\nb"][1..] == ["a\nb"];
    assert EncodeRow(["x", "a\nb"], EncodeCellAsWritten) == "x,a\nb";
    assert Encode([["x", "a\nb"]], EncodeCellAsWritten) == "x,a\nb";
    BrokenLineRecords();
  }

  lemma BrokenLineRecords()
    ensures Records("x,a\nb") == Some([["x", "a"], ["b"]])
  {
    PlainFieldOf("b", "");
    assert "b" + "" == "b";
    assert Record("b") == Some((["b"], End));
    PlainFieldOf("a", "\nb");
    assert "a" + "\nb" == "a\nb";
    assert "\nb"[1..] == "b";
    assert Record("a\nb") == Some((["a"], Next("b")));
    PlainFieldOf("x", ",a\nb");
    assert "x" + ",a\nb" == "x,a\nb";
    assert ",a\nb"[1..] == "a\nb";
    RecordAfterComma("x,a\nb", "x", ",a\nb", ["a"], Next("b"));
    assert ["x"] + ["a"] == ["x", "a"];
    assert Record("x,a\nb") == Some((["x", "a"], Next("b")));
    assert Records("b") == Some([["b"]]);
    assert [["x", "a"]] + [["b"]] == [["x", "a"], ["b"]];
  }

  /** The same cells are read back when escaped as RFC 4180 asks. */
  lemma CorrectedKeepsCells()
    ensures Decode(Encode([["x", "\""]], EncodeCell)) == Some([["x", "\""]])
    ensures Decode(Encode([["x", "a\nb"]], EncodeCell)) == Some([["x", "a\nb"]])
  {
    RoundTrip([["x", "\""]]);
    RoundTrip([["x", "a\nb"]]);
  }

  /** A transaction of the activity log, with its date and amounts already
      formatted for display. */
  datatype Activity = Activity(
    timestamp: string, user: string, email: string, kind: string, symbol: string,
    shares: string, price: string, total: string, status: string)

  const Headers: seq<string> := ["Timestamp", "Usuario", "Email", "Tipo", "Símbolo", "Acciones", "Precio Unitario", "Total", "Estado"]

  /** The nine cells of a transaction; the type reads "Compra" for a buy
      and "Venta" for anything else. */
  function Cells(a: Activity): (r: seq<string>)
    ensures |r| == |Headers|
    ensures r[3] == "Compra" <==> a.kind == "buy"
  {
    [a.timestamp, a.user, a.email, if a.kind == "buy" then "Compra" else "Venta", a.symbol,
     a.shares, "$" + a.price, "$" + a.total, a.status]
  }

  function ActivityRows(log: seq<Activity>): (r: seq<seq<string>>)
    ensures |r| == |log|
    ensures forall i :: 0 <= i < |log| ==> r[i] == Cells(log[i])
    decreases |log|
  {
    if |log| == 0 then [] else [Cells(log[0])] + ActivityRows(log[1..])
  }

  datatype Export = NothingToExport | File(content: string)

  /** exportToCSV over the whole log, with the header row first; an empty
      log gives no file. The type filter of the table plays no part. The
      source joins the header row without escaping it; no header holds a
      comma, quote or line break, so escaping it changes nothing. */
  function ExportWith(log: seq<Activity>, encode: string -> string): (r: Export)
    ensures r.NothingToExport? <==> |log| == 0
  {
    if |log| == 0 then NothingToExport else File(Encode([Headers] + ActivityRows(log), encode))
  }

  /** With cells escaped as RFC 4180 asks, the exported file reads back as
      the header row followed by one row per transaction, in order. */
  lemma ExportRoundTrip(log: seq<Activity>)
    requires |log| > 0
    ensures Decode(ExportWith(log, EncodeCell).content) == Some([Headers] + ActivityRows(log))
  {
    var rows := [Headers] + ActivityRows(log);
    RowsNonEmpty(log);
    assert |rows[0]| >= 2;
    RoundTrip(rows);
  }

  lemma RowsNonEmpty(log: seq<Activity>)
    ensures forall i :: 0 <= i < |[Headers] + ActivityRows(log)| ==> |([Headers] + ActivityRows(log))[i]| >= 1
  {
    var rows := [Headers] + ActivityRows(log);
    forall i | 0 <= i < |rows| ensures |rows[i]| >= 1 {
      if i > 0 {
        assert rows[i] == ActivityRows(log)[i - 1];
      }
    }
  }

  /** The rows the table shows for the type filter: all, or the ones of
      that type. */
  function Shown(log: seq<Activity>, filter: Option<string>): (r: seq<Activity>)
    ensures filter.None? ==> r == log
    ensures forall a :: a in r <==> a in log && (filter.None? || a.kind == filter.value)
  {
    if filter.None? then log else Filter(log, (a: Activity) => a.kind == filter.value)
  }

  /** The average revenue per transaction of the day, 0 with no
      transactions. */
  function AveragePerTransaction(revenue: real, count: int): (r: real)
    ensures count > 0 ==> r * count as real == revenue
    ensures count <= 0 ==> r == 0.0
  {
    if count > 0 then revenue / count as real else 0.0
  }
}

=== FILE: dashboard.dfy ===
/** The portfolio endpoints of backend/apps/portfolio/views.py: the
    per-user transaction listing and dashboard_stats. */
module Dashboard {
  import opened Base
  import opened Seqs
  import opened Holdings

  function OwnedBy(user: nat): StockTx -> bool {
    (t: StockTx) => t.user == user
  }

  /** StockTransactionViewSet.get_queryset: the requesting user's rows, in
      the model's default order (newest first); the order of `all` is taken
      to be that order. */
  function UserTransactions(all: seq<StockTx>, user: nat): (r: seq<StockTx>)
    ensures forall i :: 0 <= i < |r| ==> r[i].user == user
    ensures forall i :: 0 <= i < |all| && all[i].user == user ==> all[i] in r
    ensures IsSubseq(r, all)
  {
    Filter(all, OwnedBy(user))
  }

  function CreatedAt(t: StockTx): real {
    t.createdAt as real
  }

  function CompletedOf(user: nat): StockTx -> bool {
    (t: StockTx) => t.user == user && t.status == Completed
  }

  /** The user's completed rows, newest first, cut to the first five. */
  function RecentTransactions(all: seq<StockTx>, user: nat): (r: seq<StockTx>)
    ensures |r| == Min(5, Count(all, CompletedOf(user)))
    ensures forall i :: 0 <= i < |r| ==> r[i] in all && r[i].user == user && r[i].status == Completed
    ensures forall i, j :: 0 <= i < j < |r| ==> r[i].createdAt >= r[j].createdAt
  {
    var completed := Filter(all, CompletedOf(user));
    var sorted := SortDesc(completed, CreatedAt);
    var r := Take(sorted, 5);
    forall i | 0 <= i < |r| ensures r[i] in all && r[i].user == user && r[i].status == Completed {
      assert r[i] == sorted[i];
      SortDescMember(completed, CreatedAt, r[i]);
      FilterMember(all, CompletedOf(user), r[i]);
    }
    assert forall i, j :: 0 <= i < j < |r| ==> CreatedAt(r[i]) >= CreatedAt(r[j]) by {
      forall i, j | 0 <= i < j < |r| ensures CreatedAt(r[i]) >= CreatedAt(r[j]) {
        assert r[i] == sorted[i] && r[j] == sorted[j];
      }
    }
    r
  }

  /** No completed row of the user that was left out is newer than any row
      that was kept. */
  lemma RecentAreNewest(all: seq<StockTx>, user: nat, t: StockTx)
    requires t in all && t.user == user && t.status == Completed
    requires t !in RecentTransactions(all, user)
    ensures forall i :: 0 <= i < |RecentTransactions(all, user)| ==>
              RecentTransactions(all, user)[i].createdAt >= t.createdAt
  {
    var completed := Filter(all, CompletedOf(user));
    var sorted := SortDesc(completed, CreatedAt);
    assert t in completed;
    SortDescMember(completed, CreatedAt, t);
    var k :| 0 <= k < |sorted| && sorted[k] == t;
    assert k >= 5;
  }

  datatype Stats = Stats(
    totalBalance: real,
    totalInvested: real,
    totalGains: real,
    gainsPercentage: real,
    portfolioValue: real,
    recent: seq<StockTx>,
    performance: seq<real>)

  /** The seven chart values for i = 6 down to 0: balance + invested × i/6. */
  function Performance(balance: real, invested: real): (r: seq<real>)
    ensures |r| == 7
    ensures forall k :: 0 <= k < 7 ==> r[k] == balance + invested * ((6 - k) as real / 6.0)
    ensures r[0] == balance + invested && r[6] == balance
  {
    seq(7, (k: int) => balance + invested * ((6 - k) as real / 6.0))
  }

  /** With a non-negative amount invested the chart never rises from one
      day to the next. */
  lemma PerformanceNonIncreasing(balance: real, invested: real)
    requires invested >= 0.0
    ensures forall k :: 0 <= k < 6 ==> Performance(balance, invested)[k] >= Performance(balance, invested)[k + 1]
  {
    var r := Performance(balance, invested);
    forall k | 0 <= k < 6 ensures r[k] >= r[k + 1] {
      assert (6 - k) as real / 6.0 >= (6 - (k + 1)) as real / 6.0;
      assert invested * ((6 - k) as real / 6.0) >= invested * ((6 - (k + 1)) as real / 6.0);
    }
  }

  /** gains ÷ invested × 100, or 0 unless something is invested. */
  function GainsPercentage(gains: real, invested: real): (p: real)
    ensures gains == 0.0 ==> p == 0.0
    ensures invested > 0.0 ==> p * invested == gains * 100.0
    ensures invested <= 0.0 ==> p == 0.0
  {
    if invested > 0.0 then gains / invested * 100.0 else 0.0
  }

  /** dashboard_stats. `balanceRecord` is the user's available balance, or
      None when reading it fails, in which case the balance is 0. No model
      in this code base declares `available_balance`, so as written the
      read always fails and `balanceRecord` is None. The gains
      percentage is guarded by invested > 0, but since gains are identically
      zero it is always 0; the portfolio value is balance + invested. */
  function DashboardStats(all: seq<StockTx>, user: nat, balanceRecord: Option<real>): (r: Stats)
    ensures r.totalBalance == balanceRecord.GetOr(0.0)
    ensures r.totalInvested == TotalInvested(UserTransactions(all, user))
    ensures r.totalGains == 0.0 && r.gainsPercentage == 0.0
    ensures r.portfolioValue == r.totalBalance + r.totalInvested
    ensures r.recent == RecentTransactions(all, user)
    ensures r.performance == Performance(r.totalBalance, r.totalInvested)
  {
    var mine := UserTransactions(all, user);
    var balance := balanceRecord.GetOr(0.0);
    var invested := TotalInvested(mine);
    var gains := TotalGains(mine);
    Stats(balance, invested, gains, GainsPercentage(gains, invested), balance + invested,
          RecentTransactions(all, user), Performance(balance, invested))
  }

  /** Rows of other users never affect a user's statistics. */
  lemma {:induction false} StatsIgnoreOtherUsers(all: seq<StockTx>, other: StockTx, user: nat, balanceRecord: Option<real>)
    requires other.user != user
    ensures DashboardStats(all + [other], user, balanceRecord) == DashboardStats(all, user, balanceRecord)
  {
    FilterAppend(all, [other], OwnedBy(user));
    FilterAppend(all, [other], CompletedOf(user));
    assert Filter([other], OwnedBy(user)) == [];
    assert Filter([other], CompletedOf(user)) == [];
    assert Filter(all, OwnedBy(user)) + [] == Filter(all, OwnedBy(user));
    assert Filter(all, CompletedOf(user)) + [] == Filter(all, CompletedOf(user));
    assert UserTransactions(all + [other], user) == UserTransactions(all, user);
    assert RecentTransactions(all + [other], user) == RecentTransactions(all, user);
  }
}

=== FILE: forms.dfy ===
/** The sign-up and request forms of the front end: the password rules, the
    e-mail pattern and the form checks of
    frontend/src/components/screens/Register.tsx, the security questions of
    SecurityQuestions.tsx and the report request of RequestReport.tsx. A
    form is valid iff no error was recorded. */
module Forms {
  import opened Base
  import opened Text
  import opened Seqs

  /** The characters `[!@#$%^&*(),.?":{}|<>]` accepts. */
  const SpecialChars: string := "!@#$%^&*(),.?\":{}|<>"

  /** The five password rules. */
  datatype PasswordChecks = PasswordChecks(minLength: bool, upper: bool, lower: bool, digit: bool, special: bool)

  /** passwordValidations: `password.length` counts UTF-16 code units, so
      a character above U+FFFF counts twice towards the minimum length. */
  function CheckPassword(p: string): (c: PasswordChecks)
    ensures c.minLength <==> Utf16Length(p) >= 8
    ensures c.upper <==> exists i :: 0 <= i < |p| && IsUpper(p[i])
    ensures c.lower <==> exists i :: 0 <= i < |p| && IsLower(p[i])
    ensures c.digit <==> exists i :: 0 <= i < |p| && IsDigit(p[i])
    ensures c.special <==> exists i :: 0 <= i < |p| && p[i] in SpecialChars
  {
    PasswordChecks(
      Utf16Length(p) >= 8,
      exists i | 0 <= i < |p| :: IsUpper(p[i]),
      exists i | 0 <= i < |p| :: IsLower(p[i]),
      exists i | 0 <= i < |p| :: IsDigit(p[i]),
      exists i | 0 <= i < |p| :: p[i] in SpecialChars)
  }

  /** For a password without characters above U+FFFF the minimum length
      is a number of characters. */
  lemma MinLengthInBmp(p: string)
    requires InBmp(p)
    ensures CheckPassword(p).minLength <==> |p| >= 8
  {
    Utf16LengthBmp(p);
  }

  /** isPasswordValid: every rule holds. */
  predicate PasswordValid(p: string) {
    var c := CheckPassword(p);
    c.minLength && c.upper && c.lower && c.digit && c.special
  }

  /** "Secreta1!" meets every rule; without a capital, or shorter than
      eight, a password fails. */
  lemma PasswordExamples()
    ensures PasswordValid("Secreta1!")
    ensures !PasswordValid("secreta1!")
    ensures !PasswordValid("Sec1!")
  {
    StrongExample();
    NoCapitalExample();
    ShortExample();
  }

  lemma StrongExample()
    ensures PasswordValid("Secreta1!")
  {
    assert Utf16Length("Secreta1!") == 9;
    assert IsUpper("Secreta1!"[0]) && IsLower("Secreta1!"[1]) && IsDigit("Secreta1!"[7]);
    assert "Secreta1!"[8] == SpecialChars[0];
  }

  lemma NoCapitalExample()
    ensures !PasswordValid("secreta1!")
  {
    assert !CheckPassword("secreta1!").upper by {
      assert forall i :: 0 <= i < |"secreta1!"| ==> !IsUpper("secreta1!"[i]);
    }
  }

  lemma ShortExample()
    ensures !PasswordValid("Sec1!")
  {
    assert Utf16Length("Sec1!") == 5;
  }

  /** A character `[^\s@]` accepts. */
  predicate Plain(c: char) {
    !IsSpace(c) && c != '@'
  }

  predicate AllPlain(s: string) {
    forall k :: 0 <= k < |s| ==> Plain(s[k])
  }

  /** `^[^\s@]+@[^\s@]+\.[^\s@]+$`, read as the pattern says: a non-empty
      local part, '@', a non-empty domain, '.', a non-empty suffix, none of
      them containing whitespace or '@'. */
  ghost predicate EmailPattern(s: string) {
    exists local: string, domain: string, suffix: string ::
      && s == local + "@" + domain + "." + suffix
      && |local| > 0 && |domain| > 0 && |suffix| > 0
      && AllPlain(local) && AllPlain(domain) && AllPlain(suffix)
  }

  /** validateEmail, as a check: no whitespace, one '@' not at the start,
      and a '.' after it with something on both sides. */
  predicate ValidEmail(s: string) {
    && (forall k :: 0 <= k < |s| ==> !IsSpace(s[k]))
    && exists i | 0 < i < |s| :: s[i] == '@'
         && (forall k | 0 <= k < |s| && k != i :: s[k] != '@')
         && exists j | i + 1 < j < |s| - 1 :: s[j] == '.'
  }

  /** The check agrees with the pattern on every string. */
  lemma ValidEmailIffPattern(s: string)
    ensures ValidEmail(s) <==> EmailPattern(s)
  {
    if ValidEmail(s) {
      var i :| 0 < i < |s| && s[i] == '@' && (forall k | 0 <= k < |s| && k != i :: s[k] != '@')
               && exists j | i + 1 < j < |s| - 1 :: s[j] == '.';
      var j :| i + 1 < j < |s| - 1 && s[j] == '.';
      EmailSplit(s, i, j);
    }
    if EmailPattern(s) {
      var local: string, domain: string, suffix: string :|
        && s == local + "@" + domain + "." + suffix
        && |local| > 0 && |domain| > 0 && |suffix| > 0
        && AllPlain(local) && AllPlain(domain) && AllPlain(suffix);
      EmailPartsValid(local, domain, suffix);
    }
  }

  /** Cutting an address that passes the check at its '@' and at a later
      '.' gives three plain, non-empty parts. */
  lemma EmailSplit(s: string, i: int, j: int)
    requires 0 < i && i + 1 < j < |s| - 1 && s[i] == '@' && s[j] == '.'
    requires forall k :: 0 <= k < |s| ==> !IsSpace(s[k])
    requires forall k | 0 <= k < |s| && k != i :: s[k] != '@'
    ensures var local, domain, suffix := s[..i], s[i + 1..j], s[j + 1..];
            && s == local + "@" + domain + "." + suffix
            && |local| > 0 && |domain| > 0 && |suffix| > 0
            && AllPlain(local) && AllPlain(domain) && AllPlain(suffix)
  {
    var local, domain, suffix := s[..i], s[i + 1..j], s[j + 1..];
    assert s == local + "@" + domain + "." + suffix;
    assert forall k :: 0 <= k < |domain| ==> domain[k] == s[i + 1 + k];
    assert forall k :: 0 <= k < |suffix| ==> suffix[k] == s[j + 1 + k];
  }

  /** An address put together from plain parts passes the check. */
  lemma EmailPartsValid(local: string, domain: string, suffix: string)
    requires |local| > 0 && |domain| > 0 && |suffix| > 0
    requires AllPlain(local) && AllPlain(domain) && AllPlain(suffix)
    ensures ValidEmail(local + "@" + domain + "." + suffix)
  {
    var s := local + "@" + domain + "." + suffix;
    var i, j := |local|, |local| + 1 + |domain|;
    assert forall k :: 0 <= k < |local| ==> s[k] == local[k];
    assert forall k :: 0 <= k < |domain| ==> s[i + 1 + k] == domain[k];
    assert forall k :: 0 <= k < |suffix| ==> s[j + 1 + k] == suffix[k];
    assert s[i] == '@' && s[j] == '.';
    forall k | 0 <= k < |s| ensures !IsSpace(s[k]) && (k != i ==> s[k] != '@') {
      if k < i {
        assert s[k] == local[k];
      } else if i < k < j {
        assert s[k] == domain[k - i - 1];
      } else if k > j {
        assert s[k] == suffix[k - j - 1];
      }
    }
  }

  lemma EmailExamples()
    ensures ValidEmail("ana@mail.com")
    ensures !ValidEmail("ana@mail")
    ensures !ValidEmail("@mail.com")
    ensures !ValidEmail("a@b@c.d")
  {
    EmailPartsValid("ana", "mail", "com");
    assert "ana@mail.com" == "ana" + "@" + "mail" + "." + "com";
    var s := "a@b@c.d";
    assert s[1] == '@' && s[3] == '@';
  }

  datatype NameError = NameRequired | NameTooShort
  datatype EmailError = EmailRequired | EmailInvalid
  datatype PasswordError = PasswordRequired | PasswordWeak
  datatype ConfirmError = ConfirmRequired | ConfirmMismatch

  datatype RegisterForm = RegisterForm(name: string, email: string, password: string, confirm: string, acceptedTerms: bool)

  datatype RegisterErrors = RegisterErrors(
    name: Option<NameError>, email: Option<EmailError>, password: Option<PasswordError>,
    confirm: Option<ConfirmError>, termsMissing: bool)

  predicate NoRegisterErrors(e: RegisterErrors) {
    e.name.None? && e.email.None? && e.password.None? && e.confirm.None? && !e.termsMissing
  }

  /** validateForm of the sign-up screen: a field carries an error exactly
      when its rule fails, and the error says "required" exactly when the
      field is empty. The form passes iff the trimmed name has at least
      three UTF-16 code units, the e-mail matches the pattern, the password meets
      every rule, the confirmation repeats it and the terms are accepted. */
  function ValidateRegister(f: RegisterForm): (e: RegisterErrors)
    ensures e.name.Some? <==> Utf16Length(Trim(f.name)) < 3
    ensures e.name == Some(NameRequired) <==> Trim(f.name) == ""
    ensures e.email.Some? <==> !EmailPattern(f.email)
    ensures e.email == Some(EmailRequired) <==> f.email == ""
    ensures e.password.Some? <==> !PasswordValid(f.password)
    ensures e.password == Some(PasswordRequired) <==> f.password == ""
    ensures e.confirm.Some? <==> f.confirm == "" || f.confirm != f.password
    ensures e.confirm == Some(ConfirmRequired) <==> f.confirm == ""
    ensures e.termsMissing <==> !f.acceptedTerms
    ensures NoRegisterErrors(e) <==>
              Utf16Length(Trim(f.name)) >= 3 && EmailPattern(f.email) && PasswordValid(f.password)
              && f.confirm == f.password && f.acceptedTerms
  {
    ValidEmailIffPattern(f.email);
    RegisterErrors(
      if Trim(f.name) == "" then Some(NameRequired) else if Utf16Length(Trim(f.name)) < 3 then Some(NameTooShort) else None,
      if f.email == "" then Some(EmailRequired) else if !ValidEmail(f.email) then Some(EmailInvalid) else None,
      if f.password == "" then Some(PasswordRequired) else if !PasswordValid(f.password) then Some(PasswordWeak) else None,
      if f.confirm == "" then Some(ConfirmRequired) else if f.password != f.confirm then Some(ConfirmMismatch) else None,
      !f.acceptedTerms)
  }

  /** The names sent on sign-up: the text before the first space, and the
      rest or "Usuario" when there is none. */
  function RegisterNames(name: string): (r: (string, string))
    ensures ' ' !in r.0 && r.1 != ""
    ensures r.0 == SplitFirstWord(name).0
    ensures r.1 == "Usuario" <==> SplitFirstWord(name).1 == "" || SplitFirstWord(name).1 == "Usuario"
  {
    var (first, rest) := SplitFirstWord(name);
    (first, if rest == "" then "Usuario" else rest)
  }

  /** "Ana María López" is sent as "Ana" and "María López"; "Ana" as "Ana"
      and "Usuario". */
  lemma RegisterNamesExamples(first: string, rest: string)
    requires ' ' !in first && rest != ""
    ensures RegisterNames(first + " " + rest) == (first, rest)
    ensures RegisterNames(first) == (first, "Usuario")
  {
    SplitFirstWordOf(first, rest);
  }

  /** The security questions offered. */
  const Questions: seq<string> := [
    "¿Cuál es el nombre de tu primera mascota?",
    "¿En qué ciudad naciste?",
    "¿Cuál es tu comida favorita?",
    "¿Cuál es el nombre de tu mejor amigo de la infancia?",
    "¿Cuál era el modelo de tu primer auto?",
    "¿En qué escuela estudiaste primaria?",
    "¿Cuál es el segundo nombre de tu madre?",
    "¿Cuál es tu libro favorito?"
  ]

  datatype QuestionError = NotSelected | Repeated

  datatype SecurityForm = SecurityForm(q1: string, a1: string, q2: string, a2: string, q3: string, a3: string)

  datatype SecurityErrors = SecurityErrors(
    q1: Option<QuestionError>, a1: bool, q2: Option<QuestionError>, a2: bool, q3: Option<QuestionError>, a3: bool)

  /** An answer is too short when empty or under three UTF-16 code units
      once trimmed. */
  predicate ShortAnswer(a: string) {
    a == "" || Utf16Length(Trim(a)) < 3
  }

  predicate NoSecurityErrors(e: SecurityErrors) {
    e.q1.None? && e.q2.None? && e.q3.None? && !e.a1 && !e.a2 && !e.a3
  }

  /** validateForm of the security questions: a question is flagged "not
      selected" exactly when it is empty and flagged at all exactly when it
      is empty or repeats an earlier pick; an answer is flagged exactly when
      its trimmed text is under three UTF-16 code units. The form passes iff all
      three questions are chosen and pairwise different and every trimmed
      answer has at least three code units. */
  function ValidateSecurity(f: SecurityForm): (e: SecurityErrors)
    ensures e.q1 == Some(NotSelected) <==> f.q1 == ""
    ensures e.q1 != Some(Repeated)
    ensures e.q2 == Some(NotSelected) <==> f.q2 == ""
    ensures e.q2.None? <==> f.q2 != "" && f.q2 != f.q1
    ensures e.q3 == Some(NotSelected) <==> f.q3 == ""
    ensures e.q3.None? <==> f.q3 != "" && f.q3 != f.q1 && f.q3 != f.q2
    ensures (e.a1 <==> Utf16Length(Trim(f.a1)) < 3) && (e.a2 <==> Utf16Length(Trim(f.a2)) < 3)
            && (e.a3 <==> Utf16Length(Trim(f.a3)) < 3)
    ensures NoSecurityErrors(e) <==>
              f.q1 != "" && f.q2 != "" && f.q3 != ""
              && f.q1 != f.q2 && f.q1 != f.q3 && f.q2 != f.q3
              && Utf16Length(Trim(f.a1)) >= 3 && Utf16Length(Trim(f.a2)) >= 3 && Utf16Length(Trim(f.a3)) >= 3
  {
    ShortAnswerIff(f.a1);
    ShortAnswerIff(f.a2);
    ShortAnswerIff(f.a3);
    SecurityErrors(
      if f.q1 == "" then Some(NotSelected) else None,
      ShortAnswer(f.a1),
      if f.q2 == "" then Some(NotSelected) else if f.q2 == f.q1 then Some(Repeated) else None,
      ShortAnswer(f.a2),
      if f.q3 == "" then Some(NotSelected) else if f.q3 == f.q1 || f.q3 == f.q2 then Some(Repeated) else None,
      ShortAnswer(f.a3))
  }

  /** An answer is short exactly when its trimmed text is. */
  lemma ShortAnswerIff(a: string)
    ensures ShortAnswer(a) <==> Utf16Length(Trim(a)) < 3
  {
  }

  /** Lengths are counted as JavaScript counts them: two emoji make a
      password long enough with four other characters, and make an answer
      of their own long enough, although neither has that many
      characters. */
  lemma LengthsCountCodeUnits()
    ensures |"Aa1!\U{1F600}\U{1F600}"| == 6 && CheckPassword("Aa1!\U{1F600}\U{1F600}").minLength
    ensures |"\U{1F600}\U{1F600}"| == 2 && !ShortAnswer("\U{1F600}\U{1F600}")
  {
    var p := "Aa1!\U{1F600}\U{1F600}";
    assert Utf16Length(p[5..]) == 2;
    assert Utf16Length(p[4..]) == 4;
    assert Utf16Length(p) == 8;
    var a := "\U{1F600}\U{1F600}";
    assert !IsSpace(a[0]) && !IsSpace(a[1]);
    assert Trim(a) == a;
    assert Utf16Length(a[1..]) == 2;
  }

  /** The lists offered for the second and third question leave out the
      earlier picks. */
  function Offered2(q1: string): (r: seq<string>)
    ensures forall q :: q in r <==> q in Questions && q != q1
  {
    Filter(Questions, (q: string) => q != q1)
  }

  function Offered3(q1: string, q2: string): (r: seq<string>)
    ensures forall q :: q in r <==> q in Questions && q != q1 && q != q2
  {
    Filter(Questions, (q: string) => q != q1 && q != q2)
  }

  /** Questions picked from the offered lists always pass the question
      checks. */
  lemma OfferedPicksPass(f: SecurityForm)
    requires f.q1 in Questions && f.q2 in Offered2(f.q1) && f.q3 in Offered3(f.q1, f.q2)
    ensures var e := ValidateSecurity(f); e.q1.None? && e.q2.None? && e.q3.None?
  {
    NoBlankQuestion();
  }

  /** Every offered question has text, so a pick is never "not selected". */
  lemma NoBlankQuestion()
    ensures forall q :: q in Questions ==> q != ""
  {
    forall q | q in Questions ensures q != "" {
      var i :| 0 <= i < |Questions| && Questions[i] == q;
      assert |Questions[i]| > 0;
    }
  }

  /** toggleReportType: "complete" replaces every other choice; any other
      type drops "complete" and then is removed if chosen, appended if not. */
  function ToggleReportType(types: seq<string>, t: string): (r: seq<string>)
    ensures t == "complete" ==> r == ["complete"]
    ensures t != "complete" ==> "complete" !in r
    ensures t != "complete" ==> (t in r <==> t !in types)
    ensures t != "complete" ==> forall x :: x != t && x != "complete" ==> (x in r <==> x in types)
  {
    if t == "complete" then ["complete"]
    else
      var rest := Filter(types, (x: string) => x != "complete");
      if t in rest then Filter(rest, (x: string) => x != t) else rest + [t]
  }

  /** "complete" is either the whole choice or absent. */
  predicate CompleteAlone(types: seq<string>) {
    "complete" in types ==> types == ["complete"]
  }

  /** Whatever the starting choice, any run of toggles ends with "complete"
      alone or absent, and toggling "complete" twice is toggling it once. */
  lemma {:induction false} TogglesKeepCompleteAlone(types: seq<string>, ts: seq<string>)
    requires CompleteAlone(types)
    ensures CompleteAlone(ToggleAll(types, ts))
    decreases |ts|
  {
    if |ts| > 0 {
      TogglesKeepCompleteAlone(ToggleReportType(types, ts[0]), ts[1..]);
    }
  }

  function ToggleAll(types: seq<string>, ts: seq<string>): seq<string>
    decreases |ts|
  {
    if |ts| == 0 then types else ToggleAll(ToggleReportType(types, ts[0]), ts[1..])
  }

  lemma ToggleCompleteIdempotent(types: seq<string>)
    ensures ToggleReportType(ToggleReportType(types, "complete"), "complete") == ToggleReportType(types, "complete")
  {
  }

  datatype DateError = DateRequired | EndBeforeStart

  datatype ReportForm = ReportForm(from: Option<int>, to: Option<int>, email: string)

  datatype ReportErrors = ReportErrors(from: Option<DateError>, to: Option<DateError>, email: Option<EmailError>)

  /** validateForm of the report request: the start date is flagged
      exactly when missing; the end date is flagged "required" exactly when
      missing and "before the start" exactly when both are given out of
      order; the e-mail is flagged exactly when it does not match the
      pattern, as "required" exactly when empty. The request passes iff
      both dates are given in order (a one-day range included) and the
      e-mail matches the pattern. */
  function ValidateReport(f: ReportForm): (e: ReportErrors)
    ensures e.from.Some? <==> f.from.None?
    ensures e.from != Some(EndBeforeStart)
    ensures e.to == Some(DateRequired) <==> f.to.None?
    ensures e.to == Some(EndBeforeStart) <==> f.from.Some? && f.to.Some? && f.from.value > f.to.value
    ensures e.email.Some? <==> !EmailPattern(f.email)
    ensures e.email == Some(EmailRequired) <==> f.email == ""
    ensures (e.from.None? && e.to.None? && e.email.None?) <==>
              f.from.Some? && f.to.Some? && f.from.value <= f.to.value && EmailPattern(f.email)
  {
    ValidEmailIffPattern(f.email);
    ReportErrors(
      if f.from.None? then Some(DateRequired) else None,
      if f.from.Some? && f.to.Some? && f.from.value > f.to.value then Some(EndBeforeStart)
      else if f.to.None? then Some(DateRequired) else None,
      if f.email == "" then Some(EmailRequired) else if !ValidEmail(f.email) then Some(EmailInvalid) else None)
  }
}

=== FILE: holdings.dfy ===
/** The position ledger of backend/apps/portfolio/models.py: the
    StockTransaction record, the portfolio totals, and the per-symbol
    holdings folded from the completed transactions. */
module Holdings {
  import opened Base
  import opened Seqs

  datatype Side = Buy | Sell

  datatype Status = Pending | Completed | Failed | Cancelled

  /** One StockTransaction row: its owner, its creation time as a number,
      and the trade. Share counts have four decimals and money two in the
      database; here both are exact rationals. */
  datatype StockTx = StockTx(
    user: nat,
    createdAt: int,
    symbol: string,
    name: string,
    side: Side,
    shares: real,
    pricePerShare: real,
    total: real,
    status: Status)

  /** StockTransaction.save: a total of zero (Python falsy, which is also how
      an unset total reads) is replaced by shares × price; a non-zero total
      is kept as given, and no other field changes. */
  function SaveTotal(t: StockTx): (r: StockTx)
    ensures t.total != 0.0 ==> r == t
    ensures t.total == 0.0 ==> r.total == t.shares * t.pricePerShare
    ensures r.(total := t.total) == t
  {
    if t.total == 0.0 then t.(total := t.shares * t.pricePerShare) else t
  }

  /** Saving a transaction a second time leaves it as the first save did. */
  lemma SaveTotalIdempotent(t: StockTx)
    ensures SaveTotal(SaveTotal(t)) == SaveTotal(t)
  {
  }

  predicate IsCompleted(t: StockTx) {
    t.status == Completed
  }

  predicate IsCompletedBuy(t: StockTx) {
    t.status == Completed && t.side == Buy
  }

  predicate IsCompletedSell(t: StockTx) {
    t.status == Completed && t.side == Sell
  }

  function TotalOf(t: StockTx): real {
    t.total
  }

  /** Portfolio.get_total_invested: completed buys add their total and every
      other completed transaction subtracts it; the result is the buy volume
      minus the sell volume, and non-completed rows count for nothing. */
  function TotalInvested(txs: seq<StockTx>): (r: real)
    ensures r == SumBy(Filter(txs, IsCompletedBuy), TotalOf) - SumBy(Filter(txs, IsCompletedSell), TotalOf)
    decreases |txs|
  {
    if |txs| == 0 then 0.0
    else
      var t := txs[0];
      var rest := TotalInvested(txs[1..]);
      if t.status != Completed then rest
      else if t.side == Buy then t.total + rest
      else rest - t.total
  }

  /** Only completed transactions matter: dropping the others leaves the
      total invested unchanged. */
  lemma {:induction false} TotalInvestedIgnoresIncomplete(txs: seq<StockTx>)
    ensures TotalInvested(Filter(txs, IsCompleted)) == TotalInvested(txs)
    decreases |txs|
  {
    if |txs| > 0 {
      TotalInvestedIgnoresIncomplete(txs[1..]);
      var rest := Filter(txs[1..], IsCompleted);
      if IsCompleted(txs[0]) {
        assert ([txs[0]] + rest)[1..] == rest;
      }
    }
  }

  /** Portfolio.get_current_value: a placeholder that reports the amount
      invested instead of a market valuation. */
  function CurrentValue(txs: seq<StockTx>): (r: real)
    ensures r == TotalInvested(txs)
  {
    TotalInvested(txs)
  }

  /** Portfolio.get_total_gains: current value minus invested, which is zero
      for every transaction history because current value is the invested
      amount. */
  function TotalGains(txs: seq<StockTx>): (g: real)
    ensures g == 0.0
  {
    CurrentValue(txs) - TotalInvested(txs)
  }

  /** One entry of the dictionary get_portfolio_holdings builds. */
  datatype Holding = Holding(
    symbol: string,
    name: string,
    shares: real,
    averagePrice: real,
    totalInvested: real)

  /** The fresh entry for a symbol seen for the first time. */
  function Fresh(t: StockTx): Holding {
    Holding(t.symbol, t.name, 0.0, 0.0, 0.0)
  }

  /** One step of the fold. A buy adds its shares and its total, and the
      average price becomes invested ÷ shares whenever shares are positive. A
      sell clamps the shares at zero and keeps the average price; it resets
      the invested amount to zero when no shares remain and otherwise
      subtracts the sale total (not the cost basis of the shares sold). */
  function Apply(h: Holding, t: StockTx): (r: Holding)
    ensures r.symbol == h.symbol && r.name == h.name
    ensures t.side == Buy ==>
              && r.shares == h.shares + t.shares
              && r.totalInvested == h.totalInvested + t.total
              && (r.shares > 0.0 ==> r.averagePrice * r.shares == r.totalInvested)
              && (r.shares <= 0.0 ==> r.averagePrice == h.averagePrice)
    ensures t.side == Sell ==>
              && r.shares == MaxReal(0.0, h.shares - t.shares)
              && r.shares >= 0.0
              && r.averagePrice == h.averagePrice
              && (r.shares == 0.0 ==> r.totalInvested == 0.0)
              && (r.shares != 0.0 ==> r.totalInvested == h.totalInvested - t.total)
  {
    match t.side
    case Buy =>
      var newTotal := h.totalInvested + t.total;
      var newShares := h.shares + t.shares;
      var avg := if newShares > 0.0 then newTotal / newShares else h.averagePrice;
      h.(shares := newShares, averagePrice := avg, totalInvested := newTotal)
    case Sell =>
      var newShares := MaxReal(0.0, h.shares - t.shares);
      h.(shares := newShares, totalInvested := if newShares == 0.0 then 0.0 else h.totalInvested - t.total)
  }

  function OwnedBy(sym: string): StockTx -> bool {
    (t: StockTx) => t.status == Completed && t.symbol == sym
  }

  /** The completed transactions of one symbol, in order. */
  function Own(txs: seq<StockTx>, sym: string): (r: seq<StockTx>)
    ensures forall i :: 0 <= i < |r| ==> r[i].symbol == sym && r[i].status == Completed
  {
    Filter(txs, OwnedBy(sym))
  }

  lemma OwnSplitsLast(txs: seq<StockTx>, sym: string)
    requires |txs| > 0
    ensures Own(txs, sym) == Own(txs[..|txs| - 1], sym) + Own([txs[|txs| - 1]], sym)
  {
    assert txs == txs[..|txs| - 1] + [txs[|txs| - 1]];
    FilterAppend(txs[..|txs| - 1], [txs[|txs| - 1]], OwnedBy(sym));
  }

  /** The dictionary built by the loop of get_portfolio_holdings before its
      final filter, processing the transactions in the order given. A symbol
      has an entry exactly when it has a completed transaction. */
  function Accumulate(txs: seq<StockTx>): (m: map<string, Holding>)
    ensures forall s :: s in m ==> m[s].symbol == s
    ensures forall s :: s in m <==> |Own(txs, s)| > 0
    decreases |txs|
  {
    if |txs| == 0 then map[]
    else
      var init := txs[..|txs| - 1];
      var t := txs[|txs| - 1];
      var m := Accumulate(init);
      assert forall s :: Own(txs, s) == Own(init, s) + Own([t], s) by {
        forall s ensures Own(txs, s) == Own(init, s) + Own([t], s) {
          OwnSplitsLast(txs, s);
        }
      }
      if t.status != Completed then m
      else
        var h := if t.symbol in m then m[t.symbol] else Fresh(t);
        m[t.symbol := Apply(h, t)]
  }

  /** Portfolio.get_portfolio_holdings: the accumulated entries with a
      positive share count; symbols whose shares reached zero are dropped. */
  function PortfolioHoldings(txs: seq<StockTx>): (r: map<string, Holding>)
    ensures forall s :: s in r ==> r[s].shares > 0.0 && r[s].symbol == s
    ensures forall s :: s in r <==> s in Accumulate(txs) && Accumulate(txs)[s].shares > 0.0
  {
    var m := Accumulate(txs);
    map s | s in m && m[s].shares > 0.0 :: m[s]
  }

  /** How one more transaction changes the entry of a symbol. */
  lemma AccumulateStep(txs: seq<StockTx>, sym: string)
    requires |txs| > 0
    ensures var init := txs[..|txs| - 1];
            var t := txs[|txs| - 1];
            if t.status == Completed && t.symbol == sym then
              && sym in Accumulate(txs)
              && Accumulate(txs)[sym] == Apply(if sym in Accumulate(init) then Accumulate(init)[sym] else Fresh(t), t)
              && Own(txs, sym) == Own(init, sym) + [t]
            else
              && (sym in Accumulate(txs) <==> sym in Accumulate(init))
              && (sym in Accumulate(init) ==> Accumulate(txs)[sym] == Accumulate(init)[sym])
              && Own(txs, sym) == Own(init, sym)
  {
    OwnSplitsLast(txs, sym);
  }

  /** Symbols do not interact: the entry of a symbol is the one obtained by
      folding only that symbol's completed transactions. This is why the
      source's ordering by symbol does not change the result. */
  lemma {:induction false} AccumulatePerSymbol(txs: seq<StockTx>, sym: string)
    requires sym in Accumulate(txs)
    ensures sym in Accumulate(Own(txs, sym))
    ensures Accumulate(Own(txs, sym))[sym] == Accumulate(txs)[sym]
    decreases |txs|
  {
    var init := txs[..|txs| - 1];
    var t := txs[|txs| - 1];
    AccumulateStep(txs, sym);
    FilterIdempotent(txs, OwnedBy(sym));
    if t.status == Completed && t.symbol == sym {
      var own := Own(txs, sym);
      assert own[..|own| - 1] == Own(init, sym);
      AccumulateStep(own, sym);
      if sym in Accumulate(init) {
        AccumulatePerSymbol(init, sym);
      } else {
        FilterIdempotent(init, OwnedBy(sym));
      }
    } else {
      AccumulatePerSymbol(init, sym);
    }
  }

  /** The share count of every entry stays non-negative as long as no buy
      carries a negative share count: sells clamp at zero. */
  lemma {:induction false} SharesNonNegative(txs: seq<StockTx>)
    requires forall i :: 0 <= i < |txs| && txs[i].side == Buy ==> txs[i].shares >= 0.0
    ensures forall s :: s in Accumulate(txs) ==> Accumulate(txs)[s].shares >= 0.0
    decreases |txs|
  {
    if |txs| > 0 {
      SharesNonNegative(txs[..|txs| - 1]);
    }
  }

  function SharesOf(t: StockTx): real {
    t.shares
  }

  /** The average price of an entry accounts exactly for its invested
      amount. */
  predicate CostBasisExact(h: Holding) {
    h.averagePrice * h.shares == h.totalInvested
  }

  lemma BuyKeepsAverage(h: Holding, t: StockTx)
    requires t.side == Buy && h.shares + t.shares > 0.0
    ensures CostBasisExact(Apply(h, t))
  {
  }

  /** For a history of buys only, each entry holds the sum of the bought
      shares and of the buy totals, and its average price times its shares is
      exactly the amount invested. */
  lemma {:induction false} BuyOnlyAverage(txs: seq<StockTx>, sym: string)
    requires forall i :: 0 <= i < |txs| ==> txs[i].side == Buy && txs[i].shares > 0.0
    requires sym in Accumulate(txs)
    ensures Accumulate(txs)[sym].shares == SumBy(Own(txs, sym), SharesOf) > 0.0
    ensures Accumulate(txs)[sym].totalInvested == SumBy(Own(txs, sym), TotalOf)
    ensures CostBasisExact(Accumulate(txs)[sym])
    decreases |txs|
  {
    var init := txs[..|txs| - 1];
    var t := txs[|txs| - 1];
    AccumulateStep(txs, sym);
    assert forall i :: 0 <= i < |init| ==> init[i] == txs[i];
    if t.status == Completed && t.symbol == sym {
      var own := Own(init, sym);
      var h := if sym in Accumulate(init) then Accumulate(init)[sym] else Fresh(t);
      if sym in Accumulate(init) {
        BuyOnlyAverage(init, sym);
      } else {
        assert own == [];
      }
      BuyStepSums(h, own, t);
    } else {
      BuyOnlyAverage(init, sym);
    }
  }

  /** One more buy adds its shares and total to the running sums and keeps
      the average price exact. */
  lemma BuyStepSums(h: Holding, own: seq<StockTx>, t: StockTx)
    requires h.shares == SumBy(own, SharesOf) >= 0.0
    requires h.totalInvested == SumBy(own, TotalOf)
    requires t.side == Buy && t.shares > 0.0
    ensures Apply(h, t).shares == SumBy(own + [t], SharesOf) > 0.0
    ensures Apply(h, t).totalInvested == SumBy(own + [t], TotalOf)
    ensures CostBasisExact(Apply(h, t))
  {
    SumByAppend(own, [t], SharesOf);
    SumByAppend(own, [t], TotalOf);
    assert SumBy([t], SharesOf) == t.shares;
    assert SumBy([t], TotalOf) == t.total;
    BuyKeepsAverage(h, t);
  }

  /** The worked example of the ledger: buying 10 at 100 and 5 at 120 gives
      15 shares at an average of 1600/15; selling all 15 then resets the
      entry to zero and drops the symbol from the holdings. */
  lemma FullSaleDropsSymbol()
    ensures var b1 := StockTx(1, 0, "AAPL", "Apple", Buy, 10.0, 100.0, 1000.0, Completed);
            var b2 := StockTx(1, 0, "AAPL", "Apple", Buy, 5.0, 120.0, 600.0, Completed);
            var s1 := StockTx(1, 0, "AAPL", "Apple", Sell, 15.0, 150.0, 2250.0, Completed);
            && Accumulate([b1, b2])["AAPL"] == Holding("AAPL", "Apple", 15.0, 1600.0 / 15.0, 1600.0)
            && Accumulate([b1, b2, s1])["AAPL"].totalInvested == 0.0
            && "AAPL" !in PortfolioHoldings([b1, b2, s1])
            && TotalInvested([b1, b2, s1]) == -650.0
  {
    var b1 := StockTx(1, 0, "AAPL", "Apple", Buy, 10.0, 100.0, 1000.0, Completed);
    var b2 := StockTx(1, 0, "AAPL", "Apple", Buy, 5.0, 120.0, 600.0, Completed);
    var s1 := StockTx(1, 0, "AAPL", "Apple", Sell, 15.0, 150.0, 2250.0, Completed);
    assert [b1, b2][..1] == [b1];
    assert [b1, b2, s1][..2] == [b1, b2];
  }

  /** A partial sale subtracts the sale proceeds rather than the cost of the
      shares sold, so after selling at a gain the invested amount no longer
      equals average price × shares: buying 10 at 100 and selling 5 at 150
      leaves 5 shares at an average of 100 with only 250 invested. */
  lemma PartialSaleSubtractsProceeds()
    ensures var b := StockTx(1, 0, "MSFT", "Microsoft", Buy, 10.0, 100.0, 1000.0, Completed);
            var s := StockTx(1, 0, "MSFT", "Microsoft", Sell, 5.0, 150.0, 750.0, Completed);
            && "MSFT" in PortfolioHoldings([b, s])
            && var h := PortfolioHoldings([b, s])["MSFT"];
            && h.shares == 5.0 && h.averagePrice == 100.0 && h.totalInvested == 250.0
            && h.averagePrice * h.shares != h.totalInvested
  {
    var b := StockTx(1, 0, "MSFT", "Microsoft", Buy, 10.0, 100.0, 1000.0, Completed);
    var s := StockTx(1, 0, "MSFT", "Microsoft", Sell, 5.0, 150.0, 750.0, Completed);
    assert [b, s][..1] == [b];
    assert "MSFT" in Accumulate([b]);
    assert Accumulate([b, s])["MSFT"].shares == 5.0;
  }
}

=== FILE: listings.dfy ===
/** The filtered lists and their totals on the history, transactions and
    user screens: frontend/src/components/screens/History.tsx,
    frontend/src/app/dashboard/transactions/page.tsx,
    frontend/src/components/screens/UserManagement.tsx and
    frontend/src/app/admin/users/page.tsx. Every filter keeps the order of
    the loaded list; the totals are taken over the whole list. */
module Listings {
  import opened Base
  import opened Text
  import opened Seqs

  /** A trade as the history screen holds it. */
  datatype Trade = Trade(symbol: string, name: string, kind: string, total: real)

  /** A type filter: "all", or the type that must match. */
  predicate TypeMatches(filter: string, kind: string) {
    filter == "all" || kind == filter
  }

  /** The history rows: the type filter and a case-insensitive search in
      the symbol or the name. */
  function ShownTrades(trades: seq<Trade>, filter: string, query: string): (r: seq<Trade>)
    ensures forall t :: t in r <==>
              t in trades && TypeMatches(filter, t.kind)
              && (ContainsIgnoreCase(t.symbol, query) || ContainsIgnoreCase(t.name, query))
    ensures IsSubseq(r, trades)
  {
    Filter(trades, (t: Trade) => TypeMatches(filter, t.kind)
                                 && (ContainsIgnoreCase(t.symbol, query) || ContainsIgnoreCase(t.name, query)))
  }

  /** With "all" and an empty search every trade is shown. */
  lemma NoFilterShowsAll(trades: seq<Trade>)
    ensures forall t :: t in trades ==> t in ShownTrades(trades, "all", "")
  {
    forall t | t in trades ensures ContainsIgnoreCase(t.symbol, "") {
      EmptyOccurs(Lower(t.symbol));
    }
  }

  function TradeTotal(t: Trade): real {
    t.total
  }

  /** The summed totals of the trades of one type. */
  function TotalOfKind(trades: seq<Trade>, kind: string): real {
    SumBy(Filter(trades, (t: Trade) => t.kind == kind), TradeTotal)
  }

  /** A sale counts up and a purchase down; any other type not at all. */
  function Signed(t: Trade): real {
    if t.kind == "sell" then t.total else if t.kind == "buy" then -t.total else 0.0
  }

  /** netBalance: sales minus purchases, over every trade whatever the
      filters. */
  function NetBalance(trades: seq<Trade>): real {
    TotalOfKind(trades, "sell") - TotalOfKind(trades, "buy")
  }

  /** The net balance is the signed sum of the trades, one by one. */
  lemma {:induction false} NetBalanceIsSignedSum(trades: seq<Trade>)
    ensures NetBalance(trades) == SumBy(trades, Signed)
    decreases |trades|
  {
    if |trades| > 0 {
      NetBalanceIsSignedSum(trades[1..]);
    }
  }

  /** The purchase count and the sale count add up to the trades that are
      one or the other. */
  lemma {:induction false} KindCounts(trades: seq<Trade>)
    ensures Count(trades, (t: Trade) => t.kind == "buy") + Count(trades, (t: Trade) => t.kind == "sell")
            == Count(trades, (t: Trade) => t.kind == "buy" || t.kind == "sell")
    decreases |trades|
  {
    if |trades| > 0 {
      KindCounts(trades[1..]);
    }
  }

  /** A transaction as the transactions page loads it, with its creation
      time as a number. */
  datatype Tx = Tx(kind: string, createdAt: int, status: string, totalAmount: real)

  /** filterTransactions: the type filter, then an inclusive start and an
      inclusive end; an empty date sets no bound. */
  function FilterTransactions(txs: seq<Tx>, filter: string, start: Option<int>, end: Option<int>): (r: seq<Tx>)
    ensures forall t :: t in r <==>
              t in txs && TypeMatches(filter, t.kind)
              && (start.None? || t.createdAt >= start.value) && (end.None? || t.createdAt <= end.value)
    ensures IsSubseq(r, txs)
  {
    var byType := if filter != "all" then Filter(txs, (t: Tx) => t.kind == filter) else txs;
    var fromStart := if start.Some? then Filter(byType, (t: Tx) => t.createdAt >= start.value) else byType;
    var toEnd := if end.Some? then Filter(fromStart, (t: Tx) => t.createdAt <= end.value) else fromStart;
    FilterSubseqTrans(toEnd, fromStart, byType, txs);
    toEnd
  }

  /** Three steps that each keep or filter the list keep a subsequence. */
  lemma FilterSubseqTrans<T>(a: seq<T>, b: seq<T>, c: seq<T>, d: seq<T>)
    requires IsSubseq(a, b) || a == b
    requires IsSubseq(b, c) || b == c
    requires IsSubseq(c, d) || c == d
    ensures IsSubseq(a, d)
  {
    SubseqRefl(a);
    SubseqRefl(b);
    SubseqRefl(c);
    SubseqTrans(a, b, c);
    SubseqTrans(a, c, d);
  }

  /** The three filters in a row are the one filter by all three
      conditions. */
  lemma FiltersInSequence(txs: seq<Tx>, filter: string, start: int, end: int)
    requires filter != "all"
    ensures FilterTransactions(txs, filter, Some(start), Some(end))
            == Filter(txs, (t: Tx) => t.kind == filter && t.createdAt >= start && t.createdAt <= end)
  {
    var p := (t: Tx) => t.kind == filter;
    var q := (t: Tx) => t.createdAt >= start;
    var pq := (t: Tx) => t.kind == filter && t.createdAt >= start;
    var e := (t: Tx) => t.createdAt <= end;
    FilterFilter(txs, p, q, pq);
    FilterFilter(txs, pq, e, (t: Tx) => t.kind == filter && t.createdAt >= start && t.createdAt <= end);
  }

  function TxAmount(t: Tx): real {
    t.totalAmount
  }

  /** getTotalByType: completed transactions of the type only. */
  function TotalByType(txs: seq<Tx>, kind: string): real {
    SumBy(Filter(txs, (t: Tx) => t.kind == kind && t.status == "completed"), TxAmount)
  }

  /** A transaction that is not completed changes no total, and a
      completed one adds its amount to its own type's total only. */
  lemma TotalByTypeAppend(txs: seq<Tx>, t: Tx, kind: string)
    ensures t.status != "completed" || t.kind != kind ==> TotalByType(txs + [t], kind) == TotalByType(txs, kind)
    ensures t.status == "completed" && t.kind == kind ==> TotalByType(txs + [t], kind) == TotalByType(txs, kind) + t.totalAmount
  {
    var p := (x: Tx) => x.kind == kind && x.status == "completed";
    FilterAppend(txs, [t], p);
    SumByAppend(Filter(txs, p), Filter([t], p), TxAmount);
  }

  datatype Role = Client | Admin
  datatype Status = Active | Suspended | Pending

  /** A user of the user-management screen. */
  datatype Member = Member(name: string, email: string, role: Role, status: Status)

  /** filteredUsers: search in the name or e-mail, and the role and status
      filters, None standing for "all". */
  function FilteredMembers(users: seq<Member>, query: string, role: Option<Role>, status: Option<Status>): (r: seq<Member>)
    ensures forall u :: u in r <==>
              u in users && (ContainsIgnoreCase(u.name, query) || ContainsIgnoreCase(u.email, query))
              && (role.None? || u.role == role.value) && (status.None? || u.status == status.value)
    ensures IsSubseq(r, users)
  {
    Filter(users, (u: Member) => (ContainsIgnoreCase(u.name, query) || ContainsIgnoreCase(u.email, query))
                                 && (role.None? || u.role == role.value) && (status.None? || u.status == status.value))
  }

  datatype Stats = Stats(total: nat, active: nat, suspended: nat, pending: nat)

  function MemberStats(users: seq<Member>): Stats {
    Stats(|users|,
          Count(users, (u: Member) => u.status == Active),
          Count(users, (u: Member) => u.status == Suspended),
          Count(users, (u: Member) => u.status == Pending))
  }

  /** Every user has one of the three statuses, so the three counts add up
      to the total. */
  lemma {:induction false} StatsAddUp(users: seq<Member>)
    ensures var s := MemberStats(users); s.active + s.suspended + s.pending == s.total
    decreases |users|
  {
    if |users| > 0 {
      StatsAddUp(users[1..]);
    }
  }

  /** A user of the admin user list. */
  datatype Account = Account(email: string, fullName: string, username: string, status: string)

  /** filterUsers: a non-empty search in the e-mail, full name or username,
      then the status filter. */
  function FilterAccounts(users: seq<Account>, query: string, status: string): (r: seq<Account>)
    ensures query == "" && status == "all" ==> r == users
    ensures forall u :: u in r <==>
              u in users
              && (query == "" || ContainsIgnoreCase(u.email, query) || ContainsIgnoreCase(u.fullName, query) || ContainsIgnoreCase(u.username, query))
              && (status == "all" || u.status == status)
    ensures IsSubseq(r, users)
  {
    var searched := if query != "" then
        Filter(users, (u: Account) => ContainsIgnoreCase(u.email, query) || ContainsIgnoreCase(u.fullName, query) || ContainsIgnoreCase(u.username, query))
      else users;
    var r := if status != "all" then Filter(searched, (u: Account) => u.status == status) else searched;
    SubseqRefl(users);
    SubseqRefl(searched);
    SubseqTrans(r, searched, users);
    r
  }
}

=== FILE: market.dfy ===
/** The stock catalogue endpoints of backend/acciones/views.py: the
    market-hours window, the chart period/interval table, and the ticker
    checks of adding, looking up and searching stocks. Yahoo Finance is
    reduced to the values it returns, passed in as parameters. */
module Market {
  import opened Base
  import opened Text
  import opened Seqs

  /** Microseconds in one second, minute and hour. */
  const Second := 1_000_000
  const Minute := 60 * Second
  const Hour := 60 * Minute

  /** New York local time: the weekday (Monday = 0) and the microsecond of
      the day. */
  datatype LocalTime = LocalTime(weekday: nat, micros: nat)

  /** mercado_abierto: closed on Saturday and Sunday; on weekdays open from
      09:30:00.000000 to 16:00:00.000000, both ends included. */
  function MarketOpen(t: LocalTime): (open: bool)
    ensures t.weekday >= 5 ==> !open
    ensures t.weekday < 5 ==> (open <==> 9 * Hour + 30 * Minute <= t.micros <= 16 * Hour)
  {
    if t.weekday >= 5 then false
    else 9 * Hour + 30 * Minute <= t.micros && t.micros <= 16 * Hour
  }

  /** The same window read on a clock face: the time is within the window iff
      (hour, minute, second, microsecond) lies between (9, 30, 0, 0) and
      (16, 0, 0, 0) in lexicographic order. */
  predicate OpenByClock(weekday: nat, h: nat, m: nat, s: nat, us: nat) {
    && weekday < 5
    && (h > 9 || (h == 9 && m >= 30))
    && (h < 16 || (h == 16 && m == 0 && s == 0 && us == 0))
  }

  lemma ClockAgreesWithWindow(weekday: nat, h: nat, m: nat, s: nat, us: nat)
    requires h < 24 && m < 60 && s < 60 && us < Second
    ensures MarketOpen(LocalTime(weekday, h * Hour + m * Minute + s * Second + us)) <==> OpenByClock(weekday, h, m, s, us)
  {
    var t := h * Hour + m * Minute + s * Second + us;
    assert m * Minute + s * Second + us < Hour;
    assert s * Second + us < Minute;
    if h < 9 {
      assert h * Hour <= 8 * Hour;
    } else if h > 16 {
      assert h * Hour >= 17 * Hour;
    } else if h != 9 && h != 16 {
      assert 10 * Hour <= h * Hour <= 15 * Hour;
    }
  }

  /** The chart intervals grafica accepts for each period; any other period
      accepts none. */
  function AllowedIntervals(period: string): (r: seq<string>)
    ensures |r| <= 5
  {
    match period
    case "1d" => ["1m", "5m", "15m", "30m", "1h"]
    case "5d" => ["5m", "15m", "30m", "1h", "1d"]
    case "1mo" => ["1h", "1d"]
    case "3mo" => ["1d", "1wk"]
    case "6mo" => ["1d", "1wk"]
    case "1y" => ["1d", "1wk", "1mo"]
    case "5y" => ["1wk", "1mo"]
    case "10y" => ["1wk", "1mo"]
    case "max" => ["1mo"]
    case _ => []
  }

  predicate ValidCombo(period: string, interval: string) {
    interval in AllowedIntervals(period)
  }

  /** Length of a period or interval in minutes, taking a month as 30 days
      and a year as 365; "max" has no fixed length. */
  function SpanMinutes(span: string): Option<nat> {
    match span
    case "1m" => Some(1)
    case "5m" => Some(5)
    case "15m" => Some(15)
    case "30m" => Some(30)
    case "1h" => Some(60)
    case "1d" => Some(1440)
    case "5d" => Some(5 * 1440)
    case "1wk" => Some(7 * 1440)
    case "1mo" => Some(30 * 1440)
    case "3mo" => Some(90 * 1440)
    case "6mo" => Some(180 * 1440)
    case "1y" => Some(365 * 1440)
    case "5y" => Some(5 * 365 * 1440)
    case "10y" => Some(10 * 365 * 1440)
    case _ => None
  }

  /** Every accepted interval is a known span shorter than its period, and
      no bounded period asks for more than 1440 points; an unknown period
      accepts nothing. */
  lemma ValidCombosAreSensible(period: string, interval: string)
    requires ValidCombo(period, interval)
    ensures SpanMinutes(interval).Some?
    ensures period != "max" ==>
              && SpanMinutes(period).Some?
              && SpanMinutes(interval).value < SpanMinutes(period).value
              && SpanMinutes(period).value / SpanMinutes(interval).value <= 1440
  {
  }

  lemma UnknownPeriodRejects(period: string, interval: string)
    requires SpanMinutes(period).None? && period != "max"
    ensures !ValidCombo(period, interval)
  {
  }

  /** The defaults, period "1y" with interval "1d", form an accepted pair. */
  lemma DefaultComboValid()
    ensures ValidCombo("1y", "1d")
  {
  }

  /** `.upper().strip()` of a request parameter (ASCII letters only). */
  function Normalize(raw: string): (s: string)
    ensures |s| <= |raw|
    ensures |s| > 0 ==> !IsSpace(s[0]) && !IsSpace(s[|s| - 1])
    ensures forall i :: 0 <= i < |s| ==> !IsLower(s[i])
  {
    var up := Upper(raw);
    UpperHasNoLower(raw);
    TrimKeepsNoLower(up);
    Trim(up)
  }

  lemma UpperHasNoLower(raw: string)
    ensures forall k :: 0 <= k < |Upper(raw)| ==> !IsLower(Upper(raw)[k])
  {
  }

  /** Trimming only cuts characters off, so it brings in no lower-case
      letter. */
  lemma TrimKeepsNoLower(s: string)
    requires forall k :: 0 <= k < |s| ==> !IsLower(s[k])
    ensures forall k :: 0 <= k < |Trim(s)| ==> !IsLower(Trim(s)[k])
  {
    var r := Trim(s);
    var i :| TrimmedAt(s, r, i);
    forall k | 0 <= k < |r| ensures !IsLower(r[k]) {
      assert r[k] == s[i + k];
    }
  }

  lemma UpperCharIdempotent(c: char)
    ensures UpperChar(UpperChar(c)) == UpperChar(c)
    ensures !IsLower(c) ==> UpperChar(c) == c
  {
  }

  /** Normalizing twice is normalizing once. */
  lemma NormalizeIdempotent(raw: string)
    ensures Normalize(Normalize(raw)) == Normalize(raw)
  {
    var s := Normalize(raw);
    forall i | 0 <= i < |s| ensures Upper(s)[i] == s[i] {
      UpperCharIdempotent(s[i]);
    }
    assert Upper(s) == s;
    TrimOfTrimmed(s);
  }

  /** A symbol Yahoo Finance cannot take: it contains '$' or '.'. */
  predicate Unsupported(symbol: string) {
    '$' in symbol || '.' in symbol
  }

  datatype AddOutcome = MissingSymbol | InvalidSymbol | AlreadyExists | Fetch(symbol: string)

  /** agregar_desde_yahoo before the network call: the normalized symbol is
      refused (400) when empty, unsupported or already stored, in that
      order; otherwise it is fetched. */
  function AddSymbol(raw: string, stored: set<string>): (r: AddOutcome)
    ensures r == MissingSymbol <==> Normalize(raw) == ""
    ensures r == InvalidSymbol <==> Normalize(raw) != "" && Unsupported(Normalize(raw))
    ensures r == AlreadyExists <==> Normalize(raw) != "" && !Unsupported(Normalize(raw)) && Normalize(raw) in stored
    ensures r.Fetch? ==> r.symbol == Normalize(raw) && r.symbol != "" && !Unsupported(r.symbol) && r.symbol !in stored
  {
    var s := Normalize(raw);
    if s == "" then MissingSymbol
    else if Unsupported(s) then InvalidSymbol
    else if s in stored then AlreadyExists
    else Fetch(s)
  }

  datatype LookupOutcome = NoSymbol | Found(symbol: string) | Rejected | FetchNew(symbol: string)

  /** por_simbolo before the network call: an empty symbol is refused; a
      stored symbol is returned whatever it contains; only a symbol not yet
      stored is checked for '$' and '.'. */
  function BySymbol(raw: string, stored: set<string>): (r: LookupOutcome)
    ensures r == NoSymbol <==> Normalize(raw) == ""
    ensures r.Found? <==> Normalize(raw) != "" && Normalize(raw) in stored
    ensures r == Rejected <==> Normalize(raw) != "" && Normalize(raw) !in stored && Unsupported(Normalize(raw))
    ensures r.Found? || r.FetchNew? ==> r.symbol == Normalize(raw)
  {
    var s := Normalize(raw);
    if s == "" then NoSymbol
    else if s in stored then Found(s)
    else if Unsupported(s) then Rejected
    else FetchNew(s)
  }

  /** The two endpoints disagree on symbols with a dot or a dollar sign:
      such a symbol can never be added, yet one already stored is found by
      exact lookup. */
  lemma UnsupportedStoredSymbolFound(raw: string, stored: set<string>)
    requires Normalize(raw) in stored && Unsupported(Normalize(raw))
    ensures BySymbol(raw, stored) == Found(Normalize(raw))
    ensures AddSymbol(raw, stored) == InvalidSymbol
    ensures AddSymbol(raw, {}) == InvalidSymbol
  {
  }

  /** One catalogue row as search reads it. */
  datatype Listing = Listing(symbol: string, name: string)

  function Hits(query: string): Listing -> bool {
    (l: Listing) => ContainsIgnoreCase(l.name, query) || ContainsIgnoreCase(l.symbol, query)
  }

  datatype SearchOutcome = BlankQuery | NoResults | Results(rows: seq<Listing>)

  /** buscar: a blank query is refused (400); otherwise the rows whose name
      or symbol contains the stripped query, ignoring case, and a 404 when
      there are none. */
  function Search(query: string, listings: seq<Listing>): (r: SearchOutcome)
    ensures r == BlankQuery <==> Trim(query) == ""
    ensures r == NoResults <==> Trim(query) != "" && forall i :: 0 <= i < |listings| ==> !Hits(Trim(query))(listings[i])
    ensures r.Results? ==> |r.rows| > 0 && IsSubseq(r.rows, listings)
    ensures r.Results? ==> forall i :: 0 <= i < |r.rows| ==> Hits(Trim(query))(r.rows[i])
    ensures r.Results? ==> forall i :: 0 <= i < |listings| && Hits(Trim(query))(listings[i]) ==> listings[i] in r.rows
  {
    var q := Trim(query);
    if q == "" then BlankQuery
    else
      var rows := Filter(listings, Hits(q));
      FilterEmptyIff(listings, Hits(q));
      if |rows| == 0 then NoResults else Results(rows)
  }

  /** retrieve: the stored price is replaced only when the market is open and
      the fetched price is present, non-zero and different; a missing
      fetched price means the stored one. */
  function RefreshPrice(stored: real, open: bool, fetched: Option<real>): (p: real)
    ensures p != stored ==> open && fetched == Some(p) && p != 0.0
    ensures open && fetched.Some? && fetched.value != 0.0 ==> p == fetched.value
    ensures !open ==> p == stored
  {
    var candidate := fetched.GetOr(stored);
    if open && candidate != 0.0 && candidate != stored then candidate else stored
  }
}

=== FILE: money.dfy ===
/** Fixed-point money as exact rationals, and Python's `round(x, 2)`. */
module Money {

  /** `x` has at most two decimal places: a whole number of cents. */
  ghost predicate IsCents(x: real) {
    (x * 100.0).Floor as real == x * 100.0
  }

  /** Round to the nearest whole number, ties to the even neighbour, the rule
      Python's `round` applies to `Decimal` values. */
  function RoundHalfEven(x: real): (n: int)
    ensures (n as real) - 0.5 <= x <= (n as real) + 0.5
    ensures (x == (n as real) - 0.5 || x == (n as real) + 0.5) ==> n % 2 == 0
  {
    var f := x.Floor;
    var frac := x - f as real;
    if frac < 0.5 then f
    else if frac > 0.5 then f + 1
    else if f % 2 == 0 then f
    else f + 1
  }

  /** `round(x, 2)`: the nearest whole number of cents, ties to even. */
  function Round2(x: real): (r: real)
    ensures IsCents(r)
    ensures x - 0.005 <= r <= x + 0.005
  {
    var n := RoundHalfEven(x * 100.0);
    CentsOf(n);
    n as real / 100.0
  }

  /** A whole number of hundredths is whole cents. */
  lemma CentsOf(n: int)
    ensures IsCents(n as real / 100.0)
  {
    var r := n as real / 100.0;
    assert r * 100.0 == n as real;
    FloorOfInteger(n);
  }

  lemma FloorOfInteger(k: int)
    ensures (k as real).Floor == k
  {
  }

  lemma RoundHalfEvenOfInteger(k: int)
    ensures RoundHalfEven(k as real) == k
  {
  }

  /** Rounding a value that is already whole cents changes nothing. */
  lemma {:induction false} Round2OfCents(x: real)
    requires IsCents(x)
    ensures Round2(x) == x
  {
    var k := (x * 100.0).Floor;
    assert x * 100.0 == k as real;
    RoundHalfEvenOfInteger(k);
    assert RoundHalfEven(x * 100.0) == k;
  }

  /** Rounding twice is rounding once. */
  lemma Round2Idempotent(x: real)
    ensures Round2(Round2(x)) == Round2(x)
  {
    Round2OfCents(Round2(x));
  }

  /** Sums and differences of whole cents are whole cents. */
  lemma CentsClosed(a: real, b: real)
    requires IsCents(a) && IsCents(b)
    ensures IsCents(a + b) && IsCents(a - b)
  {
    var ka := (a * 100.0).Floor;
    var kb := (b * 100.0).Floor;
    assert (a + b) * 100.0 == (ka + kb) as real;
    assert (a - b) * 100.0 == (ka - kb) as real;
    FloorOfInteger(ka + kb);
    FloorOfInteger(ka - kb);
  }

  /** Rounding never reverses the order of two amounts. */
  lemma RoundHalfEvenMonotone(x: real, y: real)
    requires x <= y
    ensures RoundHalfEven(x) <= RoundHalfEven(y)
  {
    assert x.Floor <= y.Floor;
  }

  lemma Round2Monotone(x: real, y: real)
    requires x <= y
    ensures Round2(x) <= Round2(y)
  {
    RoundHalfEvenMonotone(x * 100.0, y * 100.0);
  }

  /** An amount no larger than a whole number of cents rounds to no more than
      that number of cents. */
  lemma Round2AtMost(x: real, b: real)
    requires IsCents(b) && x <= b
    ensures Round2(x) <= b
  {
    Round2Monotone(x, b);
    Round2OfCents(b);
  }
}

=== FILE: orders.dfy ===
/** The client-side guards in front of money and share movements: the
    deposit and withdrawal dialogs of frontend/src/app/dashboard/wallet/page.tsx,
    the buy/sell form of frontend/src/components/features/trade-form.tsx and
    the order page of frontend/src/app/dashboard/trade/page.tsx. The text of
    an input and the number `parseFloat`/`parseInt` reads from it are kept
    apart; a text that does not parse reads as None (JavaScript NaN, with
    which every comparison is false). */
module Orders {
  import opened Base

  /** `!amount || parseFloat(amount) <= 0` rejects an amount. */
  predicate AmountAccepted(text: string, parsed: Option<real>) {
    text != "" && !(parsed.Some? && parsed.value <= 0.0)
  }

  /** handleWithdrawal: an accepted amount, and not above the available
      balance when the wallet has loaded. */
  predicate WithdrawalAccepted(text: string, parsed: Option<real>, available: Option<real>) {
    AmountAccepted(text, parsed) && !(available.Some? && parsed.Some? && parsed.value > available.value)
  }

  /** The deposit button. */
  predicate DepositEnabled(processing: bool, text: string, parsed: Option<real>) {
    !processing && text != "" && !(parsed.Some? && parsed.value <= 0.0)
  }

  /** The withdrawal button; the dialog is drawn only once the wallet has
      loaded, so the available balance is known. */
  predicate WithdrawalEnabled(processing: bool, text: string, parsed: Option<real>, available: real) {
    !processing && text != "" && !(parsed.Some? && parsed.value <= 0.0) && !(parsed.Some? && parsed.value > available)
  }

  /** The buttons are enabled exactly when nothing is in flight and the
      handler behind them would go on to call the server. */
  lemma ButtonsAgreeWithHandlers(processing: bool, text: string, parsed: Option<real>, available: real)
    ensures DepositEnabled(processing, text, parsed) <==> !processing && AmountAccepted(text, parsed)
    ensures WithdrawalEnabled(processing, text, parsed, available) <==>
              !processing && WithdrawalAccepted(text, parsed, Some(available))
  {
  }

  /** A number that reaches the server is positive, and a withdrawal is
      covered by the available balance. */
  lemma AcceptedAmountsAreCovered(text: string, x: real, available: real)
    ensures AmountAccepted(text, Some(x)) ==> x > 0.0
    ensures WithdrawalAccepted(text, Some(x), Some(available)) ==> 0.0 < x <= available
  {
  }

  /** A non-empty text that does not parse gets through both checks; the
      field is a number input, which keeps such text out. */
  lemma UnparsedAmountPasses(available: real)
    ensures AmountAccepted("e", None) && WithdrawalAccepted("e", None, Some(available))
  {
  }

  datatype Side = Buy | Sell

  /** The cost of `quantity` shares at `price`. */
  function Cost(price: real, quantity: int): real {
    price * quantity as real
  }

  /** canBuy: affordable and not beyond the shares on offer. */
  predicate CanBuy(price: real, quantity: int, balance: real, onOffer: int) {
    Cost(price, quantity) <= balance && quantity <= onOffer
  }

  /** canSell: not beyond the shares held. */
  predicate CanSell(quantity: int, held: int) {
    quantity <= held
  }

  datatype Submission = TooFew | Refused | Placed(side: Side, quantity: int)

  /** handleSubmit: at least one share, then the side's check. */
  function Submit(side: Side, quantity: int, price: real, balance: real, onOffer: int, held: int): (r: Submission)
    ensures r.TooFew? <==> quantity < 1
    ensures r.Placed? <==> quantity >= 1 && (if side == Buy then CanBuy(price, quantity, balance, onOffer) else CanSell(quantity, held))
    ensures r.Placed? ==> r.side == side && r.quantity == quantity
  {
    if quantity < 1 then TooFew
    else match side
      case Buy => if CanBuy(price, quantity, balance, onOffer) then Placed(Buy, quantity) else Refused
      case Sell => if CanSell(quantity, held) then Placed(Sell, quantity) else Refused
  }

  /** A placed order stays within the balance and the shares on offer or
      held; nothing larger is ever placed. */
  lemma PlacedOrdersAreCovered(side: Side, quantity: int, price: real, balance: real, onOffer: int, held: int)
    requires Submit(side, quantity, price, balance, onOffer, held).Placed?
    ensures 1 <= quantity
    ensures side == Buy ==> Cost(price, quantity) <= balance && quantity <= onOffer
    ensures side == Sell ==> quantity <= held
  {
  }

  /** `Math.max(1, parseInt(value) || 1)`: NaN and 0 become 1, anything
      smaller than 1 becomes 1. */
  function TypedQuantity(parsed: Option<int>): (q: int)
    ensures q >= 1
    ensures parsed.Some? && parsed.value >= 1 ==> q == parsed.value
    ensures parsed.None? || parsed.value < 1 ==> q == 1
  {
    Max(1, if parsed.None? || parsed.value == 0 then 1 else parsed.value)
  }

  /** The quick buttons: the preset, capped by what can be bought or
      sold. */
  function QuickQuantity(preset: int, side: Side, onOffer: int, held: int): (q: int)
    ensures q <= preset
    ensures q <= (if side == Buy then onOffer else held)
    ensures q == preset || q == (if side == Buy then onOffer else held)
  {
    Min(preset, if side == Buy then onOffer else held)
  }

  /** A typed quantity never trips the "at least one" alert; a quick
      button does when nothing is on offer or held. */
  lemma TypedVersusQuick(parsed: Option<int>, price: real, balance: real, onOffer: int, held: int)
    ensures !Submit(Buy, TypedQuantity(parsed), price, balance, onOffer, held).TooFew?
    ensures held <= 0 ==> Submit(Sell, QuickQuantity(10, Sell, onOffer, held), price, balance, onOffer, held).TooFew?
  {
  }

  /** A quick sale of what is held always goes through when at least one
      share is held. */
  lemma QuickSellIsPlaced(preset: int, price: real, balance: real, onOffer: int, held: int)
    requires preset >= 1 && held >= 1
    ensures Submit(Sell, QuickQuantity(preset, Sell, onOffer, held), price, balance, onOffer, held).Placed?
  {
  }

  /** The fixed price the order page quotes. */
  const QuotedPrice: real := 150.25

  datatype OrderQuote = OrderQuote(subtotal: Option<real>, commission: Option<real>, total: Option<real>)

  /** The subtotal at the quoted price, a 1% commission and their sum; all
      three are NaN when the share count does not parse. */
  function Quote(shares: Option<real>): (q: OrderQuote)
    ensures q.subtotal.Some? <==> shares.Some?
    ensures q.commission.Some? <==> shares.Some?
    ensures q.total.Some? <==> shares.Some?
    ensures shares.Some? ==> q.commission.value * 100.0 == q.subtotal.value
    ensures shares.Some? ==> q.total.value * 100.0 == shares.value * QuotedPrice * 101.0
  {
    if shares.None? then OrderQuote(None, None, None)
    else
      var subtotal := shares.value * QuotedPrice;
      var commission := subtotal * 0.01;
      OrderQuote(Some(subtotal), Some(commission), Some(subtotal + commission))
  }

  /** NaN is shown as zero. */
  function Shown(x: Option<real>): real {
    x.GetOr(0.0)
  }

  /** The three amounts displayed for a share count: an unparsable count
      shows 0.00 in every line, a parsed one shows its quote. */
  lemma ShownQuote(shares: Option<real>)
    ensures shares.None? ==> Shown(Quote(shares).subtotal) == 0.0 && Shown(Quote(shares).commission) == 0.0 && Shown(Quote(shares).total) == 0.0
    ensures shares.Some? ==> Shown(Quote(shares).total) == Shown(Quote(shares).subtotal) + Shown(Quote(shares).commission)
  {
  }

  /** `user.balance || 0`. */
  function BalanceOf(balance: Option<real>): real {
    balance.GetOr(0.0)
  }

  /** The "insufficient balance" warning. */
  predicate BalanceWarning(text: string, shares: Option<real>, balance: Option<real>) {
    var q := Quote(shares);
    text != "" && q.total.Some? && q.total.value > BalanceOf(balance)
  }

  /** The warning shows iff the share text is filled in, parses, and the
      total with commission is above the balance; more shares never clear
      it. */
  lemma BalanceWarningIff(text: string, x: real, balance: Option<real>)
    ensures BalanceWarning(text, Some(x), balance) <==> text != "" && x * QuotedPrice * 1.01 > BalanceOf(balance)
    ensures BalanceWarning(text, None, balance) == false
  {
  }

  lemma BalanceWarningMonotone(text: string, x: real, y: real, balance: Option<real>)
    requires x <= y
    requires BalanceWarning(text, Some(x), balance)
    ensures BalanceWarning(text, Some(y), balance)
  {
    var b := BalanceOf(balance);
    assert x * QuotedPrice * 1.01 > b;
    assert y * QuotedPrice * 1.01 >= x * QuotedPrice * 1.01;
  }

  /** The submit button is disabled without a share text, while a request
      is in flight, or without a symbol in the address. */
  predicate SubmitDisabled(text: string, submitting: bool, symbol: string) {
    text == "" || submitting || symbol == ""
  }

  /** The page does not stop an order the warning flags: the button only
      looks at the text, not at the total. */
  lemma WarnedOrderCanBeSubmitted(balance: real)
    requires balance >= 0.0
    ensures var x := balance + 1.0;
            BalanceWarning("1", Some(x), Some(balance)) && !SubmitDisabled("1", false, "AAPL")
  {
    var x := balance + 1.0;
    assert x * QuotedPrice * 1.01 > x;
  }
}

=== FILE: portfolio_data.dfy ===
/** The holdings views of backend/TikalInvest/views.py: portfolio_data,
    which folds completed buys and then completed sells per stock, and the
    quick portfolio_summary. Both read rows of the transactions app. */
module PortfolioData {
  import opened Base
  import opened Money
  import opened Seqs
  import H = Holdings

  datatype Kind = Buy | Sell | Deposit | Withdraw

  datatype Stock = Stock(id: nat, symbol: string, name: string, currentPrice: real, changePercent: Option<real>)

  /** The fields of a transaction row the views read; `stock` is None for
      rows not tied to a stock. */
  datatype Trade = Trade(stock: Option<Stock>, kind: Kind, quantity: real, totalAmount: real, status: H.Status)

  /** Every completed buy or sell still names a stock. The serializer
      demands a stock when such a row is created, but the foreign key is
      `on_delete=SET_NULL`, so deleting a stock leaves its rows with none. */
  predicate Stocked(trades: seq<Trade>) {
    forall i :: 0 <= i < |trades| && trades[i].status == H.Completed && trades[i].kind in {Buy, Sell} ==>
      trades[i].stock.Some?
  }

  function IsBuyOf(id: nat): Trade -> bool {
    (t: Trade) => t.status == H.Completed && t.kind == Buy && t.stock.Some? && t.stock.value.id == id
  }

  function IsSellOf(id: nat): Trade -> bool {
    (t: Trade) => t.status == H.Completed && t.kind == Sell && t.stock.Some? && t.stock.value.id == id
  }

  function Qty(t: Trade): real {
    t.quantity
  }

  function Amount(t: Trade): real {
    t.totalAmount
  }

  /** Shares and cost of one stock as the view accumulates them. */
  datatype Lot = Lot(stock: Stock, quantity: real, totalCost: real)

  /** The first loop: every completed buy adds its quantity and amount to
      its stock's lot, creating the lot on the stock's first buy. */
  function BuyPass(trades: seq<Trade>): (m: map<nat, Lot>)
    ensures forall id :: id in m ==> m[id].stock.id == id
    decreases |trades|
  {
    if |trades| == 0 then map[]
    else
      var m := BuyPass(trades[..|trades| - 1]);
      var t := trades[|trades| - 1];
      if t.status == H.Completed && t.kind == Buy && t.stock.Some? then
        var id := t.stock.value.id;
        var lot := if id in m then m[id] else Lot(t.stock.value, 0.0, 0.0);
        m[id := lot.(quantity := lot.quantity + t.quantity, totalCost := lot.totalCost + t.totalAmount)]
      else m
  }

  /** The second loop: every completed sell of a stock that has a lot takes
      its quantity and amount off that lot; sells of other stocks are
      ignored. */
  function SellPass(m: map<nat, Lot>, trades: seq<Trade>): (r: map<nat, Lot>)
    ensures r.Keys == m.Keys
    ensures forall id :: id in r ==> r[id].stock == m[id].stock
    decreases |trades|
  {
    if |trades| == 0 then m
    else
      var r := SellPass(m, trades[..|trades| - 1]);
      var t := trades[|trades| - 1];
      if t.status == H.Completed && t.kind == Sell && t.stock.Some? && t.stock.value.id in r then
        var id := t.stock.value.id;
        r[id := r[id].(quantity := r[id].quantity - t.quantity, totalCost := r[id].totalCost - t.totalAmount)]
      else r
  }

  /** The lots after both loops. */
  function Lots(trades: seq<Trade>): map<nat, Lot> {
    SellPass(BuyPass(trades), trades)
  }

  lemma SplitLast(trades: seq<Trade>, p: Trade -> bool)
    requires |trades| > 0
    ensures Filter(trades, p) == Filter(trades[..|trades| - 1], p) + Filter([trades[|trades| - 1]], p)
  {
    var n := |trades|;
    assert trades[..n - 1] + trades[n - 1..] == trades;
    assert trades[n - 1..] == [trades[n - 1]];
    FilterAppend(trades[..n - 1], trades[n - 1..], p);
  }

  /** After the first loop a stock has a lot exactly when it has a completed
      buy, holding the sums of its buys' quantities and amounts. */
  lemma {:induction false} BuyPassSums(trades: seq<Trade>, id: nat)
    ensures id in BuyPass(trades) <==> |Filter(trades, IsBuyOf(id))| > 0
    ensures id in BuyPass(trades) ==>
              && BuyPass(trades)[id].quantity == SumBy(Filter(trades, IsBuyOf(id)), Qty)
              && BuyPass(trades)[id].totalCost == SumBy(Filter(trades, IsBuyOf(id)), Amount)
    decreases |trades|
  {
    if |trades| > 0 {
      var init := trades[..|trades| - 1];
      var t := trades[|trades| - 1];
      BuyPassSums(init, id);
      SplitLast(trades, IsBuyOf(id));
      var buys := Filter(init, IsBuyOf(id));
      if IsBuyOf(id)(t) {
        assert Filter([t], IsBuyOf(id)) == [t];
        SumByAppend(buys, [t], Qty);
        SumByAppend(buys, [t], Amount);
        if id !in BuyPass(init) {
          assert buys == [];
        }
      } else {
        assert Filter([t], IsBuyOf(id)) == [];
        assert Filter(trades, IsBuyOf(id)) == buys;
      }
    }
  }

  /** The second loop subtracts the sums of a stock's completed sells from
      its lot, whenever the lot exists. */
  lemma {:induction false} SellPassSums(m: map<nat, Lot>, trades: seq<Trade>, id: nat)
    requires id in m
    ensures SellPass(m, trades)[id].quantity == m[id].quantity - SumBy(Filter(trades, IsSellOf(id)), Qty)
    ensures SellPass(m, trades)[id].totalCost == m[id].totalCost - SumBy(Filter(trades, IsSellOf(id)), Amount)
    decreases |trades|
  {
    if |trades| > 0 {
      var init := trades[..|trades| - 1];
      var t := trades[|trades| - 1];
      SellPassSums(m, init, id);
      SplitLast(trades, IsSellOf(id));
      var sells := Filter(init, IsSellOf(id));
      if IsSellOf(id)(t) {
        assert Filter([t], IsSellOf(id)) == [t];
        SumByAppend(sells, [t], Qty);
        SumByAppend(sells, [t], Amount);
      } else {
        assert Filter([t], IsSellOf(id)) == [];
        assert Filter(trades, IsSellOf(id)) == sells;
      }
    }
  }

  /** Net shares of a stock: bought minus sold, over completed rows. */
  function NetQuantity(trades: seq<Trade>, id: nat): real {
    SumBy(Filter(trades, IsBuyOf(id)), Qty) - SumBy(Filter(trades, IsSellOf(id)), Qty)
  }

  /** Net cost of a stock: amounts bought minus amounts sold. */
  function NetCost(trades: seq<Trade>, id: nat): real {
    SumBy(Filter(trades, IsBuyOf(id)), Amount) - SumBy(Filter(trades, IsSellOf(id)), Amount)
  }

  /** Buys first, then sells: a stock has a lot exactly when it has a
      completed buy (a sell without a buy creates nothing), and the lot holds
      the net quantity and net cost, whatever order the rows came in. */
  lemma LotsClosedForm(trades: seq<Trade>, id: nat)
    ensures id in Lots(trades) <==> |Filter(trades, IsBuyOf(id))| > 0
    ensures id in Lots(trades) ==>
              && Lots(trades)[id].quantity == NetQuantity(trades, id)
              && Lots(trades)[id].totalCost == NetCost(trades, id)
  {
    BuyPassSums(trades, id);
    if id in BuyPass(trades) {
      SellPassSums(BuyPass(trades), trades, id);
    }
  }

  /** The stocks in the order of their first completed buy, which is the
      order in which the view's dictionary lists them. */
  function BuyOrder(trades: seq<Trade>): (o: seq<nat>)
    ensures forall i, j :: 0 <= i < j < |o| ==> o[i] != o[j]
    decreases |trades|
  {
    if |trades| == 0 then []
    else
      var o := BuyOrder(trades[..|trades| - 1]);
      var t := trades[|trades| - 1];
      if t.status == H.Completed && t.kind == Buy && t.stock.Some? && t.stock.value.id !in o then
        o + [t.stock.value.id]
      else o
  }

  lemma {:induction false} BuyOrderMembers(trades: seq<Trade>, id: nat)
    ensures id in BuyOrder(trades) <==> id in BuyPass(trades)
    decreases |trades|
  {
    if |trades| > 0 {
      BuyOrderMembers(trades[..|trades| - 1], id);
    }
  }

  /** One entry of the response's holdings list. */
  datatype Item = Item(
    stockId: nat,
    symbol: string,
    name: string,
    quantity: real,
    avgPrice: real,
    currentPrice: real,
    totalValue: real,
    profitLoss: real,
    profitLossPercent: real,
    changePercent: real)

  function Value(lot: Lot): real {
    lot.stock.currentPrice * lot.quantity
  }

  function Cost(lot: Lot): real {
    lot.totalCost
  }

  function ProfitLoss(lot: Lot): real {
    Value(lot) - lot.totalCost
  }

  /** The unrounded profit/loss percentage: 0 unless the cost is positive. */
  function ProfitLossPercent(lot: Lot): (p: real)
    ensures lot.totalCost <= 0.0 ==> p == 0.0
    ensures lot.totalCost > 0.0 ==> p * lot.totalCost == ProfitLoss(lot) * 100.0
  {
    if lot.totalCost > 0.0 then ProfitLoss(lot) / lot.totalCost * 100.0 else 0.0
  }

  /** The item reported for a lot with a positive quantity: average price,
      value, profit and percentage rounded to cents, the percentage guarded
      against a non-positive cost. The stock model declares no
      `change_percent`, so as written the change is always the fallback 0
      (`changePercent` None). */
  function ItemOf(lot: Lot): (it: Item)
    requires lot.quantity > 0.0
    ensures it.stockId == lot.stock.id && it.quantity == lot.quantity
    ensures IsCents(it.avgPrice) && lot.totalCost / lot.quantity - 0.005 <= it.avgPrice <= lot.totalCost / lot.quantity + 0.005
    ensures it.totalValue == Round2(Value(lot))
    ensures it.profitLoss == Round2(Value(lot) - lot.totalCost)
    ensures lot.totalCost <= 0.0 ==> it.profitLossPercent == 0.0
    ensures it.changePercent == lot.stock.changePercent.GetOr(0.0)
  {
    Round2OfCents(0.0);
    Item(lot.stock.id, lot.stock.symbol, lot.stock.name, lot.quantity,
         Round2(lot.totalCost / lot.quantity), lot.stock.currentPrice,
         Round2(Value(lot)), Round2(ProfitLoss(lot)), Round2(ProfitLossPercent(lot)),
         lot.stock.changePercent.GetOr(0.0))
  }

  function Items(lots: seq<Lot>): (items: seq<Item>)
    requires forall i :: 0 <= i < |lots| ==> lots[i].quantity > 0.0
    ensures |items| == |lots|
    ensures forall i :: 0 <= i < |lots| ==> items[i] == ItemOf(lots[i])
  {
    seq(|lots|, (i: int) requires 0 <= i < |lots| => ItemOf(lots[i]))
  }

  datatype Summary = Summary(
    totalValue: real,
    availableBalance: real,
    investedAmount: real,
    currentHoldingsValue: real,
    dailyChange: real,
    dailyChangePercent: real,
    totalPl: real,
    totalPlPercent: real,
    holdings: seq<Item>,
    holdingsCount: nat)

  function Positive(lots: map<nat, Lot>): nat -> bool {
    (id: nat) => id in lots && lots[id].quantity > 0.0
  }

  /** The stocks portfolio_data reports, in dictionary order: those whose
      lot has a positive quantity. */
  function ReportedIds(trades: seq<Trade>): (ids: seq<nat>)
    ensures forall i :: 0 <= i < |ids| ==> ids[i] in Lots(trades) && Lots(trades)[ids[i]].quantity > 0.0
    ensures forall i, j :: 0 <= i < j < |ids| ==> ids[i] != ids[j]
  {
    var ids := Filter(BuyOrder(trades), Positive(Lots(trades)));
    FilterKeepsDistinct(BuyOrder(trades), Positive(Lots(trades)));
    ids
  }

  /** A stock is reported exactly when it has a completed buy and a positive
      net quantity. */
  lemma ReportedIdsExact(trades: seq<Trade>, id: nat)
    ensures id in ReportedIds(trades) <==> |Filter(trades, IsBuyOf(id))| > 0 && NetQuantity(trades, id) > 0.0
  {
    LotsClosedForm(trades, id);
    BuyOrderMembers(trades, id);
    var order := BuyOrder(trades);
    var p := Positive(Lots(trades));
    if id in ReportedIds(trades) {
      FilterMember(order, p, id);
    }
    if id in order && p(id) {
      var k :| 0 <= k < |order| && order[k] == id;
    }
  }

  /** The lots portfolio_data reports for a user's rows. */
  function ReportedLots(trades: seq<Trade>): (r: seq<Lot>)
    ensures |r| == |ReportedIds(trades)|
    ensures forall i :: 0 <= i < |r| ==> r[i] == Lots(trades)[ReportedIds(trades)[i]] && r[i].quantity > 0.0
  {
    var ids := ReportedIds(trades);
    seq(|ids|, (i: int) requires 0 <= i < |ids| => Lots(trades)[ids[i]])
  }

  /** The daily change as a percentage of the holdings value, rounded: the
      change is fixed at 2% of the value, so this is 2 for any positive value
      and 0 otherwise. */
  function DailyChangePercent(value: real): (p: real)
    ensures p == if value > 0.0 then 2.0 else 0.0
  {
    var daily := value * 0.02;
    var pct := if value > 0.0 then daily / value * 100.0 else 0.0;
    assert pct == if value > 0.0 then 2.0 else 0.0;
    Round2OfCents(2.0);
    Round2OfCents(0.0);
    Round2(pct)
  }

  /** A percentage rounded to cents, multiplied back by its base, is within
      half a cent of base-many units of the unrounded product. */
  lemma PercentWithinHalfCent(part: real, base: real)
    requires base > 0.0
    ensures Round2(part / base * 100.0) == Round2(part * 100.0 / base)
    ensures part * 100.0 - 0.005 * base <= Round2(part / base * 100.0) * base <= part * 100.0 + 0.005 * base
  {
    var q := part / base * 100.0;
    assert q == part * 100.0 / base;
    var d := Round2(q) - q;
    assert q * base == part * 100.0;
    assert Round2(q) * base == part * 100.0 + d * base;
    NonNegativeProduct(0.005 - d, base);
    NonNegativeProduct(d + 0.005, base);
  }

  lemma NonNegativeProduct(a: real, b: real)
    requires a >= 0.0 && b >= 0.0
    ensures a * b >= 0.0
  {
  }

  /** A profit as a percentage of its cost, rounded to cents, and 0 when
      the cost is not positive. */
  function PercentOfCost(profit: real, cost: real): (p: real)
    ensures cost <= 0.0 ==> p == 0.0
    ensures cost > 0.0 ==>
              && p == Round2(profit * 100.0 / cost)
              && profit * 100.0 - 0.005 * cost <= p * cost <= profit * 100.0 + 0.005 * cost
  {
    if cost > 0.0 then
      PercentWithinHalfCent(profit, cost);
      Round2(profit / cost * 100.0)
    else
      Round2OfCents(0.0);
      Round2(0.0)
  }

  /** The summary of a list of reported lots and a balance. Values are
      summed before rounding; the profit is the value minus the cost,
      rounded once; the daily change is a 2% placeholder; every percentage
      is 0 when its base is not positive; the count is the number of items. */
  function Summarize(lots: seq<Lot>, balance: real): (s: Summary)
    requires forall i :: 0 <= i < |lots| ==> lots[i].quantity > 0.0
    ensures && s.holdings == Items(lots)
            && s.holdingsCount == |s.holdings|
            && s.totalValue == Round2(SumBy(lots, Value) + balance)
            && s.availableBalance == balance
            && s.investedAmount == Round2(SumBy(lots, Cost))
            && s.currentHoldingsValue == Round2(SumBy(lots, Value))
            && s.totalPl == Round2(SumBy(lots, Value) - SumBy(lots, Cost))
            && (SumBy(lots, Cost) <= 0.0 ==> s.totalPlPercent == 0.0)
    ensures s.totalPlPercent == PercentOfCost(SumBy(lots, Value) - SumBy(lots, Cost), SumBy(lots, Cost))
    ensures s.dailyChange == Round2(SumBy(lots, Value) / 50.0)
    ensures s.dailyChangePercent == if SumBy(lots, Value) > 0.0 then 2.0 else 0.0
  {
    var value := SumBy(lots, Value);
    var invested := SumBy(lots, Cost);
    var pl := SumBy(lots, ProfitLoss);
    SumBySub(lots, Value, Cost, ProfitLoss);
    var daily := value * 0.02;
    assert daily == value / 50.0;
    var dailyPct := DailyChangePercent(value);
    var items := Items(lots);
    Summary(Round2(value + balance), balance, Round2(invested), Round2(value), Round2(daily),
            dailyPct, Round2(pl), PercentOfCost(pl, invested), items, |items|)
  }

  /** portfolio_data as intended, for a user's rows and balance: the
      summary of the lots it reports, rows whose stock was deleted being
      skipped like every row without a stock. */
  function PortfolioData(trades: seq<Trade>, balance: real): Summary
  {
    Summarize(ReportedLots(trades), balance)
  }

  /** Why portfolio_data answers 500 as written. */
  datatype Crash =
    | StockDeleted      // `tx.stock.id` on a completed buy or sell whose stock is NULL: AttributeError
    | DecimalQuantity   // `float(current_price) * quantity` with the Decimal quantity: TypeError

  /** portfolio_data as written. Both loops read `tx.stock.id`, which fails
      for a completed buy or sell whose stock was deleted. The quantity
      accumulates the rows' Decimal quantities, so the first reported lot
      multiplies a float by a Decimal and fails; only a user with nothing
      to report gets an answer, and it is the intended one. */
  function PortfolioDataAsWritten(trades: seq<Trade>, balance: real): Result<Summary, Crash>
  {
    if !Stocked(trades) then Failure(StockDeleted)
    else if |ReportedIds(trades)| > 0 then Failure(DecimalQuantity)
    else Success(PortfolioData(trades, balance))
  }

  /** As written, portfolio_data answers exactly when every completed buy or
      sell still has its stock and the intended view reports no holding, and
      it then answers what the intended view does: only cash. */
  lemma PortfolioDataFailsAsWritten(trades: seq<Trade>, balance: real)
    ensures PortfolioDataAsWritten(trades, balance).Success? <==> Stocked(trades) && PortfolioData(trades, balance).holdings == []
    ensures PortfolioDataAsWritten(trades, balance).Success? ==>
              && PortfolioDataAsWritten(trades, balance).value == PortfolioData(trades, balance)
              && PortfolioData(trades, balance).totalValue == Round2(balance)
              && PortfolioData(trades, balance).holdingsCount == 0
    ensures Stocked(trades) && NonNegativeQuantities(trades) ==>
              (PortfolioDataAsWritten(trades, balance) == Failure(DecimalQuantity) <==> HoldingsCount(trades) > 0)
  {
    var lots := ReportedLots(trades);
    assert |PortfolioData(trades, balance).holdings| == |lots| == |ReportedIds(trades)|;
    if |lots| == 0 {
      assert SumBy(lots, Value) == 0.0;
    }
    if NonNegativeQuantities(trades) {
      HoldingsCountMatchesPortfolioData(trades, balance);
    }
  }

  /** One completed buy of ten shares is enough for the crash, and a
      completed row whose stock was deleted fails before it, though the
      intended view reports the holding. */
  lemma OneBuyCrashes()
    ensures var st := Stock(7, "AAPL", "Apple", 150.0, None);
            var buy := Trade(Some(st), Buy, 10.0, 1500.0, H.Completed);
            && PortfolioDataAsWritten([buy], 0.0) == Failure(DecimalQuantity)
            && PortfolioDataAsWritten([buy, buy.(stock := None)], 0.0) == Failure(StockDeleted)
            && PortfolioData([buy, buy.(stock := None)], 0.0).holdingsCount > 0
  {
    var st := Stock(7, "AAPL", "Apple", 150.0, None);
    var buy := Trade(Some(st), Buy, 10.0, 1500.0, H.Completed);
    var rows := [buy, buy.(stock := None)];
    ReportedIdsExact([buy], 7);
    assert Filter([buy], IsBuyOf(7)) == [buy];
    assert Filter([buy], IsSellOf(7)) == [];
    assert 7 in ReportedIds([buy]);
    ReportedIdsExact(rows, 7);
    assert Filter(rows, IsBuyOf(7)) == [buy];
    assert Filter(rows, IsSellOf(7)) == [];
    assert 7 in ReportedIds(rows);
    assert !Stocked(rows) by {
      assert rows[1].status == H.Completed && rows[1].kind in {Buy, Sell} && rows[1].stock.None?;
    }
  }

  /** With no negative quantities, the stocks that portfolio_data reports
      are exactly those with a positive net quantity. */
  lemma {:induction false} SumByNonNegative(s: seq<Trade>)
    requires forall i :: 0 <= i < |s| ==> s[i].quantity >= 0.0
    ensures SumBy(s, Qty) >= 0.0
    decreases |s|
  {
    if |s| > 0 {
      SumByNonNegative(s[1..]);
    }
  }

  predicate NonNegativeQuantities(trades: seq<Trade>) {
    forall i :: 0 <= i < |trades| ==> trades[i].quantity >= 0.0
  }

  lemma PositiveNetHasBuy(trades: seq<Trade>, id: nat)
    requires NonNegativeQuantities(trades)
    requires NetQuantity(trades, id) > 0.0
    ensures |Filter(trades, IsBuyOf(id))| > 0
  {
    var sells := Filter(trades, IsSellOf(id));
    forall i | 0 <= i < |sells| ensures sells[i].quantity >= 0.0 {
      assert sells[i] in trades;
    }
    SumByNonNegative(sells);
  }

  /** The stocks of the user's completed rows. */
  function StockIds(trades: seq<Trade>): set<nat> {
    set i | 0 <= i < |trades| && trades[i].status == H.Completed && trades[i].stock.Some? :: trades[i].stock.value.id
  }

  function HasSell(trades: seq<Trade>, id: nat): bool {
    |Filter(trades, IsSellOf(id))| > 0
  }

  function HasBuy(trades: seq<Trade>, id: nat): bool {
    |Filter(trades, IsBuyOf(id))| > 0
  }

  /** The active-holdings count of portfolio_summary as written. The SQL sum
      over no rows is NULL rather than 0, NULL minus anything is NULL, and
      NULL > 0 is not true, so a stock is counted only when it has both a
      completed buy and a completed sell and a positive net quantity. */
  function HoldingsCountAsWritten(trades: seq<Trade>): nat {
    |set id | id in StockIds(trades) && HasBuy(trades, id) && HasSell(trades, id) && NetQuantity(trades, id) > 0.0|
  }

  /** The count as intended: every stock whose net quantity is positive,
      with a missing sum read as 0. */
  function HoldingsCount(trades: seq<Trade>): nat {
    |set id | id in StockIds(trades) && NetQuantity(trades, id) > 0.0|
  }

  /** The count as written never exceeds the intended one. */
  lemma AsWrittenUndercounts(trades: seq<Trade>)
    ensures HoldingsCountAsWritten(trades) <= HoldingsCount(trades)
  {
    SubsetCard(set id | id in StockIds(trades) && HasBuy(trades, id) && HasSell(trades, id) && NetQuantity(trades, id) > 0.0,
               set id | id in StockIds(trades) && NetQuantity(trades, id) > 0.0);
  }

  /** A stock bought and never sold is missed by the count as written. */
  lemma UnsoldStockNotCounted()
    ensures var st := Stock(7, "AAPL", "Apple", 150.0, None);
            var rows := [Trade(Some(st), Buy, 10.0, 1500.0, H.Completed)];
            HoldingsCountAsWritten(rows) == 0 && HoldingsCount(rows) == 1
  {
    var st := Stock(7, "AAPL", "Apple", 150.0, None);
    var rows := [Trade(Some(st), Buy, 10.0, 1500.0, H.Completed)];
    assert rows[0].stock.value.id == 7;
    assert StockIds(rows) == {7};
    assert Filter(rows, IsSellOf(7)) == [];
    assert Filter(rows, IsBuyOf(7)) == rows;
    assert NetQuantity(rows, 7) == 10.0;
    assert (set id | id in StockIds(rows) && HasBuy(rows, id) && HasSell(rows, id) && NetQuantity(rows, id) > 0.0) == {};
    assert (set id | id in StockIds(rows) && NetQuantity(rows, id) > 0.0) == {7};
  }

  /** The corrected count agrees with portfolio_data: with no negative
      quantities, it is the number of holdings that view reports. */
  lemma HoldingsCountMatchesPortfolioData(trades: seq<Trade>, balance: real)
    requires NonNegativeQuantities(trades)
    ensures HoldingsCount(trades) == PortfolioData(trades, balance).holdingsCount
  {
    var ids := ReportedIds(trades);
    var counted := set id | id in StockIds(trades) && NetQuantity(trades, id) > 0.0;
    var reported := set i | 0 <= i < |ids| :: ids[i];
    forall id ensures id in counted <==> id in reported {
      ReportedIdsExact(trades, id);
      if id in counted {
        PositiveNetHasBuy(trades, id);
        assert id in ids;
      }
      if id in reported {
        assert id in ids;
        var buy := Filter(trades, IsBuyOf(id))[0];
        FilterMember(trades, IsBuyOf(id), buy);
        var k :| 0 <= k < |trades| && trades[k] == buy;
        assert id in StockIds(trades);
      }
    }
    assert counted == reported;
    DistinctCard(ids);
  }

  datatype QuickSummary = QuickSummary(totalInvested: real, availableBalance: real, totalHoldings: nat, totalValue: real)

  function IsCompletedKind(k: Kind): Trade -> bool {
    (t: Trade) => t.status == H.Completed && t.kind == k
  }

  /** Completed buy amounts minus completed sell amounts. */
  function NetInvested(trades: seq<Trade>): real {
    SumBy(Filter(trades, IsCompletedKind(Buy)), Amount) - SumBy(Filter(trades, IsCompletedKind(Sell)), Amount)
  }

  /** portfolio_summary with the holdings count as intended: the net
      invested amount and the total value (net invested + balance), each
      rounded to cents. */
  function PortfolioSummary(trades: seq<Trade>, balance: real): (q: QuickSummary)
    ensures q.totalInvested == Round2(NetInvested(trades))
    ensures q.totalValue == Round2(NetInvested(trades) + balance)
    ensures q.availableBalance == balance
    ensures q.totalHoldings == HoldingsCount(trades)
  {
    var net := NetInvested(trades);
    QuickSummary(Round2(net), balance, HoldingsCount(trades), Round2(net + balance))
  }

  /** portfolio_summary as written, differing only in the count. */
  function PortfolioSummaryAsWritten(trades: seq<Trade>, balance: real): (q: QuickSummary)
    ensures q.totalInvested == Round2(NetInvested(trades))
    ensures q.totalValue == Round2(NetInvested(trades) + balance)
    ensures q.availableBalance == balance
    ensures q.totalHoldings == HoldingsCountAsWritten(trades)
  {
    PortfolioSummary(trades, balance).(totalHoldings := HoldingsCountAsWritten(trades))
  }

  /** The two ledgers disagree on time order. Selling 5 shares before buying
      5 nets to nothing here, because all buys are folded before all sells;
      the model-level ledger clamps the early sell at zero and then holds the
      5 bought shares. */
  lemma SellBeforeBuyDiffers()
    ensures var st := Stock(7, "AAPL", "Apple", 150.0, None);
            var rows := [Trade(Some(st), Sell, 5.0, 750.0, H.Completed), Trade(Some(st), Buy, 5.0, 700.0, H.Completed)];
            var ledger := [H.StockTx(1, 0, "AAPL", "Apple", H.Sell, 5.0, 150.0, 750.0, H.Completed),
                           H.StockTx(1, 1, "AAPL", "Apple", H.Buy, 5.0, 140.0, 700.0, H.Completed)];
            && 7 !in ReportedIds(rows)
            && "AAPL" in H.PortfolioHoldings(ledger)
            && H.PortfolioHoldings(ledger)["AAPL"].shares == 5.0
  {
    var st := Stock(7, "AAPL", "Apple", 150.0, None);
    var rows := [Trade(Some(st), Sell, 5.0, 750.0, H.Completed), Trade(Some(st), Buy, 5.0, 700.0, H.Completed)];
    ReportedIdsExact(rows, 7);
    assert Filter(rows, IsSellOf(7)) == [rows[0]];
    assert Filter(rows, IsBuyOf(7)) == [rows[1]];
    var ledger := [H.StockTx(1, 0, "AAPL", "Apple", H.Sell, 5.0, 150.0, 750.0, H.Completed),
                   H.StockTx(1, 1, "AAPL", "Apple", H.Buy, 5.0, 140.0, 700.0, H.Completed)];
    assert ledger[..1] == [ledger[0]];
    assert H.Accumulate([ledger[0]])["AAPL"].shares == 0.0;
    assert H.Accumulate(ledger)["AAPL"].shares == 5.0;
  }
}

=== FILE: referrals.dfy ===
/** The two referral-bonus rules: the +5/+5 bonus applied when a user
    registers with a code (backend/apps/users/serializers.py) and the
    +100/+50 bonus of the use_referral_code endpoint
    (backend/TikalInvest/views.py). Users live in a directory, a sequence
    indexed by position. */
module Referrals {
  import opened Base
  import opened Seqs
  import opened Accounts

  function Balance(u: User): real {
    u.balance
  }

  /** The money held by every user together. */
  function TotalBalance(users: seq<User>): real {
    SumBy(users, Balance)
  }

  /** The row UserSerializer.create stores before looking at the code: a
      new user with the chosen role and the default balance of 0, saved so
      that it has a derived code. Balance, code and verification are
      read-only, so nothing from the client reaches them; the role is not
      read-only and is taken as sent. */
  function Registered(pk: nat, username: string, role: Role): (u: User)
    ensures u.balance == 0.0 && !u.isVerified && u.referredBy.None?
    ensures u.role == role && u.pk == pk && u.username == username
    ensures u.referralCode == Some(DeriveCode(username, pk))
  {
    Save(NewUser(pk, username, 0.0).(role := role))
  }

  /** UserSerializer.create. The new user is appended to the directory. A
      non-empty code that names an existing user links the new user to that
      referrer and credits both with 5; a missing or unknown code is ignored
      and the registration succeeds without a bonus. */
  function Register(users: seq<User>, pk: nat, username: string, role: Role, referredCode: Option<string>): (r: seq<User>)
    ensures |r| == |users| + 1
    ensures r[|users|].pk == pk && r[|users|].role == role
    ensures (!HasCode(referredCode) || FindByCode(users, referredCode.value).None?) ==>
              r == users + [Registered(pk, username, role)]
    ensures HasCode(referredCode) && FindByCode(users, referredCode.value).Some? ==>
              (var j := FindByCode(users, referredCode.value).value;
               && r[|users|] == Registered(pk, username, role).(referredBy := Some(j), balance := 5.0)
               && r[j] == users[j].(balance := users[j].balance + 5.0)
               && forall i :: 0 <= i < |users| && i != j ==> r[i] == users[i])
  {
    var joined := Registered(pk, username, role);
    if !HasCode(referredCode) then users + [joined]
    else match FindByCode(users, referredCode.value)
      case None => users + [joined]
      case Some(j) =>
        var referrer := users[j];
        users[j := referrer.(balance := referrer.balance + 5.0)] + [joined.(referredBy := Some(j), balance := joined.balance + 5.0)]
  }

  /** Registration creates exactly 10 units of money when the code is
      honoured and none otherwise. */
  lemma {:induction false} RegisterBonusTotal(users: seq<User>, pk: nat, username: string, role: Role, referredCode: Option<string>)
    ensures var honoured := HasCode(referredCode) && FindByCode(users, referredCode.value).Some?;
            TotalBalance(Register(users, pk, username, role, referredCode))
              == TotalBalance(users) + (if honoured then 10.0 else 0.0)
  {
    var joined := Registered(pk, username, role);
    if HasCode(referredCode) && FindByCode(users, referredCode.value).Some? {
      var j := FindByCode(users, referredCode.value).value;
      var updated := users[j := users[j].(balance := users[j].balance + 5.0)];
      SumByUpdate(users, j, users[j].(balance := users[j].balance + 5.0), Balance);
      SumByAppend(updated, [joined.(referredBy := Some(j), balance := 5.0)], Balance);
    } else {
      SumByAppend(users, [joined], Balance);
    }
  }

  datatype ReferralOutcome =
    | CodeRequired
    | OwnCode
    | AlreadyReferred
    | InvalidCode
    | ServerError
    | Applied(users: seq<User>)

  /** use_referral_code for the user at index `me`. In order: a missing or
      empty code, the user's own code, a user who already has a referrer, and
      a code nobody holds are each refused (400) with no change; otherwise the
      user is linked to the referrer and credited 100, and the referrer is
      credited 50. */
  function UseReferralCode(users: seq<User>, me: nat, code: Option<string>): (r: ReferralOutcome)
    requires me < |users|
    ensures r == CodeRequired <==> !HasCode(code)
    ensures r == OwnCode <==> HasCode(code) && users[me].referralCode == code
    ensures r == AlreadyReferred <==>
              HasCode(code) && users[me].referralCode != code && users[me].referredBy.Some?
    ensures r == InvalidCode <==>
              && HasCode(code) && users[me].referralCode != code && users[me].referredBy.None?
              && FindByCode(users, code.value).None?
    ensures !r.ServerError?
    ensures r.Applied? ==>
              (var j := FindByCode(users, code.value).value;
               && j != me && |r.users| == |users|
               && r.users[me] == users[me].(referredBy := Some(j), balance := users[me].balance + 100.0)
               && r.users[j] == users[j].(balance := users[j].balance + 50.0)
               && forall i :: 0 <= i < |users| && i != me && i != j ==> r.users[i] == users[i])
  {
    if !HasCode(code) then CodeRequired
    else if users[me].referralCode == code then OwnCode
    else if users[me].referredBy.Some? then AlreadyReferred
    else match FindByCode(users, code.value)
      case None => InvalidCode
      case Some(j) =>
        var u := users[me];
        var withUser := users[me := u.(referredBy := Some(j), balance := u.balance + 100.0)];
        Applied(withUser[j := users[j].(balance := users[j].balance + 50.0)])
  }

  /** use_referral_code as written, for a user loaded from the database:
      the refusals are the same, but the credit `user.balance += 100.00`
      adds a float to the Decimal balance, which raises TypeError; the
      handler answers 500 before anything is saved, so the referrer link
      and both bonuses are lost. A user created in the same request is not
      covered here (its balance is still a float). */
  function UseReferralCodeAsWritten(users: seq<User>, me: nat, code: Option<string>): (r: ReferralOutcome)
    requires me < |users|
    ensures !r.Applied?
    ensures r == ServerError <==> UseReferralCode(users, me, code).Applied?
    ensures r != ServerError ==> r == UseReferralCode(users, me, code)
  {
    var corrected := UseReferralCode(users, me, code);
    if corrected.Applied? then ServerError else corrected
  }

  /** A code can be redeemed once: after a successful redemption the same
      user is refused as already referred, whatever code they send. */
  lemma RedeemOnce(users: seq<User>, me: nat, code: Option<string>, again: Option<string>)
    requires me < |users|
    requires UseReferralCode(users, me, code).Applied?
    requires HasCode(again) && users[me].referralCode != again
    ensures UseReferralCode(UseReferralCode(users, me, code).users, me, again) == AlreadyReferred
  {
  }

  /** A successful redemption creates exactly 150 units of money. */
  lemma {:induction false} RedeemBonusTotal(users: seq<User>, me: nat, code: Option<string>)
    requires me < |users|
    requires UseReferralCode(users, me, code).Applied?
    ensures TotalBalance(UseReferralCode(users, me, code).users) == TotalBalance(users) + 150.0
  {
    var j := FindByCode(users, code.value).value;
    var u := users[me];
    var withUser := users[me := u.(referredBy := Some(j), balance := u.balance + 100.0)];
    SumByUpdate(users, me, u.(referredBy := Some(j), balance := u.balance + 100.0), Balance);
    SumByUpdate(withUser, j, users[j].(balance := users[j].balance + 50.0), Balance);
  }
}

=== FILE: reports.dfy ===
/** Report requests of backend/reportes: a user asks for a report over a
    date range, asks for its generation, and downloads it once it is
    complete; every accepted step is written to an audit log together with
    the client's address and user agent. Generating the file is not part of
    this model, so nothing here moves a report to "completado". */
module Reports {
  import opened Base
  import opened Text
  import opened Seqs

  datatype State = Pending | Processing | Completed | Failed

  datatype Format = Pdf | Excel | Csv

  /** A stored report. Dates are day numbers. */
  datatype Report = Report(
    id: nat, owner: nat, kind: string, from: int, to: int, format: Format,
    file: Option<string>, state: State, deleted: bool, ip: string, userAgent: string)

  datatype Action = RequestCreated | ProcessingStarted | DownloadRequested

  datatype AuditEntry = AuditEntry(report: nat, action: Action, ip: string, userAgent: string)

  datatype Store = Store(reports: seq<Report>, log: seq<AuditEntry>)

  /** The request headers the views read. */
  datatype Meta = Meta(forwardedFor: Option<string>, remoteAddr: Option<string>, userAgent: Option<string>)

  /** get_client_ip: the first comma-separated entry of X-Forwarded-For
      when that header is present and non-empty, otherwise REMOTE_ADDR. */
  function ClientIp(m: Meta): (ip: Option<string>)
    ensures m.forwardedFor.Some? && m.forwardedFor.value != "" ==>
              ip.Some? && ',' !in ip.value
              && |ip.value| <= |m.forwardedFor.value|
              && m.forwardedFor.value[..|ip.value|] == ip.value
              && (|ip.value| == |m.forwardedFor.value| || m.forwardedFor.value[|ip.value|] == ',')
    ensures (m.forwardedFor.None? || m.forwardedFor.value == "") ==> ip == m.remoteAddr
  {
    match m.forwardedFor
    case Some(xff) =>
      if xff != "" then
        var parts := Split(xff, ',');
        JoinHead(parts, ',');
        Some(parts[0])
      else m.remoteAddr
    case None => m.remoteAddr
  }

  /** A proxy chain written as addresses joined by commas yields its first
      address. */
  lemma ClientIpIsFirstHop(hops: seq<string>, remote: Option<string>, agent: Option<string>)
    requires |hops| >= 1 && hops[0] != ""
    requires forall i :: 0 <= i < |hops| ==> ',' !in hops[i]
    ensures ClientIp(Meta(Some(Join(hops, ',')), remote, agent)) == Some(hops[0])
  {
    SplitJoin(hops, ',');
    JoinHead(hops, ',');
  }

  /** The address the database stores for a request. Both address columns
      are GenericIPAddressFields, which store an empty address as NULL, and
      neither admits NULL: an absent or empty address cannot be stored. */
  function StoredIp(m: Meta): (ip: Option<string>)
    ensures ip.Some? <==> ClientIp(m).Some? && ClientIp(m).value != ""
    ensures ip.Some? ==> ip == ClientIp(m)
  {
    var c := ClientIp(m);
    if c.Some? && c.value != "" then c else None
  }

  function UserAgentOf(m: Meta): string {
    m.userAgent.GetOr("")
  }

  /** get_queryset: a user's own reports that are not soft-deleted. */
  function Visible(reports: seq<Report>, user: nat): (r: seq<Report>)
    ensures IsSubseq(r, reports)
    ensures forall i :: 0 <= i < |r| ==> r[i].owner == user && !r[i].deleted
    ensures forall i :: 0 <= i < |reports| && reports[i].owner == user && !reports[i].deleted ==> reports[i] in r
  {
    Filter(reports, (x: Report) => x.owner == user && !x.deleted)
  }

  predicate VisibleAt(reports: seq<Report>, user: nat, id: nat, i: int) {
    0 <= i < |reports| && reports[i].id == id && reports[i].owner == user && !reports[i].deleted
  }

  /** get_object: the position of the first report with this id that the
      user can see; None is the 404. */
  function Find(reports: seq<Report>, user: nat, id: nat): (i: Option<nat>)
    ensures i.Some? ==> VisibleAt(reports, user, id, i.value)
    ensures i.None? <==> forall k :: 0 <= k < |reports| ==> !VisibleAt(reports, user, id, k)
    decreases |reports|
  {
    if |reports| == 0 then None
    else if VisibleAt(reports, user, id, 0) then Some(0)
    else
      match Find(reports[1..], user, id)
      case Some(k) =>
        assert VisibleAt(reports, user, id, k + 1);
        Some(k + 1)
      case None =>
        assert forall k :: 1 <= k < |reports| ==>
          (VisibleAt(reports, user, id, k) <==> VisibleAt(reports[1..], user, id, k - 1));
        None
  }

  /** The five values the `tipo_reporte` column accepts. */
  const Kinds: seq<string> :=
    ["compras_ventas", "ganancias_perdidas", "movimientos_cuenta", "referidos", "portafolio"]

  /** The fields a client may send when creating a report; state, owner and
      file cannot be supplied. The kind arrives as free text. */
  datatype ReportRequest = ReportRequest(kind: string, from: int, to: int, format: Format)

  datatype Invalid = UnknownKind | StartAfterEnd

  /** ReporteSolicitudSerializer: the kind field is a choice field and is
      checked first, so a kind outside the five choices is refused before
      `validate` runs; `validate` then refuses a start date after the end
      date. Any other request passes through unchanged. */
  function ValidateRequest(req: ReportRequest): (r: Result<ReportRequest, Invalid>)
    ensures r == Failure(UnknownKind) <==> req.kind !in Kinds
    ensures r == Failure(StartAfterEnd) <==> req.kind in Kinds && req.from > req.to
    ensures r.Success? <==> req.kind in Kinds && req.from <= req.to
    ensures r.Success? ==> r.value == req
  {
    if req.kind !in Kinds then Failure(UnknownKind)
    else if req.from > req.to then Failure(StartAfterEnd)
    else Success(req)
  }

  lemma SameDayAccepted(day: int, format: Format)
    ensures ValidateRequest(ReportRequest("portafolio", day, day, format)).Success?
    ensures ValidateRequest(ReportRequest("semanal", day, day, format)) == Failure(UnknownKind)
  {
  }

  /** The id the database assigns next: larger than every stored id. */
  function NextId(reports: seq<Report>): (id: nat)
    ensures forall i :: 0 <= i < |reports| ==> reports[i].id < id
    decreases |reports|
  {
    if |reports| == 0 then 1
    else
      var rest := NextId(reports[1..]);
      assert forall i :: 1 <= i < |reports| ==> reports[i] == reports[1..][i - 1];
      if reports[0].id < rest then rest else reports[0].id + 1
  }

  datatype CreateOutcome = Rejected(reason: Invalid) | MissingAddress | Created(store: Store, id: nat)

  /** Database ids are unique; every step below keeps them so. */
  predicate UniqueIds(reports: seq<Report>) {
    forall i, j :: 0 <= i < j < |reports| ==> reports[i].id != reports[j].id
  }

  /** create / perform_create: a valid request is stored as a pending,
      undeleted report without a file, owned by the caller and stamped with
      the client address and user agent, and one "solicitud_creada" entry is
      logged. The address column is NOT NULL, so a request without an
      address that can be stored is refused by the database. */
  function Create(s: Store, user: nat, req: ReportRequest, m: Meta): (r: CreateOutcome)
    ensures r.Rejected? <==> ValidateRequest(req).Failure?
    ensures r.Rejected? ==> r.reason == ValidateRequest(req).error
    ensures r == MissingAddress <==> ValidateRequest(req).Success? && StoredIp(m).None?
    ensures r.Created? ==> UniqueIds(s.reports) ==> UniqueIds(r.store.reports)
    ensures r.Created? ==>
              && |r.store.reports| == |s.reports| + 1
              && r.store.reports[..|s.reports|] == s.reports
              && r.store.log == s.log + [AuditEntry(r.id, RequestCreated, StoredIp(m).value, UserAgentOf(m))]
              && (forall i :: 0 <= i < |s.reports| ==> s.reports[i].id != r.id)
              && var x := r.store.reports[|s.reports|];
                 x.id == r.id && x.owner == user && x.state == Pending && !x.deleted && x.file.None?
                 && x.kind == req.kind && x.from == req.from && x.to == req.to && x.format == req.format
                 && x.ip == StoredIp(m).value && x.userAgent == UserAgentOf(m)
  {
    match ValidateRequest(req)
    case Failure(e) => Rejected(e)
    case Success(data) =>
      match StoredIp(m)
      case None => MissingAddress
      case Some(ip) =>
        var id := NextId(s.reports);
        var x := Report(id, user, data.kind, data.from, data.to, data.format, None, Pending, false, ip, UserAgentOf(m));
        Created(Store(s.reports + [x], s.log + [AuditEntry(id, RequestCreated, ip, UserAgentOf(m))]), id)
  }

  /** An X-Forwarded-For header that starts with a comma yields the empty
      address, whatever REMOTE_ADDR holds; that address cannot be stored,
      so a valid request carrying it is refused. */
  lemma EmptyFirstHop(s: Store, user: nat, remote: Option<string>, agent: Option<string>)
    ensures ClientIp(Meta(Some(",1.2.3.4"), remote, agent)) == Some("")
    ensures StoredIp(Meta(Some(",1.2.3.4"), remote, agent)).None?
    ensures Create(s, user, ReportRequest("portafolio", 1, 2, Pdf), Meta(Some(",1.2.3.4"), remote, agent)) == MissingAddress
  {
  }

  /** The outcome of an action on one report. MissingIp is the server
      error raised when the audit row cannot be stored for want of a
      storable client address; it carries whatever had already been
      saved. */
  datatype StepOutcome = NotFound | AlreadyProcessed | NotDownloadable | MissingIp(store: Store) | Done(store: Store)

  /** solicitar_reporte: only a pending report the caller can see is moved
      to processing, with one "procesamiento_iniciado" entry; anything else
      is refused and changes nothing. The report is saved before the audit
      row is inserted, so without a client address the insert fails with
      the report already marked as processing. */
  function RequestGeneration(s: Store, user: nat, id: nat, m: Meta): (r: StepOutcome)
    ensures r == NotFound <==> Find(s.reports, user, id).None?
    ensures r == AlreadyProcessed <==> Find(s.reports, user, id).Some? && s.reports[Find(s.reports, user, id).value].state != Pending
    ensures !r.NotDownloadable?
    ensures r.Done? <==>
              Find(s.reports, user, id).Some? && s.reports[Find(s.reports, user, id).value].state == Pending
              && StoredIp(m).Some?
    ensures r.Done? || r.MissingIp? ==>
              var i := Find(s.reports, user, id).value;
              r.store.reports == s.reports[i := s.reports[i].(state := Processing)]
    ensures r.Done? ==> r.store.log == s.log + [AuditEntry(id, ProcessingStarted, StoredIp(m).value, UserAgentOf(m))]
    ensures r.MissingIp? ==> r.store.log == s.log
  {
    match Find(s.reports, user, id)
    case None => NotFound
    case Some(i) =>
      var x := s.reports[i];
      if x.state != Pending then AlreadyProcessed
      else
        var saved := s.reports[i := x.(state := Processing)];
        match StoredIp(m)
        case None => MissingIp(Store(saved, s.log))
        case Some(ip) =>
          Done(Store(saved, s.log + [AuditEntry(id, ProcessingStarted, ip, UserAgentOf(m))]))
  }

  /** descargar: a visible report is served only when it is complete and
      has a file, with one "descarga_solicitada" entry; the reports
      themselves never change. */
  function Download(s: Store, user: nat, id: nat, m: Meta): (r: StepOutcome)
    ensures r == NotFound <==> Find(s.reports, user, id).None?
    ensures r == NotDownloadable <==>
              Find(s.reports, user, id).Some?
              && var x := s.reports[Find(s.reports, user, id).value];
                 x.state != Completed || x.file.None?
    ensures r != AlreadyProcessed
    ensures r.Done? <==>
              Find(s.reports, user, id).Some?
              && var x := s.reports[Find(s.reports, user, id).value];
                 x.state == Completed && x.file.Some? && StoredIp(m).Some?
    ensures r.Done? ==>
              && r.store.reports == s.reports
              && r.store.log == s.log + [AuditEntry(id, DownloadRequested, StoredIp(m).value, UserAgentOf(m))]
    ensures r.MissingIp? ==> r.store == s
  {
    match Find(s.reports, user, id)
    case None => NotFound
    case Some(i) =>
      var x := s.reports[i];
      if x.state != Completed || x.file.None? then NotDownloadable
      else
        match StoredIp(m)
        case None => MissingIp(s)
        case Some(ip) =>
          Done(Store(s.reports, s.log + [AuditEntry(id, DownloadRequested, ip, UserAgentOf(m))]))
  }

  /** Generation is requested at most once: right after an accepted request
      the same request is refused. */
  lemma RequestGenerationOnce(s: Store, user: nat, id: nat, m: Meta, m2: Meta)
    requires RequestGeneration(s, user, id, m).Done?
    ensures RequestGeneration(RequestGeneration(s, user, id, m).store, user, id, m2) == AlreadyProcessed
  {
    var i := Find(s.reports, user, id).value;
    var t := RequestGeneration(s, user, id, m).store;
    FindStable(s.reports, i, s.reports[i].(state := Processing), user, id);
  }

  /** Changing the state of one report does not change which report a
      lookup finds. */
  lemma {:induction false} FindStable(reports: seq<Report>, i: nat, x: Report, user: nat, id: nat)
    requires i < |reports|
    requires x.id == reports[i].id && x.owner == reports[i].owner && x.deleted == reports[i].deleted
    ensures Find(reports[i := x], user, id) == Find(reports, user, id)
    decreases |reports|
  {
    if i > 0 {
      FindStable(reports[1..], i - 1, x, user, id);
      assert reports[i := x][1..] == reports[1..][i - 1 := x];
    } else {
      assert reports[i := x][1..] == reports[1..];
    }
  }

  /** The client-side operations on reports. */
  datatype Op =
    | CreateOp(user: nat, req: ReportRequest, m: Meta)
    | RequestOp(user: nat, id: nat, m: Meta)
    | DownloadOp(user: nat, id: nat, m: Meta)
    | PatchOp(user: nat, id: nat, p: Patch)

  function Step(s: Store, op: Op): Store {
    match op
    case CreateOp(u, req, m) =>
      (match Create(s, u, req, m) case Created(t, _) => t case _ => s)
    case RequestOp(u, id, m) =>
      (match RequestGeneration(s, u, id, m) case Done(t) => t case MissingIp(t) => t case _ => s)
    case DownloadOp(u, id, m) =>
      (match Download(s, u, id, m) case Done(t) => t case _ => s)
    case PatchOp(u, id, p) =>
      (match Update(s, u, id, p) case Success(t) => t case Failure(_) => s)
  }

  function Run(s: Store, ops: seq<Op>): Store
    decreases |ops|
  {
    if |ops| == 0 then s else Run(Step(s, ops[0]), ops[1..])
  }

  predicate NoneCompleted(s: Store) {
    forall i :: 0 <= i < |s.reports| ==> s.reports[i].state != Completed
  }

  /** No client operation completes a report: starting with no completed
      report, every download after any sequence of operations is refused. */
  lemma {:induction false} NothingBecomesDownloadable(s: Store, ops: seq<Op>, user: nat, id: nat, m: Meta)
    requires NoneCompleted(s)
    ensures NoneCompleted(Run(s, ops))
    ensures !Download(Run(s, ops), user, id, m).Done?
    decreases |ops|
  {
    if |ops| > 0 {
      StepKeepsNoneCompleted(s, ops[0]);
      NothingBecomesDownloadable(Step(s, ops[0]), ops[1..], user, id, m);
    }
  }

  lemma StepKeepsNoneCompleted(s: Store, op: Op)
    requires NoneCompleted(s)
    ensures NoneCompleted(Step(s, op))
  {
    match op
    case CreateOp(u, req, m) =>
    case RequestOp(u, id, m) =>
    case DownloadOp(u, id, m) =>
    case PatchOp(u, id, p) =>
  }

  /** Fields a client may change through ReporteSerializer; the owner, the
      state, the file, the address, the user agent and the timestamps are
      read-only. */
  datatype Patch = Patch(kind: Option<string>, from: Option<int>, to: Option<int>, format: Option<Format>, deleted: Option<bool>)

  datatype UpdateError = NoSuchReport | BadKind

  /** update / partial_update on a visible report: the supplied writable
      fields are replaced. The object is looked up first (404), then the
      kind is checked against its choices (400). ReporteSerializer has no
      date check. */
  function Update(s: Store, user: nat, id: nat, p: Patch): (r: Result<Store, UpdateError>)
    ensures r == Failure(NoSuchReport) <==> Find(s.reports, user, id).None?
    ensures r == Failure(BadKind) <==> Find(s.reports, user, id).Some? && p.kind.Some? && p.kind.value !in Kinds
    ensures r.Success? ==>
              var i := Find(s.reports, user, id).value;
              && |r.value.reports| == |s.reports| && r.value.log == s.log
              && (forall k :: 0 <= k < |s.reports| && k != i ==> r.value.reports[k] == s.reports[k])
              && var x, y := s.reports[i], r.value.reports[i];
                 y.id == x.id && y.owner == x.owner && y.state == x.state && y.file == x.file
                 && y.ip == x.ip && y.userAgent == x.userAgent
                 && y.kind == p.kind.GetOr(x.kind) && y.format == p.format.GetOr(x.format)
                 && y.from == p.from.GetOr(x.from) && y.to == p.to.GetOr(x.to)
                 && y.deleted == p.deleted.GetOr(x.deleted)
  {
    match Find(s.reports, user, id)
    case None => Failure(NoSuchReport)
    case Some(i) =>
      if p.kind.Some? && p.kind.value !in Kinds then Failure(BadKind)
      else
        var x := s.reports[i];
        var y := x.(kind := p.kind.GetOr(x.kind), from := p.from.GetOr(x.from), to := p.to.GetOr(x.to),
                    format := p.format.GetOr(x.format), deleted := p.deleted.GetOr(x.deleted));
        Success(Store(s.reports[i := y], s.log))
  }

  /** With unique ids, a report the owner soft-deletes is no longer found
      by any later lookup of its id. */
  lemma DeletedIsHidden(s: Store, user: nat, id: nat)
    requires UniqueIds(s.reports)
    requires Find(s.reports, user, id).Some?
    ensures Update(s, user, id, Patch(None, None, None, None, Some(true))).Success?
    ensures Find(Update(s, user, id, Patch(None, None, None, None, Some(true))).value.reports, user, id).None?
  {
    var i := Find(s.reports, user, id).value;
    var t := Update(s, user, id, Patch(None, None, None, None, Some(true))).value.reports;
    forall k | 0 <= k < |t|
      ensures !VisibleAt(t, user, id, k)
    {
      if k != i {
        assert t[k] == s.reports[k];
        assert s.reports[k].id != s.reports[i].id;
      }
    }
  }

  /** No client operation breaks the uniqueness of ids. */
  lemma StepKeepsUniqueIds(s: Store, op: Op)
    requires UniqueIds(s.reports)
    ensures UniqueIds(Step(s, op).reports)
  {
    match op
    case CreateOp(u, req, m) =>
    case RequestOp(u, id, m) =>
      if RequestGeneration(s, u, id, m).Done? || RequestGeneration(s, u, id, m).MissingIp? {
        var i := Find(s.reports, u, id).value;
        var t := Step(s, op).reports;
        assert forall k :: 0 <= k < |t| ==> t[k].id == s.reports[k].id;
      }
    case DownloadOp(u, id, m) =>
    case PatchOp(u, id, p) =>
      if Update(s, u, id, p).Success? {
        var t := Step(s, op).reports;
        assert forall k :: 0 <= k < |t| ==> t[k].id == s.reports[k].id;
      }
  }

  /** An update may store a start date after the end date, which creation
      refuses. */
  lemma UpdateSkipsDateCheck(s: Store, user: nat, id: nat)
    requires Find(s.reports, user, id).Some?
    requires s.reports[Find(s.reports, user, id).value].to == 5
    ensures var t := Update(s, user, id, Patch(None, Some(9), None, None, None)).value;
            var x := t.reports[Find(s.reports, user, id).value];
            x.from > x.to && ValidateRequest(ReportRequest(x.kind, x.from, x.to, x.format)).Failure?
  {
  }
}

=== FILE: routes.dfy ===
/** Screen selection in the single-page client, frontend/src/App.tsx: the
    screen named by the last segment of the address path, the public
    screens, the name shown for a user, navigation and the offline login. */
module Routes {
  import opened Base
  import opened Text

  const ValidRoutes: seq<string> := [
    "landing", "login", "register", "forgot-password", "email-verification", "security-questions",
    "dashboard", "trading", "portfolio", "history", "settings", "admin", "market", "stock-detail",
    "user-management", "system-activity", "responsive-test", "request-report"]

  /** The screens shown without a signed-in user. */
  const PublicRoutes: seq<string> := [
    "landing", "login", "register", "forgot-password", "email-verification", "security-questions"]

  /** `replace(/\/$/, '')`: one trailing '/' dropped. */
  function DropTrailingSlash(path: string): (r: string)
    ensures path == r || path == r + "/"
    ensures |path| > 0 && path[|path| - 1] == '/' ==> |r| == |path| - 1
  {
    if |path| > 0 && path[|path| - 1] == '/' then path[..|path| - 1] else path
  }

  /** `split('/').pop()`: the text after the last '/', or all of a path
      without one. */
  function LastSegment(path: string): (r: string)
    ensures '/' !in r
    ensures |r| <= |path| && r == path[|path| - |r|..]
    ensures |r| < |path| ==> path[|path| - |r| - 1] == '/'
    decreases |path|
  {
    if |path| == 0 || path[|path| - 1] == '/' then ""
    else LastSegment(path[..|path| - 1]) + [path[|path| - 1]]
  }

  /** getCurrentRoute: the last segment if it names a screen, the landing
      page otherwise (an empty segment names none). */
  function CurrentRoute(path: string): (r: string)
    ensures r in ValidRoutes
    ensures LastSegment(DropTrailingSlash(path)) in ValidRoutes ==> r == LastSegment(DropTrailingSlash(path))
    ensures LastSegment(DropTrailingSlash(path)) !in ValidRoutes ==> r == "landing"
  {
    var segment := LastSegment(DropTrailingSlash(path));
    assert ValidRoutes[0] == "landing";
    if segment in ValidRoutes then segment else "landing"
  }

  /** No screen name contains '/'. */
  lemma NoSlashInRoutes()
    ensures forall r :: r in ValidRoutes ==> '/' !in r
  {
    forall i | 0 <= i < |ValidRoutes| ensures '/' !in ValidRoutes[i] {
      NoSlashAt(i);
    }
  }

  lemma NoSlashAt(i: nat)
    requires i < |ValidRoutes|
    ensures forall k :: 0 <= k < |ValidRoutes[i]| ==> 'a' <= ValidRoutes[i][k] <= 'z' || ValidRoutes[i][k] == '-'
  {
  }

  lemma {:induction false} LastSegmentAfterSlash(prefix: string, seg: string)
    requires '/' !in seg
    ensures LastSegment(prefix + "/" + seg) == seg
    decreases |seg|
  {
    var p := prefix + "/" + seg;
    if |seg| == 0 {
      assert p[|p| - 1] == '/';
    } else {
      var init := seg[..|seg| - 1];
      assert p[..|p| - 1] == prefix + "/" + init;
      assert p[|p| - 1] == seg[|seg| - 1];
      assert '/' !in init by {
        forall k | 0 <= k < |init| ensures init[k] != '/' {
          assert init[k] == seg[k];
        }
      }
      LastSegmentAfterSlash(prefix, init);
      assert init + [seg[|seg| - 1]] == seg;
    }
  }

  /** The address of a screen, with or without a trailing '/' and under
      any prefix, leads back to that screen. */
  lemma RouteOfAddress(prefix: string, route: string)
    requires route in ValidRoutes
    ensures CurrentRoute(prefix + "/" + route) == route
    ensures CurrentRoute(prefix + "/" + route + "/") == route
  {
    NoSlashInRoutes();
    LastSegmentAfterSlash(prefix, route);
    var p := prefix + "/" + route;
    assert DropTrailingSlash(p + "/") == p;
    if |route| > 0 {
      assert p[|p| - 1] == route[|route| - 1];
      assert route[|route| - 1] in route;
    }
    assert DropTrailingSlash(p) == p;
  }

  /** Every screen name has at least five characters. */
  lemma RouteNamesAreLong()
    ensures forall r :: r in ValidRoutes ==> |r| >= 5
  {
    forall r | r in ValidRoutes ensures |r| >= 5 {
      var i :| 0 <= i < |ValidRoutes| && ValidRoutes[i] == r;
    }
  }

  /** The bare site and an empty path show the landing page. */
  lemma EmptyPathIsLanding()
    ensures CurrentRoute("/") == "landing"
    ensures CurrentRoute("") == "landing"
  {
    RouteNamesAreLong();
    assert LastSegment(DropTrailingSlash("/")) == "";
  }

  /** A short unknown name shows the landing page. */
  lemma UnknownPathIsLanding()
    ensures CurrentRoute("/faq") == "landing"
  {
    ShortSegment();
    assert DropTrailingSlash("/faq") == "/faq";
    RouteNamesAreLong();
  }

  lemma ShortSegment()
    ensures LastSegment("/faq") == "faq"
  {
    assert '/' !in "faq";
    LastSegmentAfterSlash("", "faq");
    assert "" + "/" + "faq" == "/faq";
  }

  /** Exactly six screens are public, each one a valid screen. */
  lemma PublicRoutesAreValid()
    ensures |PublicRoutes| == 6
    ensures forall i, j :: 0 <= i < j < |PublicRoutes| ==> PublicRoutes[i] != PublicRoutes[j]
    ensures forall r :: r in PublicRoutes ==> r in ValidRoutes
  {
  }

  /** The fields of the saved user, "" when absent. */
  datatype Profile = Profile(name: string, firstName: string, lastName: string)

  /** getFullName: the name if set, otherwise the first and last names
      joined with a space and trimmed, otherwise "Usuario". */
  function FullName(p: Profile): (r: string)
    ensures p.name != "" ==> r == p.name
    ensures p.name == "" && p.firstName == "" && p.lastName == "" ==> r == "Usuario"
    ensures p.name == "" && (p.firstName != "" || p.lastName != "") ==>
              && |r| <= |p.firstName| + 1 + |p.lastName|
              && (exists i :: TrimmedAt(p.firstName + " " + p.lastName, r, i))
              && (|r| > 0 ==> !IsSpace(r[0]) && !IsSpace(r[|r| - 1]))
  {
    if p.name != "" then p.name
    else if p.firstName != "" || p.lastName != "" then Trim(p.firstName + " " + p.lastName)
    else "Usuario"
  }

  /** First and last names without surrounding blanks are shown with one
      space between; a blank-only first name with no last name shows as
      the empty string. */
  lemma FullNameOfParts(first: string, last: string)
    requires first != "" && last != ""
    requires !IsSpace(first[0]) && !IsSpace(last[|last| - 1])
    ensures FullName(Profile("", first, last)) == first + " " + last
    ensures FullName(Profile("", " ", "")) == ""
  {
    var s := first + " " + last;
    assert s[0] == first[0] && s[|s| - 1] == last[|last| - 1];
    TrimOfTrimmed(s);
    TrimEmptyIff(" " + " " + "");
  }

  datatype Nav = Nav(route: string, selected: Option<string>)

  /** handleNavigate: the stock detail with a symbol remembers the symbol;
      every other move keeps the earlier selection. */
  function Navigate(n: Nav, route: string, symbol: Option<string>): (r: Nav)
    ensures r.route == route
    ensures route == "stock-detail" && symbol.Some? && symbol.value != "" ==> r.selected == symbol
    ensures !(route == "stock-detail" && symbol.Some? && symbol.value != "") ==> r.selected == n.selected
  {
    Nav(route, if route == "stock-detail" && symbol.Some? && symbol.value != "" then symbol else n.selected)
  }

  datatype SessionUser = SessionUser(name: string, email: string, admin: bool)

  /** handleLogin: a user saved by the login screen is taken as it is;
      without one, an e-mail containing "admin" signs in an administrator.
      Administrators land on the admin screen, everyone else on the
      dashboard. */
  function Login(saved: Option<SessionUser>, email: string): (r: (SessionUser, string))
    ensures saved.Some? ==> r.0 == saved.value
    ensures saved.None? ==> r.0.email == email && (r.0.admin <==> Contains(email, "admin"))
    ensures r.1 == (if r.0.admin then "admin" else "dashboard")
  {
    var u := if saved.Some? then saved.value
      else if Contains(email, "admin") then SessionUser("Administrador", email, true)
      else SessionUser("Usuario Demo", email, false);
    (u, if u.admin then "admin" else "dashboard")
  }

  /** Both screens a login lands on are private, valid screens. */
  lemma LoginLandsOnPrivateScreen(saved: Option<SessionUser>, email: string)
    ensures Login(saved, email).1 in ValidRoutes && Login(saved, email).1 !in PublicRoutes
  {
  }
}

=== FILE: seqs.dfy ===
/** List transforms shared by the screens and views: order-preserving
    filtering (JavaScript `Array.filter`, a Django `.filter()`), sums and
    counts (`reduce`, `.length` of a filter), and a stable descending sort
    (JavaScript `Array.sort` with `b - a`, Django `order_by('-field')`). */
module Seqs {

  /** `a` is obtained from `b` by deleting elements, keeping the order of
      the rest. */
  ghost predicate IsSubseq<T>(a: seq<T>, b: seq<T>)
    decreases |b|
  {
    |a| == 0 || (|b| > 0 && ((a[0] == b[0] && IsSubseq(a[1..], b[1..])) || IsSubseq(a, b[1..])))
  }

  /** Every sequence is a subsequence of itself. */
  lemma {:induction false} SubseqRefl<T>(a: seq<T>)
    ensures IsSubseq(a, a)
    decreases |a|
  {
    if |a| > 0 {
      SubseqRefl(a[1..]);
    }
  }

  /** A subsequence of a subsequence is a subsequence. */
  lemma {:induction false} SubseqTrans<T>(a: seq<T>, b: seq<T>, c: seq<T>)
    requires IsSubseq(a, b) && IsSubseq(b, c)
    ensures IsSubseq(a, c)
    decreases |c|
  {
    if |a| > 0 {
      if b[0] == c[0] && IsSubseq(b[1..], c[1..]) {
        if a[0] == b[0] && IsSubseq(a[1..], b[1..]) {
          SubseqTrans(a[1..], b[1..], c[1..]);
        } else {
          SubseqTrans(a, b[1..], c[1..]);
        }
      } else {
        SubseqTrans(a, b, c[1..]);
      }
    }
  }

  /** The elements of `s` that satisfy `p`, in their original order. */
  function Filter<T>(s: seq<T>, p: T -> bool): (r: seq<T>)
    ensures |r| <= |s|
    ensures forall i :: 0 <= i < |r| ==> p(r[i]) && r[i] in s
    ensures forall i :: 0 <= i < |s| && p(s[i]) ==> s[i] in r
    ensures IsSubseq(r, s)
    decreases |s|
  {
    if |s| == 0 then []
    else
      var rest := Filter(s[1..], p);
      assert forall i :: 1 <= i < |s| ==> s[i] == s[1..][i - 1];
      if p(s[0]) then
        assert ([s[0]] + rest)[1..] == rest;
        [s[0]] + rest
      else rest
  }

  /** Filtering keeps every occurrence of an element that satisfies `p`
      and none of one that does not. */
  lemma {:induction false} FilterMultiset<T>(s: seq<T>, p: T -> bool)
    ensures forall x :: multiset(Filter(s, p))[x] == if p(x) then multiset(s)[x] else 0
    decreases |s|
  {
    if |s| > 0 {
      FilterMultiset(s[1..], p);
      assert s == [s[0]] + s[1..];
      if p(s[0]) {
        assert Filter(s, p) == [s[0]] + Filter(s[1..], p);
      }
    }
  }

  /** Filtering a sequence without repeats leaves one without repeats. */
  lemma {:induction false} FilterKeepsDistinct<T>(s: seq<T>, p: T -> bool)
    requires forall i, j :: 0 <= i < j < |s| ==> s[i] != s[j]
    ensures forall i, j :: 0 <= i < j < |Filter(s, p)| ==> Filter(s, p)[i] != Filter(s, p)[j]
    decreases |s|
  {
    if |s| > 0 {
      FilterKeepsDistinct(s[1..], p);
      var rest := Filter(s[1..], p);
      if p(s[0]) {
        forall k | 0 <= k < |rest| ensures rest[k] != s[0] {
          FilterMember(s[1..], p, rest[k]);
        }
      }
    }
  }

  /** Every element of a filtered sequence satisfies the predicate. */
  lemma FilterMember<T>(s: seq<T>, p: T -> bool, x: T)
    requires x in Filter(s, p)
    ensures p(x) && x in s
  {
    var i :| 0 <= i < |Filter(s, p)| && Filter(s, p)[i] == x;
  }

  /** Nothing is left after filtering exactly when no element satisfies
      the predicate. */
  lemma FilterEmptyIff<T>(s: seq<T>, p: T -> bool)
    ensures |Filter(s, p)| == 0 <==> forall i :: 0 <= i < |s| ==> !p(s[i])
  {
    if |Filter(s, p)| == 0 {
      forall i | 0 <= i < |s| ensures !p(s[i]) {
        assert s[i] !in Filter(s, p);
      }
    }
  }

  /** Filtering keeps every element that satisfies `p`, so filtering twice
      with the same predicate changes nothing. */
  lemma {:induction false} FilterIdempotent<T>(s: seq<T>, p: T -> bool)
    ensures Filter(Filter(s, p), p) == Filter(s, p)
    decreases |s|
  {
    if |s| > 0 {
      FilterIdempotent(s[1..], p);
      var rest := Filter(s[1..], p);
      if p(s[0]) {
        assert ([s[0]] + rest)[1..] == rest;
      }
    }
  }

  /** Filtering distributes over concatenation. */
  lemma {:induction false} FilterAppend<T>(a: seq<T>, b: seq<T>, p: T -> bool)
    ensures Filter(a + b, p) == Filter(a, p) + Filter(b, p)
    decreases |a|
  {
    if |a| > 0 {
      var ab := a + b;
      assert ab[0] == a[0];
      assert ab[1..] == a[1..] + b;
      FilterAppend(a[1..], b, p);
      if p(a[0]) {
        calc {
          Filter(ab, p);
          [a[0]] + Filter(ab[1..], p);
          [a[0]] + (Filter(a[1..], p) + Filter(b, p));
          ([a[0]] + Filter(a[1..], p)) + Filter(b, p);
        }
      } else {
        assert Filter(ab, p) == Filter(ab[1..], p);
      }
    } else {
      assert a + b == b;
    }
  }

  /** Filtering by `p` and then by `q` is filtering once by both. */
  lemma {:induction false} FilterFilter<T>(s: seq<T>, p: T -> bool, q: T -> bool, both: T -> bool)
    requires forall x :: both(x) == (p(x) && q(x))
    ensures Filter(Filter(s, p), q) == Filter(s, both)
    decreases |s|
  {
    if |s| > 0 {
      FilterFilter(s[1..], p, q, both);
      var rest := Filter(s[1..], p);
      if p(s[0]) {
        assert ([s[0]] + rest)[1..] == rest;
      }
    }
  }

  /** Number of elements satisfying `p`. */
  function Count<T>(s: seq<T>, p: T -> bool): (n: nat)
    ensures n <= |s|
    ensures n == |Filter(s, p)|
    decreases |s|
  {
    if |s| == 0 then 0 else (if p(s[0]) then 1 else 0) + Count(s[1..], p)
  }

  /** Sum of `f` over the elements, left to right (`reduce` from 0). */
  function SumBy<T>(s: seq<T>, f: T -> real): real
    decreases |s|
  {
    if |s| == 0 then 0.0 else f(s[0]) + SumBy(s[1..], f)
  }

  /** The sum over a concatenation is the sum of the sums. */
  lemma {:induction false} SumByAppend<T>(a: seq<T>, b: seq<T>, f: T -> real)
    ensures SumBy(a + b, f) == SumBy(a, f) + SumBy(b, f)
    decreases |a|
  {
    if |a| == 0 {
      assert a + b == b;
    } else {
      SumByAppend(a[1..], b, f);
      assert (a + b)[1..] == a[1..] + b;
    }
  }

  /** The sum of differences is the difference of the sums. */
  lemma {:induction false} SumBySub<T>(s: seq<T>, f: T -> real, g: T -> real, h: T -> real)
    requires forall x :: h(x) == f(x) - g(x)
    ensures SumBy(s, h) == SumBy(s, f) - SumBy(s, g)
    decreases |s|
  {
    if |s| > 0 {
      SumBySub(s[1..], f, g, h);
    }
  }

  /** Two sequences that agree term by term under `f` have the same sum. */
  lemma {:induction false} SumByPointwise<T>(a: seq<T>, b: seq<T>, f: T -> real)
    requires |a| == |b|
    requires forall i :: 0 <= i < |a| ==> f(a[i]) == f(b[i])
    ensures SumBy(a, f) == SumBy(b, f)
    decreases |a|
  {
    if |a| > 0 {
      assert forall i :: 0 <= i < |a| - 1 ==> a[1..][i] == a[i + 1] && b[1..][i] == b[i + 1];
      SumByPointwise(a[1..], b[1..], f);
    }
  }

  /** A subset is no larger than its superset. */
  lemma {:induction false} SubsetCard<T>(a: set<T>, b: set<T>)
    requires a <= b
    ensures |a| <= |b|
    decreases a
  {
    if a != {} {
      var x :| x in a;
      SubsetCard(a - {x}, b - {x});
    }
  }

  /** A sequence without repeated elements has as many distinct elements as
      it is long. */
  lemma {:induction false} DistinctCard<T>(s: seq<T>)
    requires forall i, j :: 0 <= i < j < |s| ==> s[i] != s[j]
    ensures |set i | 0 <= i < |s| :: s[i]| == |s|
    decreases |s|
  {
    if |s| > 0 {
      var init := s[..|s| - 1];
      DistinctCard(init);
      var a := set i | 0 <= i < |init| :: init[i];
      var b := set i | 0 <= i < |s| :: s[i];
      assert b == a + {s[|s| - 1]};
      assert s[|s| - 1] !in a;
    }
  }

  /** Replacing one element changes the sum by the difference of the two
      elements' values. */
  lemma {:induction false} SumByUpdate<T>(s: seq<T>, j: nat, x: T, f: T -> real)
    requires j < |s|
    ensures SumBy(s[j := x], f) == SumBy(s, f) - f(s[j]) + f(x)
    decreases |s|
  {
    if j > 0 {
      SumByUpdate(s[1..], j - 1, x, f);
      assert s[j := x][1..] == s[1..][j - 1 := x];
    } else {
      assert s[j := x][1..] == s[1..];
    }
  }

  /** Sorted so that the key never increases from left to right. */
  ghost predicate SortedDesc<T>(s: seq<T>, key: T -> real) {
    forall i, j :: 0 <= i < j < |s| ==> key(s[i]) >= key(s[j])
  }

  /** Insert `x` into a key-descending `t` in front of the first element
      whose key is not larger than its own. */
  function InsertDesc<T>(x: T, t: seq<T>, key: T -> real): (r: seq<T>)
    requires SortedDesc(t, key)
    ensures multiset(r) == multiset(t) + multiset{x}
    ensures SortedDesc(r, key)
    ensures |r| == |t| + 1
    decreases |t|
  {
    if |t| == 0 || key(x) >= key(t[0]) then [x] + t
    else
      var rest := InsertDesc(x, t[1..], key);
      assert t == [t[0]] + t[1..];
      HeadBoundsInsert(x, t, rest, key);
      [t[0]] + rest
  }

  /** The head of a sorted list bounds every element of the tail with one
      smaller element inserted. */
  lemma HeadBoundsInsert<T>(x: T, t: seq<T>, rest: seq<T>, key: T -> real)
    requires |t| > 0 && key(x) < key(t[0]) && SortedDesc(t, key)
    requires multiset(rest) == multiset(t[1..]) + multiset{x}
    ensures forall k :: 0 <= k < |rest| ==> key(t[0]) >= key(rest[k])
  {
    forall k | 0 <= k < |rest| ensures key(t[0]) >= key(rest[k]) {
      assert rest[k] in multiset(rest);
      if rest[k] != x {
        assert rest[k] in multiset(t[1..]);
        var j :| 0 <= j < |t[1..]| && t[1..][j] == rest[k];
        assert t[j + 1] == rest[k];
      }
    }
  }

  /** Sort by a key, largest first, keeping equal keys in their original
      order (an insertion sort, as JavaScript's stable `sort`). */
  function SortDesc<T>(s: seq<T>, key: T -> real): (r: seq<T>)
    ensures multiset(r) == multiset(s)
    ensures SortedDesc(r, key)
    ensures |r| == |s|
    decreases |s|
  {
    if |s| == 0 then []
    else
      assert s == [s[0]] + s[1..];
      InsertDesc(s[0], SortDesc(s[1..], key), key)
  }

  /** Sorting neither adds nor drops elements. */
  lemma SortDescMember<T>(s: seq<T>, key: T -> real, x: T)
    ensures x in SortDesc(s, key) <==> x in s
  {
    var r := SortDesc(s, key);
    assert x in r <==> x in multiset(r);
    assert x in s <==> x in multiset(s);
  }

  /** `s.slice(0, n)` / `queryset[:n]`. */
  function Take<T>(s: seq<T>, n: nat): (r: seq<T>)
    ensures |r| == if n <= |s| then n else |s|
    ensures r == s[..|r|]
  {
    if n <= |s| then s[..n] else s
  }
}

=== FILE: settings.dfy ===
/** The balance and payment-method screen of
    frontend/src/components/screens/Settings.tsx, kept in the browser: saved
    cards that each top up the available balance, and deposits that wait as
    pending until a timer completes them; the delay itself is not modelled,
    only the change the timer makes. An amount field is a number input, whose text is empty when it
    does not hold a number; an empty field is None here. */
module Settings {
  import opened Base
  import opened Text
  import opened Seqs

  datatype Payment = Payment(id: string, alias: string, masked: string, amount: real)

  datatype Deposit = Deposit(id: string, amount: real, status: string, reference: string)

  datatype Screen = Screen(available: real, pending: real, payments: seq<Payment>, deposits: seq<Deposit>)

  /** The card-number field: digits only, at most sixteen. */
  function CardDigits(raw: string): (r: string)
    ensures |r| <= 16
    ensures forall i :: 0 <= i < |r| ==> IsDigit(r[i])
    ensures |r| == Min(16, Count(raw, IsDigit))
    ensures r == Filter(raw, IsDigit)[..|r|]
  {
    Take(Filter(raw, IsDigit), 16)
  }

  /** Cleaning the field again changes nothing. */
  lemma CardDigitsIdempotent(raw: string)
    ensures CardDigits(CardDigits(raw)) == CardDigits(raw)
  {
    var r := CardDigits(raw);
    FilterAllPass(r, IsDigit);
  }

  lemma {:induction false} FilterAllPass<T>(s: seq<T>, p: T -> bool)
    requires forall i :: 0 <= i < |s| ==> p(s[i])
    ensures Filter(s, p) == s
    decreases |s|
  {
    if |s| > 0 {
      FilterAllPass(s[1..], p);
      assert [s[0]] + s[1..] == s;
    }
  }

  /** `number.slice(-4)`: the last four characters, or all of a shorter
      number. */
  function LastFour(number: string): (r: string)
    ensures |r| == Min(4, |number|)
    ensures r == number[|number| - |r|..]
  {
    if |number| <= 4 then number else number[|number| - 4..]
  }

  const MaskPrefix: string := "****-****-****-"

  /** The masked card shows only its last four digits. */
  function Mask(number: string): (r: string)
    ensures |r| == |MaskPrefix| + Min(4, |number|)
    ensures r[..|MaskPrefix|] == MaskPrefix && r[|MaskPrefix|..] == LastFour(number)
  {
    MaskPrefix + LastFour(number)
  }

  /** addPayment: nothing without an alias, a number and an amount;
      otherwise the card is appended and its amount is added to the
      available balance. */
  function AddPayment(s: Screen, alias: string, number: string, amount: Option<real>, id: string): (r: Screen)
    ensures alias == "" || number == "" || amount.None? ==> r == s
    ensures alias != "" && number != "" && amount.Some? ==>
              && r.payments == s.payments + [Payment(id, alias, Mask(number), amount.value)]
              && r.available == s.available + amount.value
              && r.pending == s.pending && r.deposits == s.deposits
  {
    if alias == "" || number == "" || amount.None? then s
    else s.(payments := s.payments + [Payment(id, alias, Mask(number), amount.value)],
            available := s.available + amount.value)
  }

  /** deletePayment: every card with the id goes, the rest stay in order;
      the balance keeps what the card added. */
  function DeletePayment(s: Screen, id: string): (r: Screen)
    ensures forall p :: p in r.payments <==> p in s.payments && p.id != id
    ensures IsSubseq(r.payments, s.payments)
    ensures r.available == s.available && r.pending == s.pending && r.deposits == s.deposits
  {
    s.(payments := Filter(s.payments, (p: Payment) => p.id != id))
  }

  /** Deleting a card just added under an unused id gives back the earlier
      list of cards. */
  lemma AddThenDelete(s: Screen, alias: string, number: string, amount: real, id: string)
    requires alias != "" && number != ""
    requires forall i :: 0 <= i < |s.payments| ==> s.payments[i].id != id
    ensures DeletePayment(AddPayment(s, alias, number, Some(amount), id), id).payments == s.payments
    ensures DeletePayment(AddPayment(s, alias, number, Some(amount), id), id).available == s.available + amount
  {
    var p := Payment(id, alias, Mask(number), amount);
    var keep := (q: Payment) => q.id != id;
    FilterAppend(s.payments, [p], keep);
    FilterAllPass(s.payments, keep);
    assert Filter([p], keep) == [];
  }

  /** addDeposit: nothing without an amount; otherwise a pending deposit is
      put first and its amount is added to the pending balance. */
  function AddDeposit(s: Screen, amount: Option<real>, id: string, reference: string): (r: Screen)
    ensures amount.None? ==> r == s
    ensures amount.Some? ==>
              && r.deposits == [Deposit(id, amount.value, "pending", reference)] + s.deposits
              && r.pending == s.pending + amount.value
              && r.available == s.available && r.payments == s.payments
  {
    if amount.None? then s
    else s.(deposits := [Deposit(id, amount.value, "pending", reference)] + s.deposits,
            pending := s.pending + amount.value)
  }

  function PendingAmount(d: Deposit): real {
    if d.status == "pending" then d.amount else 0.0
  }

  /** The pending balance is the sum of the deposits still pending. */
  predicate PendingMatches(s: Screen) {
    s.pending == SumBy(s.deposits, PendingAmount)
  }

  /** Adding deposits, adding cards and deleting cards keep the pending
      balance equal to the pending deposits. */
  lemma ScreenStepsKeepPending(s: Screen, amount: Option<real>, id: string, reference: string, alias: string, number: string)
    requires PendingMatches(s)
    ensures PendingMatches(AddDeposit(s, amount, id, reference))
    ensures PendingMatches(AddPayment(s, alias, number, amount, id))
    ensures PendingMatches(DeletePayment(s, id))
  {
    if amount.Some? {
      var d := Deposit(id, amount.value, "pending", reference);
      assert ([d] + s.deposits)[1..] == s.deposits;
    }
  }

  /** The timer's change to the deposit list: the deposit with the id is
      marked completed, the others are kept. */
  function MarkCompleted(ds: seq<Deposit>, id: string): (r: seq<Deposit>)
    ensures |r| == |ds|
    ensures forall i :: 0 <= i < |ds| ==> r[i].id == ds[i].id && r[i].amount == ds[i].amount
    ensures forall i :: 0 <= i < |ds| && ds[i].id == id ==> r[i].status == "completed"
    ensures forall i :: 0 <= i < |ds| && ds[i].id != id ==> r[i] == ds[i]
  {
    seq(|ds|, i requires 0 <= i < |ds| => if ds[i].id == id then ds[i].(status := "completed") else ds[i])
  }

  /** The completion addDeposit schedules, as written: the closure reads
      the balances of the screen it was created on, `before`, which is the
      screen as it was before the deposit was added. */
  function CompleteDepositAsWritten(s: Screen, before: Screen, id: string, amount: real): (r: Screen)
    ensures r.deposits == MarkCompleted(s.deposits, id) && r.payments == s.payments
    ensures r.pending == before.pending - amount && r.available == before.available + amount
  {
    s.(deposits := MarkCompleted(s.deposits, id), pending := before.pending - amount,
       available := before.available + amount)
  }

  /** The completion as intended: the amount moves from the current
      pending balance to the current available balance. */
  function CompleteDeposit(s: Screen, id: string, amount: real): (r: Screen)
    ensures r.deposits == MarkCompleted(s.deposits, id) && r.payments == s.payments
    ensures r.pending + r.available == s.pending + s.available
    ensures r.pending == s.pending - amount
  {
    s.(deposits := MarkCompleted(s.deposits, id), pending := s.pending - amount,
       available := s.available + amount)
  }

  /** Completing the newest deposit, when it is pending and its id is not
      used by an older one, removes exactly its amount from the pending
      sum. */
  lemma CompleteNewestPending(d: Deposit, rest: seq<Deposit>)
    requires d.status == "pending"
    requires forall i :: 0 <= i < |rest| ==> rest[i].id != d.id
    ensures SumBy(MarkCompleted([d] + rest, d.id), PendingAmount) == SumBy(rest, PendingAmount)
  {
    var r := MarkCompleted([d] + rest, d.id);
    assert r[1..] == rest by {
      forall i | 0 <= i < |rest| ensures r[1..][i] == rest[i] {
        assert ([d] + rest)[i + 1] == rest[i];
      }
    }
    assert r[0].status == "completed";
  }

  /** Adding a deposit and letting it complete keeps the pending balance
      equal to the deposits still pending, puts it back where it was, and
      moves the amount to the available balance. */
  lemma DepositCompletes(s: Screen, amount: real, id: string, reference: string)
    requires PendingMatches(s)
    requires forall i :: 0 <= i < |s.deposits| ==> s.deposits[i].id != id
    ensures var r := CompleteDeposit(AddDeposit(s, Some(amount), id, reference), id, amount);
            PendingMatches(r) && r.pending == s.pending && r.available == s.available + amount
  {
    var d := Deposit(id, amount, "pending", reference);
    CompleteNewestPending(d, s.deposits);
    assert ([d] + s.deposits)[1..] == s.deposits;
  }

  /** As written, the completion takes the amount off the pending balance
      from before the deposit was added, so the amount is taken off twice:
      the pending balance ends short of the pending deposits by it. */
  lemma StaleCompletionLosesPending(s: Screen, amount: real, id: string, reference: string)
    requires PendingMatches(s) && amount != 0.0
    requires forall i :: 0 <= i < |s.deposits| ==> s.deposits[i].id != id
    ensures var r := CompleteDepositAsWritten(AddDeposit(s, Some(amount), id, reference), s, id, amount);
            r.pending == SumBy(r.deposits, PendingAmount) - amount && !PendingMatches(r)
  {
    var d := Deposit(id, amount, "pending", reference);
    CompleteNewestPending(d, s.deposits);
  }

  /** A first deposit of 100 on an empty screen leaves a pending balance
      of −100 once it completes. */
  lemma FirstDepositLeavesNegativePending()
    ensures var s := Screen(0.0, 0.0, [], []);
            CompleteDepositAsWritten(AddDeposit(s, Some(100.0), "1", "DEP-1"), s, "1", 100.0).pending == -100.0
  {
  }
}

=== FILE: text.dfy ===
/** Strings as `seq<char>` and the handful of string operations the source
    uses: case mapping, whitespace trimming, substring search, splitting on
    one character and joining, decimal digits, and JavaScript's UTF-16
    length. Lower-casing covers the Latin-1 letters, upper-casing and
    whitespace cover ASCII only. */
module Text {
  import opened Base

  predicate IsSpace(c: char) {
    c == ' ' || c == '\t' || c == '\n' || c == '\r' || c as int == 11 || c as int == 12
  }

  predicate IsDigit(c: char) {
    '0' <= c <= '9'
  }

  predicate IsUpper(c: char) {
    'A' <= c <= 'Z'
  }

  predicate IsLower(c: char) {
    'a' <= c <= 'z'
  }

  /** The capitals of the Latin-1 Supplement, U+00C0 to U+00DE without
      the multiplication sign U+00D7: the accented capitals of Spanish
      ("Á", "É", "Í", "Ñ", "Ó", "Ú", "Ü") among them. */
  predicate IsLatin1Upper(c: char) {
    0xC0 <= c as int <= 0xDE && c as int != 0xD7
  }

  /** Lower-casing of one character: ASCII and Latin-1 capitals move 32
      code points down the table, as in Unicode; everything else is kept. */
  function LowerChar(c: char): char {
    if IsUpper(c) || IsLatin1Upper(c) then (c as int + 32) as char else c
  }

  /** A character of the ASCII range, where Python's and JavaScript's case
      mappings coincide with UpperChar and LowerChar. */
  predicate IsAscii(c: char) {
    c as int < 128
  }

  predicate AllAscii(s: string) {
    forall i :: 0 <= i < |s| ==> IsAscii(s[i])
  }

  function UpperChar(c: char): char {
    if IsLower(c) then (c as int - 32) as char else c
  }

  /** JavaScript `toLowerCase` / Python `lower` on ASCII and Latin-1
      letters. */
  function Lower(s: string): (r: string)
    ensures |r| == |s|
    ensures forall i :: 0 <= i < |s| ==> r[i] == LowerChar(s[i])
  {
    seq(|s|, i requires 0 <= i < |s| => LowerChar(s[i]))
  }

  /** JavaScript `toUpperCase` / Python `upper` on ASCII letters. */
  function Upper(s: string): (r: string)
    ensures |r| == |s|
    ensures forall i :: 0 <= i < |s| ==> r[i] == UpperChar(s[i])
  {
    seq(|s|, i requires 0 <= i < |s| => UpperChar(s[i]))
  }

  /** `sub` occurs in `s` at some position. */
  ghost predicate OccursIn(sub: string, s: string) {
    exists i :: OccursAt(sub, s, i)
  }

  /** `sub` occurs in `s` starting at index `i`. */
  predicate OccursAt(sub: string, s: string, i: int) {
    0 <= i <= |s| - |sub| && s[i..i + |sub|] == sub
  }

  /** JavaScript `s.includes(sub)`, Python `sub in s`. */
  function Contains(s: string, sub: string): (b: bool)
    ensures b <==> OccursIn(sub, s)
    decreases |s|
  {
    if |sub| > |s| then false
    else if s[..|sub|] == sub then
      assert OccursAt(sub, s, 0);
      true
    else
      OccursShift(sub, s);
      Contains(s[1..], sub)
  }

  /** When `sub` is not a prefix of `s`, it occurs in `s` exactly when it
      occurs in `s` without its first character. */
  lemma OccursShift(sub: string, s: string)
    requires |sub| <= |s| && s[..|sub|] != sub
    ensures OccursIn(sub, s) <==> OccursIn(sub, s[1..])
  {
    if OccursIn(sub, s) {
      var i :| OccursAt(sub, s, i);
      assert i != 0;
      assert s[1..][i - 1..i - 1 + |sub|] == sub;
      assert OccursAt(sub, s[1..], i - 1);
    }
    if OccursIn(sub, s[1..]) {
      var i :| OccursAt(sub, s[1..], i);
      assert s[i + 1..i + 1 + |sub|] == sub;
      assert OccursAt(sub, s, i + 1);
    }
  }

  /** Case-insensitive `includes`: both sides lower-cased first. */
  function ContainsIgnoreCase(s: string, sub: string): bool {
    Contains(Lower(s), Lower(sub))
  }

  /** Accented capitals fold to their small letters, so a search in
      lower case finds a name written with capitals. */
  lemma AccentedNamesFound()
    ensures Lower("Álvarez") == "álvarez" && ContainsIgnoreCase("Álvarez", "álvarez")
    ensures Lower("MUÑOZ") == "muñoz" && ContainsIgnoreCase("MUÑOZ", "ñoz")
  {
    assert Lower("Álvarez") == "álvarez";
    assert Lower("MUÑOZ") == "muñoz";
    assert Lower("ñoz") == "ñoz";
    assert OccursAt("ñoz", "muñoz", 2);
  }

  lemma EmptyOccurs(s: string)
    ensures OccursIn("", s)
  {
    assert OccursAt("", s, 0);
  }

  function TrimStart(s: string): (r: string)
    ensures |r| <= |s| && r == s[|s| - |r|..]
    ensures |r| > 0 ==> !IsSpace(r[0])
    ensures forall i :: 0 <= i < |s| - |r| ==> IsSpace(s[i])
  {
    if |s| > 0 && IsSpace(s[0]) then TrimStart(s[1..]) else s
  }

  function TrimEnd(s: string): (r: string)
    ensures |r| <= |s| && r == s[..|r|]
    ensures |r| > 0 ==> !IsSpace(r[|r| - 1])
    ensures forall i :: |r| <= i < |s| ==> IsSpace(s[i])
  {
    if |s| > 0 && IsSpace(s[|s| - 1]) then TrimEnd(s[..|s| - 1]) else s
  }

  /** JavaScript `trim`, Python `strip()`: the longest slice of `s` that
      neither starts nor ends with whitespace, everything outside it being
      whitespace. */
  function Trim(s: string): (r: string)
    ensures |r| <= |s|
    ensures exists i :: TrimmedAt(s, r, i)
    ensures |r| > 0 ==> !IsSpace(r[0]) && !IsSpace(r[|r| - 1])
  {
    var t := TrimStart(s);
    TrimmedSlice(s, t, TrimEnd(t));
    TrimEnd(t)
  }

  /** A suffix of `s` after whitespace, cut back to a prefix followed by
      whitespace, is a slice of `s` with whitespace on both sides. */
  lemma TrimmedSlice(s: string, t: string, r: string)
    requires |t| <= |s| && t == s[|s| - |t|..]
    requires forall k :: 0 <= k < |s| - |t| ==> IsSpace(s[k])
    requires |r| <= |t| && r == t[..|r|]
    requires forall k :: |r| <= k < |t| ==> IsSpace(t[k])
    ensures TrimmedAt(s, r, |s| - |t|)
  {
    var i := |s| - |t|;
    assert r == s[i..i + |r|];
    forall k | i + |r| <= k < |s| ensures IsSpace(s[k]) {
      assert s[k] == t[k - i];
    }
  }

  /** `r` is the slice of `s` starting at `i`, and everything in `s` before
      and after that slice is whitespace. */
  predicate TrimmedAt(s: string, r: string, i: int) {
    && 0 <= i <= |s| - |r| && r == s[i..i + |r|]
    && (forall k :: 0 <= k < i ==> IsSpace(s[k]))
    && (forall k :: i + |r| <= k < |s| ==> IsSpace(s[k]))
  }

  /** A string made of whitespace only trims to the empty string, and one
      with a non-whitespace character does not. */
  lemma TrimEmptyIff(s: string)
    ensures Trim(s) == "" <==> forall k :: 0 <= k < |s| ==> IsSpace(s[k])
  {
    var r := Trim(s);
    if r == "" {
      var i :| TrimmedAt(s, r, i);
      assert forall k :: 0 <= k < |s| ==> IsSpace(s[k]) by {
        forall k | 0 <= k < |s| ensures IsSpace(s[k]) {
          if k >= i { assert i + |r| <= k; }
        }
      }
    } else {
      assert !IsSpace(r[0]);
    }
  }

  /** A string that neither starts nor ends with whitespace trims to
      itself. */
  lemma TrimOfTrimmed(s: string)
    requires |s| > 0 ==> !IsSpace(s[0]) && !IsSpace(s[|s| - 1])
    ensures Trim(s) == s
  {
    if |s| > 0 {
      assert TrimStart(s) == s;
      assert TrimEnd(s) == s;
    }
  }

  /** Join with a one-character separator: JavaScript `parts.join(sep)`,
      Python `sep.join(parts)`. */
  function Join(parts: seq<string>, sep: char): string
    decreases |parts|
  {
    if |parts| == 0 then ""
    else if |parts| == 1 then parts[0]
    else parts[0] + [sep] + Join(parts[1..], sep)
  }

  /** The joined string starts with the first part, followed by the
      separator when there are more parts. */
  lemma JoinHead(parts: seq<string>, sep: char)
    requires |parts| >= 1
    ensures |parts[0]| <= |Join(parts, sep)| && Join(parts, sep)[..|parts[0]|] == parts[0]
    ensures |parts| == 1 ==> Join(parts, sep) == parts[0]
    ensures |parts| > 1 ==> |parts[0]| < |Join(parts, sep)| && Join(parts, sep)[|parts[0]|] == sep
  {
    if |parts| > 1 {
      var j := parts[0] + [sep] + Join(parts[1..], sep);
      assert j[..|parts[0]|] == parts[0];
    }
  }

  /** Split on every occurrence of one character, keeping empty pieces:
      JavaScript `s.split(sep)` and Python `s.split(sep)`. Joining the
      pieces back gives `s`. */
  function Split(s: string, sep: char): (parts: seq<string>)
    ensures |parts| >= 1
    ensures forall i :: 0 <= i < |parts| ==> sep !in parts[i]
    ensures Join(parts, sep) == s
    decreases |s|
  {
    if |s| == 0 then [""]
    else if s[0] == sep then
      var rest := Split(s[1..], sep);
      assert Join([""] + rest, sep) == [sep] + Join(rest, sep) by {
        assert ([""] + rest)[1..] == rest;
      }
      assert [sep] + s[1..] == s;
      [""] + rest
    else
      var rest := Split(s[1..], sep);
      var parts := [[s[0]] + rest[0]] + rest[1..];
      assert Join(parts, sep) == [s[0]] + Join(rest, sep) by {
        if |rest| > 1 {
          assert parts[1..] == rest[1..];
        }
      }
      assert [s[0]] + s[1..] == s;
      parts
  }

  /** Splitting a join of separator-free pieces gives the pieces back. */
  lemma {:induction false} SplitJoin(parts: seq<string>, sep: char)
    requires |parts| >= 1
    requires forall i :: 0 <= i < |parts| ==> sep !in parts[i]
    ensures Split(Join(parts, sep), sep) == parts
    decreases |parts|, |parts[0]|
  {
    if |parts[0]| == 0 {
      if |parts| > 1 {
        var tail := parts[1..];
        SplitJoin(tail, sep);
        var s := Join(parts, sep);
        assert s == [sep] + Join(tail, sep);
        SplitCons(sep, Join(tail, sep), sep);
        assert parts == [""] + tail;
      }
    } else {
      var c := parts[0][0];
      var shorter := [parts[0][1..]] + parts[1..];
      ShorterPieces(parts, sep);
      SplitJoin(shorter, sep);
      assert c != sep by { assert c in parts[0]; }
      JoinFirstChar(parts, sep);
      SplitCons(c, Join(shorter, sep), sep);
      assert [c] + parts[0][1..] == parts[0];
    }
  }

  /** Splitting a string with one more character in front: a separator
      opens a new empty piece, any other character joins the first piece. */
  lemma SplitCons(c: char, s: string, sep: char)
    ensures c == sep ==> Split([c] + s, sep) == [""] + Split(s, sep)
    ensures c != sep ==> Split([c] + s, sep) == [[c] + Split(s, sep)[0]] + Split(s, sep)[1..]
  {
    assert ([c] + s)[1..] == s;
  }

  /** Dropping the first character of the first piece keeps the pieces
      free of the separator. */
  lemma ShorterPieces(parts: seq<string>, sep: char)
    requires |parts| >= 1 && |parts[0]| > 0
    requires forall i :: 0 <= i < |parts| ==> sep !in parts[i]
    ensures forall i :: 0 <= i < |[parts[0][1..]] + parts[1..]| ==> sep !in ([parts[0][1..]] + parts[1..])[i]
  {
    var shorter := [parts[0][1..]] + parts[1..];
    forall i | 0 <= i < |shorter| ensures sep !in shorter[i] {
      if i == 0 {
        assert forall x :: x in parts[0][1..] ==> x in parts[0];
      } else {
        assert shorter[i] == parts[i];
      }
    }
  }

  /** A join whose first piece is not empty starts with that piece's first
      character, followed by the join with that character removed. */
  lemma JoinFirstChar(parts: seq<string>, sep: char)
    requires |parts| >= 1 && |parts[0]| > 0
    ensures Join(parts, sep) == [parts[0][0]] + Join([parts[0][1..]] + parts[1..], sep)
  {
    var c := parts[0][0];
    var shorter := [parts[0][1..]] + parts[1..];
    assert parts[0] == [c] + parts[0][1..];
    if |parts| > 1 {
      assert shorter[1..] == parts[1..];
    }
  }

  function DigitChar(d: int): char
    requires 0 <= d < 10
  {
    ('0' as int + d) as char
  }

  function DigitValue(c: char): int
    requires IsDigit(c)
  {
    c as int - '0' as int
  }

  /** Python `str(n)` / JavaScript `n.toString()` for a natural number:
      decimal digits, no leading zero. */
  function NatToString(n: nat): (s: string)
    ensures |s| >= 1
    ensures forall i :: 0 <= i < |s| ==> IsDigit(s[i])
    ensures |s| > 1 ==> s[0] != '0'
    decreases n
  {
    if n < 10 then [DigitChar(n)] else NatToString(n / 10) + [DigitChar(n % 10)]
  }

  /** The value of a string of decimal digits. */
  function DigitsValue(s: string): nat
    requires forall i :: 0 <= i < |s| ==> IsDigit(s[i])
    decreases |s|
  {
    if |s| == 0 then 0
    else DigitsValue(s[..|s| - 1]) * 10 + DigitValue(s[|s| - 1])
  }

  /** Reading back the digits of a number gives the number. */
  lemma {:induction false} DigitsOfNat(n: nat)
    ensures DigitsValue(NatToString(n)) == n
    decreases n
  {
    var s := NatToString(n);
    if n >= 10 {
      DigitsOfNat(n / 10);
      assert s[..|s| - 1] == NatToString(n / 10);
    }
  }

  /** The longest prefix of decimal digits. */
  function LeadingDigits(s: string): (d: string)
    ensures |d| <= |s| && d == s[..|d|]
    ensures forall i :: 0 <= i < |d| ==> IsDigit(d[i])
    ensures |d| < |s| ==> !IsDigit(s[|d|])
    decreases |s|
  {
    if |s| == 0 || !IsDigit(s[0]) then "" else [s[0]] + LeadingDigits(s[1..])
  }

  /** JavaScript `parseInt(s)` for decimal input: leading whitespace, an
      optional sign, then the longest run of digits; None (NaN) when there
      is no digit. */
  function ParseInt(s: string): (r: Option<int>)
  {
    var t := TrimStart(s);
    var negative := |t| > 0 && t[0] == '-';
    var rest := if |t| > 0 && (t[0] == '-' || t[0] == '+') then t[1..] else t;
    var d := LeadingDigits(rest);
    if |d| == 0 then None
    else if negative then Some(-(DigitsValue(d) as int))
    else Some(DigitsValue(d) as int)
  }

  /** The digits of a number followed by anything that is not a digit
      lead back to the number. */
  lemma {:induction false} LeadingDigitsOfNat(digits: string, suffix: string)
    requires forall i :: 0 <= i < |digits| ==> IsDigit(digits[i])
    requires |suffix| > 0 ==> !IsDigit(suffix[0])
    ensures LeadingDigits(digits + suffix) == digits
    decreases |digits|
  {
    if |digits| > 0 {
      LeadingDigitsOfNat(digits[1..], suffix);
      assert (digits + suffix)[1..] == digits[1..] + suffix;
    } else {
      assert digits + suffix == suffix;
    }
  }

  /** `parseInt(String(n) + suffix)` is n when the suffix does not start
      with a digit ("250", "250px", "250.75"). */
  lemma ParseIntOfNat(n: nat, suffix: string)
    requires |suffix| > 0 ==> !IsDigit(suffix[0])
    ensures ParseInt(NatToString(n) + suffix) == Some(n)
  {
    var d := NatToString(n);
    var s := d + suffix;
    assert s[0] == d[0];
    LeadingDigitsOfNat(d, suffix);
    ParseIntOfDigitStart(s);
    DigitsOfNat(n);
  }

  /** Text that starts with a digit reads as its leading digits. */
  lemma ParseIntOfDigitStart(s: string)
    requires |s| > 0 && IsDigit(s[0])
    ensures |LeadingDigits(s)| > 0
    ensures ParseInt(s) == Some(DigitsValue(LeadingDigits(s)) as int)
  {
    assert !IsSpace(s[0]) && s[0] != '-' && s[0] != '+';
    assert TrimStart(s) == s;
    assert LeadingDigits(s) == [s[0]] + LeadingDigits(s[1..]);
  }

  /** A name cut at its first space: the text before it, and the rest
      (`s.split(' ')[0]` and the remaining pieces joined by one space),
      the rest being empty when there is no space. */
  function SplitFirstWord(name: string): (r: (string, string))
    ensures ' ' !in r.0
    ensures ' ' !in name ==> r == (name, "")
    ensures ' ' in name ==> name == r.0 + " " + r.1
  {
    if name == "" then ("", "")
    else
      var parts := Split(name, ' ');
      var first := parts[0];
      var last := if |parts| > 1 then Join(parts[1..], ' ') else "";
      JoinHead(parts, ' ');
      if |parts| > 1 then
        assert Join(parts, ' ') == first + [' '] + last;
        (first, last)
      else
        assert name == first;
        (first, last)
  }


  /** Cutting "first rest" at its first space gives back the two parts
      whenever the first part has no space. */
  lemma SplitFirstWordOf(a: string, b: string)
    requires ' ' !in a
    ensures SplitFirstWord(a + " " + b) == (a, b)
  {
    var name := a + " " + b;
    var r := SplitFirstWord(name);
    assert ' ' in name by {
      assert name[|a|] == ' ';
    }
    assert forall k :: 0 <= k < |a| ==> name[k] == a[k];
    assert forall k :: 0 <= k < |r.0| ==> name[k] == r.0[k];
    assert name[|a|] == ' ' && name[|r.0|] == ' ';
    assert |r.0| == |a|;
    assert name[..|a|] == a && name[..|r.0|] == r.0;
    assert name[|a| + 1..] == b && name[|r.0| + 1..] == r.1;
  }

  /** The number of UTF-16 code units a character takes: two above U+FFFF,
      one otherwise. */
  function Utf16Units(c: char): nat {
    if c as int > 0xFFFF then 2 else 1
  }

  /** JavaScript's `length` of a string: its UTF-16 code units, which is
      more than its number of characters when it holds any character above
      U+FFFF (an emoji, say). */
  function Utf16Length(s: string): (n: nat)
    ensures |s| <= n <= 2 * |s|
    decreases |s|
  {
    if |s| == 0 then 0 else Utf16Units(s[0]) + Utf16Length(s[1..])
  }

  /** All characters lie in the Basic Multilingual Plane. */
  predicate InBmp(s: string) {
    forall i :: 0 <= i < |s| ==> s[i] as int <= 0xFFFF
  }

  /** The UTF-16 length is the number of characters exactly when no
      character lies above U+FFFF. */
  lemma {:induction false} Utf16LengthBmp(s: string)
    ensures Utf16Length(s) == |s| <==> InBmp(s)
    decreases |s|
  {
    if |s| > 0 {
      Utf16LengthBmp(s[1..]);
      assert forall i :: 1 <= i < |s| ==> s[i] == s[1..][i - 1];
    }
  }

  /** The UTF-16 length adds up over concatenation. */
  lemma {:induction false} Utf16LengthAppend(a: string, b: string)
    ensures Utf16Length(a + b) == Utf16Length(a) + Utf16Length(b)
    decreases |a|
  {
    if |a| > 0 {
      Utf16LengthAppend(a[1..], b);
      assert (a + b)[0] == a[0];
      assert (a + b)[1..] == a[1..] + b;
    } else {
      assert a + b == b;
    }
  }
}

=== FILE: trading.dfy ===
/** The trading screen of frontend/src/components/screens/Trading.tsx: the
    chart's vertical range, the thinning of the price history, the 72-hour
    history cache, and the local portfolio and balance update after the
    server accepts a trade. Storage and the network are parameters. */
module Trading {
  import opened Base

  /** Smallest element of a non-empty sequence (`Math.min(...xs)`). */
  function SeqMin(xs: seq<real>): (m: real)
    requires |xs| > 0
    ensures m in xs
    ensures forall i :: 0 <= i < |xs| ==> m <= xs[i]
    decreases |xs|
  {
    if |xs| == 1 then xs[0]
    else
      var rest := SeqMin(xs[1..]);
      assert forall i :: 1 <= i < |xs| ==> xs[i] == xs[1..][i - 1];
      MinReal(xs[0], rest)
  }

  /** Largest element of a non-empty sequence (`Math.max(...xs)`). */
  function SeqMax(xs: seq<real>): (m: real)
    requires |xs| > 0
    ensures m in xs
    ensures forall i :: 0 <= i < |xs| ==> xs[i] <= m
    decreases |xs|
  {
    if |xs| == 1 then xs[0]
    else
      var rest := SeqMax(xs[1..]);
      assert forall i :: 1 <= i < |xs| ==> xs[i] == xs[1..][i - 1];
      MaxReal(xs[0], rest)
  }

  /** The margin added above and below the prices: 10 when they span less
      than 10, otherwise a tenth of the span. */
  function Padding(range: real): (p: real)
    ensures p > 0.0 || range <= 0.0
    ensures range < 10.0 ==> p == 10.0
    ensures range >= 10.0 ==> p == range / 10.0 && p >= 1.0
  {
    if range < 10.0 then 10.0 else range * 0.1
  }

  /** calculateYAxisDomain: [0, 100] without data; otherwise the price span
      widened by the padding on both sides, never below 0. */
  function YAxisDomain(prices: seq<real>): (d: (real, real))
    ensures |prices| == 0 ==> d == (0.0, 100.0)
    ensures d.0 >= 0.0
    ensures |prices| > 0 && SeqMax(prices) >= 0.0 ==> d.0 < d.1
    ensures forall i :: 0 <= i < |prices| ==> prices[i] <= d.1
    ensures forall i :: 0 <= i < |prices| && prices[i] >= 0.0 ==> d.0 <= prices[i]
    ensures |prices| > 0 ==>
              var lo, hi := SeqMin(prices), SeqMax(prices);
              d.1 == hi + Padding(hi - lo) && d.0 == MaxReal(0.0, lo - Padding(hi - lo))
  {
    if |prices| == 0 then (0.0, 100.0)
    else
      var lo, hi := SeqMin(prices), SeqMax(prices);
      var pad := Padding(hi - lo);
      (MaxReal(0.0, lo - pad), hi + pad)
  }

  /** The stride of convertHistoricalToPricePoints: one point in every
      ⌊n/50⌋, and every point for fewer than 100. */
  function Stride(n: nat): (step: nat)
    ensures step >= 1
    ensures n < 100 ==> step == 1
  {
    Max(1, n / 50)
  }

  /** Moving one index forward adds one to the quotient exactly when the
      new index is a multiple. */
  lemma DivStep(i: nat, step: nat)
    requires step >= 1 && i >= 1
    ensures i / step == (i - 1) / step + (if i % step == 0 then 1 else 0)
  {
    var q, m := (i - 1) / step, (i - 1) % step;
    assert i == q * step + m + 1;
    if m + 1 == step {
      DivModUnique(i, step, q + 1, 0);
    } else {
      DivModUnique(i, step, q, m + 1);
    }
  }

  lemma DivModUnique(i: nat, step: nat, q: nat, m: nat)
    requires step >= 1 && m < step && i == q * step + m
    ensures i / step == q && i % step == m
  {
    var q', m' := i / step, i % step;
    assert q' * step + m' == q * step + m;
    if q' > q {
      MulMonotone(q + 1, q', step);
      assert false;
    } else if q' < q {
      MulMonotone(q' + 1, q, step);
      assert false;
    }
  }

  lemma MulMonotone(a: nat, b: nat, c: nat)
    requires a <= b
    ensures a * c <= b * c
  {
  }

  /** Counting the multiples of `step` below `i` and below `i + 1`. */
  lemma CountStep(i: nat, step: nat, c: nat)
    requires step >= 1
    requires c == if i == 0 then 0 else (i - 1) / step + 1
    ensures i % step == 0 ==> c * step == i
    ensures i / step + 1 == c + (if i % step == 0 then 1 else 0)
  {
    if i > 0 {
      DivStep(i, step);
    }
    if i % step == 0 && i > 0 {
      DivModUnique(i, step, i / step, 0);
    }
  }

  /** convertHistoricalToPricePoints: keep the points whose index is a
      multiple of the stride, in order. */
  method Downsample<T>(s: seq<T>) returns (r: seq<T>)
    ensures |s| == 0 <==> |r| == 0
    ensures |s| > 0 ==> |r| == (|s| - 1) / Stride(|s|) + 1 && r[0] == s[0]
    ensures forall k :: 0 <= k < |r| ==> k * Stride(|s|) < |s| && r[k] == s[k * Stride(|s|)]
    ensures |r| <= |s|
  {
    var step := Stride(|s|);
    r := [];
    var i := 0;
    while i < |s|
      invariant 0 <= i <= |s|
      invariant |r| == if i == 0 then 0 else (i - 1) / step + 1
      invariant |r| <= i
      invariant forall k :: 0 <= k < |r| ==> k * step < i && r[k] == s[k * step]
    {
      CountStep(i, step, |r|);
      if i % step == 0 {
        r := r + [s[i]];
      }
      i := i + 1;
    }
  }

  /** How long a stored price history is trusted: 72 hours, in
      milliseconds. */
  const CacheLifetime: int := 72 * 60 * 60 * 1000

  /** A stored price history and the time it was stored. */
  datatype Cached<T> = Cached(timestamp: int, data: seq<T>)

  /** What the history request gave: an exception, a reply without
      `success`/`historical`, or the history. */
  datatype Fetch<T> = Threw | Unsuccessful | Fetched(data: seq<T>)

  predicate Fresh<T>(c: Cached<T>, now: int) {
    now - c.timestamp < CacheLifetime
  }

  /** getHistoricalDataWithCache: a stored history younger than 72 hours is
      used without asking the server; otherwise a fetched history is used
      and stored with the current time, an unsuccessful reply gives no
      points, and a failed request falls back to the stored history
      however old. Returns the points and the cache afterwards. */
  function LoadHistory<T>(cache: Option<Cached<T>>, now: int, fetch: Fetch<T>): (r: (seq<T>, Option<Cached<T>>))
    ensures cache.Some? && Fresh(cache.value, now) ==> r == (cache.value.data, cache)
    ensures !(cache.Some? && Fresh(cache.value, now)) ==>
              match fetch
              case Fetched(d) => r == (d, Some(Cached(now, d)))
              case Unsuccessful => r == ([], cache)
              case Threw => r.1 == cache && r.0 == (if cache.Some? then cache.value.data else [])
  {
    if cache.Some? && Fresh(cache.value, now) then (cache.value.data, cache)
    else
      match fetch
      case Fetched(d) => (d, Some(Cached(now, d)))
      case Unsuccessful => ([], cache)
      case Threw => (if cache.Some? then cache.value.data else [], cache)
  }

  /** A history fetched at `t` is served from storage, whatever the server
      would answer, until 72 hours have passed. */
  lemma FetchedHistoryIsReused<T>(cache: Option<Cached<T>>, t: int, d: seq<T>, later: int, fetch: Fetch<T>)
    requires !(cache.Some? && Fresh(cache.value, t))
    requires t <= later < t + CacheLifetime
    ensures LoadHistory(LoadHistory(cache, t, Fetched(d)).1, later, fetch) == (d, Some(Cached(t, d)))
  {
  }

  /** After 72 hours the server is asked again. */
  lemma ExpiredHistoryIsRefetched<T>(d: seq<T>, t: int, later: int, e: seq<T>)
    requires later >= t + CacheLifetime
    ensures LoadHistory(Some(Cached(t, d)), later, Fetched(e)) == (e, Some(Cached(later, e)))
  {
  }

  /** A locally kept position. The average price is None once it has become
      NaN or infinite through a division by zero. */
  datatype Position = Position(shares: real, averagePrice: Option<real>)

  type Portfolio = map<string, Position>

  datatype Side = Buy | Sell

  function TradeTotal(count: real, price: real): real {
    count * price
  }

  function Invested(shares: real, average: real): real {
    shares * average
  }

  /** The local portfolio after a buy: a new symbol gets the bought shares
      at the trade price; a held one gets the added shares and the average
      of old and new cost over all shares. */
  function ApplyBuy(p: Portfolio, symbol: string, count: real, price: real): (q: Portfolio)
    ensures q.Keys == p.Keys + {symbol}
    ensures forall s :: s in p && s != symbol ==> q[s] == p[s]
    ensures symbol !in p ==> q[symbol] == Position(count, Some(price))
    ensures symbol in p ==> q[symbol].shares == p[symbol].shares + count
    ensures symbol in p && p[symbol].averagePrice.Some? && q[symbol].shares != 0.0 ==>
              q[symbol].averagePrice.Some?
              && Invested(q[symbol].shares, q[symbol].averagePrice.value)
                 == Invested(p[symbol].shares, p[symbol].averagePrice.value) + TradeTotal(count, price)
    ensures symbol in p && q[symbol].shares == 0.0 ==> q[symbol].averagePrice.None?
  {
    if symbol in p then
      var cur := p[symbol];
      var total := cur.shares + count;
      var average :=
        if total == 0.0 || cur.averagePrice.None? then None
        else Some((Invested(cur.shares, cur.averagePrice.value) + TradeTotal(count, price)) / total);
      p[symbol := Position(total, average)]
    else p[symbol := Position(count, Some(price))]
  }

  /** The local portfolio after a sell: the shares of a held symbol drop by
      the count and the entry goes only when exactly zero remain; the
      average price stays; an unheld symbol changes nothing. */
  function ApplySell(p: Portfolio, symbol: string, count: real): (q: Portfolio)
    ensures symbol !in p ==> q == p
    ensures symbol in p && p[symbol].shares == count ==> q == p - {symbol}
    ensures symbol in p && p[symbol].shares != count ==>
              q == p[symbol := Position(p[symbol].shares - count, p[symbol].averagePrice)]
  {
    if symbol in p then
      var left := p[symbol].shares - count;
      if left == 0.0 then p - {symbol} else p[symbol := p[symbol].(shares := left)]
    else p
  }

  /** The balance moves by the trade total, down for a buy and up for a
      sell, without any check that it suffices. */
  function ApplyBalance(balance: real, side: Side, count: real, price: real): (b: real)
    ensures side == Buy ==> b == balance - TradeTotal(count, price)
    ensures side == Sell ==> b == balance + TradeTotal(count, price)
  {
    match side
    case Buy => balance - TradeTotal(count, price)
    case Sell => balance + TradeTotal(count, price)
  }

  /** handleTrade after the server accepted the trade. */
  function ApplyTrade(p: Portfolio, balance: real, side: Side, symbol: string, count: real, price: real): (r: (Portfolio, real))
    ensures r.1 == ApplyBalance(balance, side, count, price)
    ensures side == Buy ==> r.0 == ApplyBuy(p, symbol, count, price)
    ensures side == Sell ==> r.0 == ApplySell(p, symbol, count)
  {
    var q := if side == Buy then ApplyBuy(p, symbol, count, price) else ApplySell(p, symbol, count);
    (q, ApplyBalance(balance, side, count, price))
  }

  /** Buying a symbol not held and selling the same count at the same price
      restores both the portfolio and the balance. */
  lemma BuyThenSellRestores(p: Portfolio, balance: real, symbol: string, count: real, price: real)
    requires symbol !in p && count != 0.0
    ensures var (p1, b1) := ApplyTrade(p, balance, Buy, symbol, count, price);
            ApplyTrade(p1, b1, Sell, symbol, count, price) == (p, balance)
  {
    var p1 := ApplyBuy(p, symbol, count, price);
    assert p1 - {symbol} == p;
  }

  /** The balance can go negative: buying 2 at 100 with 50 available. */
  lemma BuyCanOverdraw()
    ensures ApplyTrade(map[], 50.0, Buy, "AAPL", 2.0, 100.0).1 == -150.0
  {
  }

  /** Selling more shares than held keeps a negative position. */
  lemma OversellKeepsNegativePosition()
    ensures var p := map["AAPL" := Position(1.0, Some(10.0))];
            ApplySell(p, "AAPL", 3.0) == map["AAPL" := Position(-2.0, Some(10.0))]
  {
  }
}

=== FILE: valuation.dfy ===
/** How the front end values a portfolio: the holdings screen of
    frontend/src/components/screens/Portfolio.tsx (positions kept in the
    browser, priced with the server's quotes) and the summary cards of
    frontend/src/app/dashboard/page.tsx (sums over the server's holdings).
    JavaScript divisions by zero give NaN or Infinity; both are None here. */
module Valuation {
  import opened Base
  import opened Seqs

  /** A quote from the popular-stocks endpoint. */
  datatype Quote = Quote(name: string, price: real)

  /** A stored position, as Object.entries yields it. */
  datatype Entry = Entry(symbol: string, shares: real, averagePrice: real)

  datatype Holding = Holding(
    symbol: string, name: string, shares: real, avgPrice: real, currentPrice: real,
    investedTotal: real, totalValue: real, gainLoss: real,
    gainLossPercent: Option<real>, allocation: Option<real>)

  function Times(a: real, b: real): real { a * b }

  /** The market price when a non-zero quote exists, else the average
      price paid (`stock?.price || position.averagePrice`). */
  function CurrentPrice(e: Entry, quotes: map<string, Quote>): (p: real)
    ensures e.symbol in quotes && quotes[e.symbol].price != 0.0 ==> p == quotes[e.symbol].price
    ensures !(e.symbol in quotes && quotes[e.symbol].price != 0.0) ==> p == e.averagePrice
  {
    if e.symbol in quotes && quotes[e.symbol].price != 0.0 then quotes[e.symbol].price else e.averagePrice
  }

  /** One holding before its allocation is known. */
  function HoldingOf(e: Entry, quotes: map<string, Quote>): (h: Holding)
    ensures h.symbol == e.symbol && h.shares == e.shares && h.avgPrice == e.averagePrice
    ensures h.investedTotal == Times(e.shares, e.averagePrice)
    ensures h.totalValue == Times(e.shares, h.currentPrice)
    ensures h.gainLoss == h.totalValue - h.investedTotal
    ensures h.investedTotal == 0.0 <==> h.gainLossPercent.None?
    ensures h.gainLossPercent.Some? ==> h.gainLossPercent.value * h.investedTotal == h.gainLoss * 100.0
    ensures h.allocation.None?
  {
    var current := CurrentPrice(e, quotes);
    var name := if e.symbol in quotes && quotes[e.symbol].name != "" then quotes[e.symbol].name else e.symbol;
    var invested := Times(e.shares, e.averagePrice);
    var value := Times(e.shares, current);
    var gain := value - invested;
    Holding(e.symbol, name, e.shares, e.averagePrice, current, invested, value, gain,
            if invested == 0.0 then None else Some(gain / invested * 100.0), None)
  }

  /** Without a market quote a holding is valued at cost: no gain or loss. */
  lemma UnquotedHoldingHasNoGain(e: Entry, quotes: map<string, Quote>)
    requires e.symbol !in quotes
    ensures HoldingOf(e, quotes).currentPrice == e.averagePrice
    ensures HoldingOf(e, quotes).gainLoss == 0.0
  {
  }

  function ValueOf(h: Holding): real { h.totalValue }
  function GainOf(h: Holding): real { h.gainLoss }
  function InvestedOf(h: Holding): real { h.investedTotal }
  function AllocationOf(h: Holding): real { h.allocation.GetOr(0.0) }

  /** Each holding's share of the total value, in percent. */
  function Allocate(hs: seq<Holding>, total: real): (r: seq<Holding>)
    ensures |r| == |hs|
    ensures forall i :: 0 <= i < |hs| ==> r[i] == hs[i].(allocation := r[i].allocation)
    ensures forall i :: 0 <= i < |hs| ==>
              r[i].allocation == if total == 0.0 then None else Some(hs[i].totalValue / total * 100.0)
  {
    seq(|hs|, i requires 0 <= i < |hs| =>
      hs[i].(allocation := if total == 0.0 then None else Some(hs[i].totalValue / total * 100.0)))
  }

  /** loadPortfolioData on a successful quote reply: one holding per stored
      position, in the same order, with its allocation of the total. */
  function Holdings(entries: seq<Entry>, quotes: map<string, Quote>): (r: seq<Holding>)
    ensures |r| == |entries|
    ensures forall i :: 0 <= i < |r| ==> r[i].symbol == entries[i].symbol && r[i].shares == entries[i].shares
  {
    var hs := Priced(entries, quotes);
    Allocate(hs, SumBy(hs, ValueOf))
  }

  /** The holdings before allocation. */
  function Priced(entries: seq<Entry>, quotes: map<string, Quote>): (hs: seq<Holding>)
    ensures |hs| == |entries|
    ensures forall i :: 0 <= i < |hs| ==> hs[i] == HoldingOf(entries[i], quotes)
  {
    seq(|entries|, i requires 0 <= i < |entries| => HoldingOf(entries[i], quotes))
  }

  /** Scaling every term scales the sum. */
  lemma {:induction false} SumByScale<T>(s: seq<T>, f: T -> real, g: T -> real, k: real)
    requires forall i :: 0 <= i < |s| ==> g(s[i]) == f(s[i]) * k
    ensures SumBy(s, g) == SumBy(s, f) * k
    decreases |s|
  {
    if |s| > 0 {
      assert forall i :: 0 <= i < |s| - 1 ==> s[1..][i] == s[i + 1];
      SumByScale(s[1..], f, g, k);
    }
  }

  /** Allocating leaves every value as it was. */
  lemma AllocateKeepsValues(hs: seq<Holding>, total: real)
    ensures SumBy(Allocate(hs, total), ValueOf) == SumBy(hs, ValueOf)
    ensures SumBy(Allocate(hs, total), GainOf) == SumBy(hs, GainOf)
    ensures SumBy(Allocate(hs, total), InvestedOf) == SumBy(hs, InvestedOf)
  {
    var r := Allocate(hs, total);
    SumByPointwise(r, hs, ValueOf);
    SumByPointwise(r, hs, GainOf);
    SumByPointwise(r, hs, InvestedOf);
  }

  /** Each allocation is its holding's value times 100 / total. */
  lemma AllocationsScaleValues(hs: seq<Holding>, total: real)
    requires total != 0.0
    ensures SumBy(Allocate(hs, total), AllocationOf) == SumBy(Allocate(hs, total), ValueOf) * (100.0 / total)
  {
    var r := Allocate(hs, total);
    var k := 100.0 / total;
    forall i | 0 <= i < |r| ensures AllocationOf(r[i]) == ValueOf(r[i]) * k {
      var v := hs[i].totalValue;
      assert ValueOf(r[i]) == v;
      assert AllocationOf(r[i]) == v / total * 100.0;
      DivScale(v, total);
    }
    SumByScale(r, ValueOf, AllocationOf, k);
  }

  lemma DivScale(v: real, total: real)
    requires total != 0.0
    ensures v / total * 100.0 == v * (100.0 / total)
  {
  }

  /** With a non-zero total value the allocations add up to 100 percent. */
  lemma AllocationsSumTo100(entries: seq<Entry>, quotes: map<string, Quote>)
    requires SumBy(Holdings(entries, quotes), ValueOf) != 0.0
    ensures SumBy(Holdings(entries, quotes), AllocationOf) == 100.0
  {
    var hs := Priced(entries, quotes);
    var total := SumBy(hs, ValueOf);
    var r := Allocate(hs, total);
    assert Holdings(entries, quotes) == r;
    AllocateKeepsValues(hs, total);
    AllocationsScaleValues(hs, total);
    Inverse(total);
  }

  lemma Inverse(t: real)
    requires t != 0.0
    ensures t * (100.0 / t) == 100.0
  {
  }

  /** The totals under the holdings table. */
  datatype Totals = Totals(totalValue: real, totalGainLoss: real, totalGainLossPercent: Option<real>, isProfit: bool)

  /** Total value and gain are plain sums; the gain percent is relative to
      the value less the gain, and 0 unless the total value is positive. */
  function TotalsOf(hs: seq<Holding>): (t: Totals)
    ensures t.totalValue == SumBy(hs, ValueOf) && t.totalGainLoss == SumBy(hs, GainOf)
    ensures t.totalValue <= 0.0 ==> t.totalGainLossPercent == Some(0.0)
    ensures t.totalValue > 0.0 && t.totalGainLossPercent.Some? ==>
              t.totalGainLossPercent.value * (t.totalValue - t.totalGainLoss) == t.totalGainLoss * 100.0
    ensures t.isProfit <==> t.totalGainLoss >= 0.0
  {
    var value := SumBy(hs, ValueOf);
    var gain := SumBy(hs, GainOf);
    var percent :=
      if value > 0.0 then (if value - gain == 0.0 then None else Some(gain / (value - gain) * 100.0))
      else Some(0.0);
    Totals(value, gain, percent, gain >= 0.0)
  }

  /** The value less the gain is what the positions cost, so the gain
      percent is measured against the amount invested. */
  lemma TotalsAgainstInvested(entries: seq<Entry>, quotes: map<string, Quote>)
    ensures var hs := Holdings(entries, quotes);
            TotalsOf(hs).totalValue - TotalsOf(hs).totalGainLoss == SumBy(hs, InvestedOf)
  {
    var hs := Holdings(entries, quotes);
    forall i | 0 <= i < |hs| ensures InvestedOf(hs[i]) == ValueOf(hs[i]) - GainOf(hs[i]) {
      assert hs[i].gainLoss == hs[i].totalValue - hs[i].investedTotal;
    }
    SumBySubAt(hs, ValueOf, GainOf, InvestedOf);
  }

  lemma {:induction false} SumBySubAt<T>(s: seq<T>, f: T -> real, g: T -> real, h: T -> real)
    requires forall i :: 0 <= i < |s| ==> h(s[i]) == f(s[i]) - g(s[i])
    ensures SumBy(s, h) == SumBy(s, f) - SumBy(s, g)
    decreases |s|
  {
    if |s| > 0 {
      assert forall i :: 0 <= i < |s| - 1 ==> s[1..][i] == s[i + 1];
      SumBySubAt(s[1..], f, g, h);
    }
  }

  /** A holding row of the dashboard's portfolio reply; a missing or zero
      field is None. */
  datatype Row = Row(
    symbol: string, currentValue: Option<real>, averageBuyPrice: Option<real>,
    quantity: Option<real>, profitLoss: Option<real>, profitLossPercentage: Option<real>)

  /** `parseFloat(x || 0)` of a numeric field. */
  function Num(x: Option<real>): real { x.GetOr(0.0) }

  function RowValue(r: Row): real { Num(r.currentValue) }
  function RowInvested(r: Row): real { Times(Num(r.averageBuyPrice), Num(r.quantity)) }
  function RowProfit(r: Row): real { Num(r.profitLoss) }

  datatype Summary = Summary(totalValue: real, investedAmount: real, totalProfitLoss: real, shown: seq<Row>)

  /** loadDashboardData: value, amount invested and profit summed over all
      rows with missing fields counted as 0; the table shows the first five
      rows. */
  function DashboardSummary(rows: seq<Row>): (s: Summary)
    ensures s.totalValue == SumBy(rows, RowValue)
    ensures s.investedAmount == SumBy(rows, RowInvested)
    ensures s.totalProfitLoss == SumBy(rows, RowProfit)
    ensures |s.shown| == Min(5, |rows|) && s.shown == rows[..|s.shown|]
  {
    Summary(SumBy(rows, RowValue), SumBy(rows, RowInvested), SumBy(rows, RowProfit), Take(rows, 5))
  }

  /** The percentage shown for a row, 0 when missing. */
  function ShownPercentage(r: Row): (p: real)
    ensures r.profitLossPercentage.None? ==> p == 0.0
    ensures r.profitLossPercentage.Some? ==> p == r.profitLossPercentage.value
  {
    Num(r.profitLossPercentage)
  }

  /** The sums split over a concatenation of replies, so a row without any
      values changes no total. */
  lemma SummaryAppend(a: seq<Row>, b: seq<Row>)
    ensures DashboardSummary(a + b).totalValue == DashboardSummary(a).totalValue + DashboardSummary(b).totalValue
    ensures DashboardSummary(a + b).investedAmount == DashboardSummary(a).investedAmount + DashboardSummary(b).investedAmount
    ensures DashboardSummary(a + b).totalProfitLoss == DashboardSummary(a).totalProfitLoss + DashboardSummary(b).totalProfitLoss
  {
    SumByAppend(a, b, RowValue);
    SumByAppend(a, b, RowInvested);
    SumByAppend(a, b, RowProfit);
  }

  /** When every row's profit is its value less its cost, the summed profit
      is the summed value less the amount invested. */
  lemma SummaryConsistent(rows: seq<Row>)
    requires forall i :: 0 <= i < |rows| ==> RowProfit(rows[i]) == RowValue(rows[i]) - RowInvested(rows[i])
    ensures DashboardSummary(rows).totalProfitLoss == DashboardSummary(rows).totalValue - DashboardSummary(rows).investedAmount
  {
    SumBySubAt(rows, RowValue, RowInvested, RowProfit);
  }

  /** `userData.user?.balance || userData.balance || 0`. */
  function AvailableBalance(nested: Option<real>, flat: Option<real>): (b: real)
    ensures nested.Some? && nested.value != 0.0 ==> b == nested.value
    ensures !(nested.Some? && nested.value != 0.0) && flat.Some? ==> b == flat.value
    ensures !(nested.Some? && nested.value != 0.0) && flat.None? ==> b == 0.0
  {
    if nested.Some? && nested.value != 0.0 then nested.value else Num(flat)
  }
}

=== FILE: verification.dfy ===
/** Email verification codes (backend/services/email_service.py): the
    six-digit generator, storing a code, and the verify_code state machine
    with its attempt counter, expiry and one-shot use. Time is a number of
    seconds passed in by the caller. */
module Verification {
  import opened Base
  import opened Text
  import opened Seqs

  /** generate_verification_code with the six random draws passed in: each
      draw picks one decimal digit. */
  function GenerateCode(draws: seq<int>): (code: string)
    requires |draws| == 6 && forall i :: 0 <= i < 6 ==> 0 <= draws[i] < 10
    ensures |code| == 6
    ensures forall i :: 0 <= i < 6 ==> IsDigit(code[i]) && DigitValue(code[i]) == draws[i]
  {
    seq(6, (i: int) requires 0 <= i < 6 && 0 <= draws[i] < 10 => DigitChar(draws[i]))
  }

  /** One EmailVerificationCode row. */
  datatype Row = Row(email: string, code: string, expiresAt: int, isVerified: bool, attempts: nat)

  /** How long a code stays valid: 15 minutes. */
  const Lifetime := 15 * 60

  /** The rows save_verification_code deletes first: the same email's
      unverified codes that have already expired. */
  function Stale(email: string, now: int): Row -> bool {
    (r: Row) => r.email == email && !r.isVerified && r.expiresAt < now
  }

  function Keep(email: string, now: int): Row -> bool {
    (r: Row) => !Stale(email, now)(r)
  }

  /** save_verification_code: delete the stale rows, then append a new
      unverified row with no attempts that expires 15 minutes from now. */
  function SaveCode(rows: seq<Row>, email: string, code: string, now: int): (r: seq<Row>)
    ensures |r| >= 1 && r[|r| - 1] == Row(email, code, now + Lifetime, false, 0)
    ensures forall i :: 0 <= i < |r| - 1 ==> r[i] in rows && !Stale(email, now)(r[i])
    ensures forall i :: 0 <= i < |rows| && !Stale(email, now)(rows[i]) ==> rows[i] in r
  {
    Filter(rows, Keep(email, now)) + [Row(email, code, now + Lifetime, false, 0)]
  }

  /** Codes of other addresses, verified codes, and unexpired codes all
      survive a save. */
  lemma SaveKeepsOthers(rows: seq<Row>, email: string, code: string, now: int, i: nat)
    requires i < |rows|
    requires rows[i].email != email || rows[i].isVerified || rows[i].expiresAt >= now
    ensures rows[i] in SaveCode(rows, email, code, now)
  {
  }

  /** The outcome of verify_code. */
  datatype Verdict =
    | InvalidCode      // no row with this email and code
    | LookupFailed     // several rows match, and the lookup raises
    | Expired
    | AlreadyUsed
    | TooManyAttempts
    | Verified

  function Matches(email: string, code: string): Row -> bool {
    (r: Row) => r.email == email && r.code == code
  }

  /** The position of the first row with this email and code. */
  function FindRow(rows: seq<Row>, email: string, code: string): (k: Option<nat>)
    ensures k.Some? ==> k.value < |rows| && Matches(email, code)(rows[k.value])
    ensures k.None? <==> Count(rows, Matches(email, code)) == 0
    decreases |rows|
  {
    if |rows| == 0 then None
    else if Matches(email, code)(rows[0]) then Some(0)
    else match FindRow(rows[1..], email, code)
      case None => None
      case Some(j) => Some(j + 1)
  }

  /** The code model is not part of this model; expiry is read as the
      current time being past expires_at. */
  predicate IsExpired(r: Row, now: int) {
    now > r.expiresAt
  }

  /** verify_code. An unmatched pair and an ambiguous lookup change nothing.
      Otherwise the attempt counter is incremented and saved first, then the
      checks run in order (expired, already verified, more than five
      attempts), and only a code passing all three is marked verified. */
  function VerifyCode(rows: seq<Row>, email: string, code: string, now: int): (r: (Verdict, seq<Row>))
    ensures r.0 == InvalidCode <==> Count(rows, Matches(email, code)) == 0
    ensures r.0 == LookupFailed <==> Count(rows, Matches(email, code)) > 1
    ensures r.0 in {InvalidCode, LookupFailed} ==> r.1 == rows
    ensures r.0 !in {InvalidCode, LookupFailed} ==>
              var k := FindRow(rows, email, code).value;
              && |r.1| == |rows|
              && (forall i :: 0 <= i < |rows| && i != k ==> r.1[i] == rows[i])
              && r.1[k].attempts == rows[k].attempts + 1
              && (r.0 == Expired <==> IsExpired(rows[k], now))
              && (r.0 == AlreadyUsed <==> !IsExpired(rows[k], now) && rows[k].isVerified)
              && (r.0 == TooManyAttempts <==> !IsExpired(rows[k], now) && !rows[k].isVerified && rows[k].attempts + 1 > 5)
              && (r.0 == Verified <==> !IsExpired(rows[k], now) && !rows[k].isVerified && rows[k].attempts + 1 <= 5)
              && r.1[k] == rows[k].(attempts := rows[k].attempts + 1, isVerified := rows[k].isVerified || r.0 == Verified)
  {
    var n := Count(rows, Matches(email, code));
    if n == 0 then (InvalidCode, rows)
    else if n > 1 then (LookupFailed, rows)
    else
      var k := FindRow(rows, email, code).value;
      var row := rows[k].(attempts := rows[k].attempts + 1);
      if IsExpired(row, now) then (Expired, rows[k := row])
      else if row.isVerified then (AlreadyUsed, rows[k := row])
      else if row.attempts > 5 then (TooManyAttempts, rows[k := row])
      else (Verified, rows[k := row.(isVerified := true)])
  }

  /** A code that has already been tried five times is never accepted: the
      sixth matched attempt is always rejected. */
  lemma SixthAttemptRejected(rows: seq<Row>, email: string, code: string, now: int)
    requires Count(rows, Matches(email, code)) == 1
    requires rows[FindRow(rows, email, code).value].attempts >= 5
    ensures VerifyCode(rows, email, code, now).0 != Verified
  {
  }

  /** A code works once: after a successful verification, the same email and
      code are refused at any later time. */
  lemma VerifyOnce(rows: seq<Row>, email: string, code: string, now: int, later: int)
    requires VerifyCode(rows, email, code, now).0 == Verified
    ensures VerifyCode(VerifyCode(rows, email, code, now).1, email, code, later).0 in {Expired, AlreadyUsed}
  {
    var after := VerifyCode(rows, email, code, now).1;
    var k := FindRow(rows, email, code).value;
    CountUnchanged(rows, k, after[k], Matches(email, code));
    FindRowUnchanged(rows, k, after[k], email, code);
  }

  /** Replacing a row by one with the same email and code keeps the count of
      matches. */
  lemma {:induction false} CountUnchanged(rows: seq<Row>, k: nat, row: Row, p: Row -> bool)
    requires k < |rows| && p(row) == p(rows[k])
    ensures Count(rows[k := row], p) == Count(rows, p)
    decreases |rows|
  {
    if k > 0 {
      CountUnchanged(rows[1..], k - 1, row, p);
      assert rows[k := row][1..] == rows[1..][k - 1 := row];
    } else {
      assert rows[k := row][1..] == rows[1..];
    }
  }

  lemma {:induction false} FindRowUnchanged(rows: seq<Row>, k: nat, row: Row, email: string, code: string)
    requires k < |rows| && FindRow(rows, email, code) == Some(k)
    requires Matches(email, code)(row)
    ensures FindRow(rows[k := row], email, code) == Some(k)
    decreases |rows|
  {
    if k > 0 {
      assert !Matches(email, code)(rows[0]);
      var j := FindRow(rows[1..], email, code);
      assert j == Some(k - 1);
      FindRowUnchanged(rows[1..], k - 1, row, email, code);
      assert rows[k := row][1..] == rows[1..][k - 1 := row];
    }
  }
}
